=== FILE: README.md ===
# OutReach AI cold-email wizard — a Dafny model

OutReach AI is a four-step wizard for writing cold emails to employers:
1. paste a job-posting URL;
2. review the job details the backend extracted;
3. enter your own details;
4. receive a generated email and edit it.

The React frontend talks to a FastAPI backend. The backend loads the page, asks a language model to extract the job, and later asks it to write the email.

This project models the deterministic logic around those calls as immutable datatypes and pure functions, and proves properties of them.

**Backend**
- `JobScraper` — the scraper's normaliser, which turns the model's raw JSON into a fixed six-field record with placeholders. It also models the content guard before the model is asked.
- `EmailService` — the email service: the prompt data, the fallback subject and letter, the confidence score (kept in integer tenths), and the reading of the model's reply.
- `Backend` — the HTTP layer: the email and skills validators, how each endpoint maps failures to status codes, and the two exception handlers.

**Frontend**
- `Api` — the request client: the retry policy with exponential backoff over a given sequence of attempt outcomes, the per-attempt timeout, the error-message choice, and the request shapes.
- `UrlInput` — the URL screen: hostname-based acceptance, the error messages, and the submit-enable rule.
- `JobDetails` — the job-details screen: skill add and remove under a no-duplicates rule, field edits, Save and Continue.
- `EmailOutput` — the email screen: the exported text and its round trip, the edits, the prop sync, and the confidence badge.
- `Wizard` — the app's step and toast state machine, with the restart and the local fallback email.
- `LocalStorage` — the persisted-state hooks: read, write, storage events, object merge and array operations.
- `Chatbot` — the assistant panel: the keyword-priority reply classifier, the typing delay, the send guard, and the welcome message.
- `Stepper` — the progress indicator: the per-step status, the connectors, and the rounded percentage.
- `Types` — the shared record types.

**Glue modules**
- `Integration` connects the parts: backend error bodies as the client reads them, the wizard's step as the indicator shows it, and the personal details across a reload.
- `Base`, `Text` and `Seqs` hold `Option`/`Result`, string helpers (strip, lower-case, contains, split, replace, decimal text) and sequence filtering.

**What is a parameter rather than modelled**
- The page loader, the language model, `fetch`, the URL parser and JSON. Each is an input: an outcome, a reply, `hostOf: string -> Option<string>`, or a `Codec`.
- Clocks. `now` is a parameter, and delays are returned as numbers of milliseconds.

## Model

| member | source | states |
|---|---|---|
| Api.BaseUrl | frontend/src/services/api.ts:5 | an unset or empty `VITE_API_URL` falls back to `http://localhost:8000`; otherwise the variable is used |
| Api.ErrorResponseMessage | frontend/src/services/api.ts:38-41 | a non-2xx response's error message is the body's truthy `detail`, an array `detail` giving its string; else, for a non-JSON body, the non-empty status text; else "API Error: <status>"; it is never empty |
| Api.ObjectListText | frontend/src/services/api.ts:41 | `new Error` of an array of n objects has the message of n `[object Object]` texts joined by commas: 16n - 1 characters, starting with `[object Object]` |
| Api.SettleAsWritten | frontend/src/services/api.ts:38-44 | one attempt as written: a parsed 2xx body is returned, and a JSON `null` error body throws a `TypeError` |
| Api.NullErrorBodyIsRetried | frontend/src/services/api.ts:40-52 | as written, a 500 response with a `null` body is retried: two attempts, one 1000 ms wait, and the second attempt's value is returned |
| Api.Settle | frontend/src/services/api.ts:38-44 | one attempt as intended: its error is retryable exactly when the transport failed or timed out; every non-2xx response ends in a plain `Error` with a non-empty message; a 2xx body is returned |
| Api.ApiCall | frontend/src/services/api.ts:18-57 | at most `RetryAttempts - retryCount + 1` attempts; every attempt but the last failed transiently; the k-th wait is 1000·2^(retryCount+k) ms; the result is the last attempt's own result |
| Api.Pow2 | frontend/src/services/api.ts:51 | `Math.pow(2, k)` is at least 1 and greater than k |
| Api.BackoffIncreases | frontend/src/services/api.ts:51 | a later retry waits at least twice as long as an earlier one |
| Api.Call | frontend/src/services/api.ts:18-57 | a call from retry count 0, each attempt settled as intended: 1 to 3 attempts with one wait fewer, the k-th wait 1000·2^k ms, every attempt but the last transient, a stop before the third attempt only on a non-transient outcome, and the result the last attempt's own |
| Api.CallAsWritten | frontend/src/services/api.ts:18-57 | the same call with each attempt settled as written: the same bounds and waits, every attempt but the last transient as written, a stop before the third attempt only on an outcome that is not transient as written, and the result the last attempt's own |
| Api.CallBounds | frontend/src/services/api.ts:49-52 | a call from retry count 0 makes 1 to 3 attempts with one wait fewer; earlier attempts were transport failures, and a call ending before the third attempt ended on a non-transport result |
| Api.ResponsesAreNeverRetried | frontend/src/services/api.ts:38-50 | an answered non-2xx first attempt is final: one attempt, no wait, a plain `Error` |
| Api.AllTransportFailures | frontend/src/services/api.ts:49-52 | three transport failures give three attempts, waits [1000, 2000], and the last failure |
| Api.RecoversAfterTwoNetworkFailures | frontend/src/services/api.ts:44-52 | two network failures followed by a success resolve with the success value after waits of 1000 and 2000 ms |
| Api.WithTimeout | frontend/src/services/api.ts:23-36 | an attempt whose headers take 30000 ms or more is aborted; otherwise its own outcome stands |
| Api.EachAttemptHasItsOwnBudget | frontend/src/services/api.ts:24-46 | attempts that each answer within 30000 ms are never cut short, whatever the call's total time |
| Api.RequestHeaders | frontend/src/services/api.ts:30-33 | the JSON content type is always present unless the caller supplies one, which wins; every caller header is kept |
| Api.ExtractJobDataRequest | frontend/src/services/api.ts:65-71 | `extractJobData` POSTs `{url}` to `/api/extract-job` with the JSON content type |
| Api.GenerateEmailRequest | frontend/src/services/api.ts:80-92 | `generateEmail` POSTs `{jobData, personalInfo}` to `/api/generate-email` with the JSON content type |
| JobScraper.Field | backend/job_scraper.py:127-132 | a field's text is always stripped, and a missing key reads as "" |
| JobScraper.StripNonBlank | backend/job_scraper.py:138 | each kept skill is non-empty and stripped; nothing is kept exactly when every piece is blank; a single piece gives its stripped form, or nothing when it is blank |
| JobScraper.StripNonBlankAppend | backend/job_scraper.py:138 | the filter works piece by piece over a concatenation, so the kept skills are the pieces' stripped forms in their order |
| JobScraper.StripNonBlankKeepsClean | backend/job_scraper.py:138 | pieces that are already clean pass through unchanged |
| JobScraper.SkillsFromText | backend/job_scraper.py:139-142 | the skills of a string are the stripped non-blank pieces of the split text; each is non-empty, stripped, free of every delimiter (',', ';', '\|', the mis-decoded bullet), and there are none for a blank string |
| JobScraper.SkillsJoinRoundTrip | backend/job_scraper.py:139-142 | clean skills joined with ',', ';' or '\|' are parsed back to exactly those skills, in order |
| JobScraper.SplitSkillTextOfJoin | backend/job_scraper.py:141 | splitting such a join after the three replacements gives the skills back |
| JobScraper.CommaAndSemicolonBecomeBars | backend/job_scraper.py:141 | the ',' and ';' replacements turn a join with any of the three delimiters into the join with '\|' |
| JobScraper.NoDelimiterInPieces | backend/job_scraper.py:141 | after the three replacements and the split, no piece, stripped, holds a delimiter |
| JobScraper.RawSkills | backend/job_scraper.py:135-142 | a list gives the stripped non-blank `str()` forms of its items in order; a string gives its parsed skills; a value of any other type gives none; every entry is clean |
| JobScraper.Required | backend/job_scraper.py:145-150 | a required scalar is its stripped text, or the placeholder when that is empty |
| JobScraper.SkillsOrPlaceholder | backend/job_scraper.py:151-152 | the parsed skills, or ["Skills not specified"] when none |
| JobScraper.CleanJobData | backend/job_scraper.py:122-154 | the cleaned record meets the guarantee (non-empty role, company, description, skills; all stripped); each field is its stripped input or its placeholder; experience and location have no placeholder |
| JobScraper.CleanFixesWellFormed | backend/job_scraper.py:122-154 | a record that meets the guarantee is returned unchanged by cleaning |
| JobScraper.CleanIdempotent | backend/job_scraper.py:122-154 | cleaning a cleaned record changes nothing |
| JobScraper.NullRoleIsKeptAsText | backend/job_scraper.py:127 | a `null` role becomes the text "None", not the placeholder |
| JobScraper.ExtractJobData | backend/job_scraper.py:93-120 | a missing page or one under 100 stripped characters fails before the model is asked; success exactly for a long page and an object reply, giving the cleaned record; every error carries the "Failed to extract job data: " prefix |
| EmailService.PromptData | backend/email_service.py:79-90 | the prompt takes the job's and applicant's fields (defaults ""), the job skills joined with ", ", and renders `None` as "None" |
| EmailService.PromptNamesEverySkill | backend/email_service.py:83 | every job skill occurs in the prompt's skills text |
| EmailService.FallbackEmailMentions | backend/email_service.py:136-154 | the fallback letter names the role, company, applicant's skills and name (with their defaults) and is over 200 characters |
| EmailService.FallbackSubject | backend/email_service.py:116-121 | the fallback subject reads "Application for <role> - <name>", the role defaulting to "Position" and the name to "Candidate" |
| EmailService.FallbackEmail | backend/email_service.py:136-154 | the fallback letter opens with the fixed greeting and ends with the applicant's name (empty by default) |
| EmailService.LetterContains | backend/email_service.py:143-154 | the letter template contains each of its four inserted texts |
| EmailService.SkillMatches | backend/email_service.py:181-183 | the number of job skills that occur, lower-cased, in the lower-cased content: at most the number of skills, 0 exactly when no skill occurs, all of them exactly when every skill occurs |
| EmailService.EmptySkillAlwaysMatches | backend/email_service.py:181-183 | an empty job skill always counts as a match |
| EmailService.MentionTenths | backend/email_service.py:161-178 | 2 tenths exactly when the needle is non-empty and occurs case-insensitively in the text, otherwise 0 |
| EmailService.LengthTenths | backend/email_service.py:170-173 | 0 up to 100 characters, 2 up to 200, 3 beyond |
| EmailService.SkillTenths | backend/email_service.py:182-183 | one tenth per matching skill, 0 exactly when none matches, 3 exactly when three or more do |
| EmailService.UncappedTenths | backend/email_service.py:158-185 | the sequential score is the sum of the company and role mentions in the subject, the length term, the name mention in the content and the skill term; the total lies in 0..12 tenths, at most 9 for content of 100 characters or fewer, and 0 when company, role and name are empty, the content is short and no skill matches |
| EmailService.EmptyCompanyNeverContributes | backend/email_service.py:164 | with an empty company the score is the sum of the other four terms, whatever the subject |
| EmailService.EmptyRoleNeverContributes | backend/email_service.py:166 | with an empty role the score is the sum of the other four terms, whatever the subject |
| EmailService.EmptyNameNeverContributes | backend/email_service.py:176-177 | with an empty name the score is the sum of the other four terms, whatever the content |
| EmailService.ConfidenceTenths | backend/email_service.py:187 | the score is the summed terms capped at 10 tenths: always within 0..1, never above the sum, equal to the sum up to the cap and exactly 10 tenths from the cap on |
| EmailService.MoreSkillsNeverLowerScore | backend/email_service.py:181-187 | adding a job skill never lowers the score |
| EmailService.SkillMatchesAppend | backend/email_service.py:181-183 | one more job skill adds exactly one match when it occurs, lower-cased, in the content and none otherwise |
| EmailService.FullScore | backend/email_service.py:158-187 | subject naming company and role, content over 200 characters naming the applicant, and one matching skill give the full score |
| EmailService.UncappedMaximum | backend/email_service.py:158-187 | with every term at its largest the sum is 12 tenths, capped to 10 |
| EmailService.FallbackLetterScore | backend/email_service.py:170-178 | the fallback letter earns the length points, and the name points for a non-empty name |
| EmailService.FallbackSubjectNamesRole | backend/email_service.py:117-121 | the fallback subject earns the role points for a non-empty role |
| EmailService.StrippedField | backend/email_service.py:113-114 | a reply field is read and stripped; a non-string value fails with Python's `AttributeError` message |
| EmailService.EnhanceEmailResult | backend/email_service.py:110-134 | stripped subject and content, each replaced by its fallback when blank, so neither is empty; the score is computed on the final texts |
| EmailService.GenerateEmail | backend/email_service.py:75-108 | success exactly for an object reply whose fields read; every failure carries the "Failed to generate email: " prefix |
| EmailService.EmptyReplyFallsBack | backend/email_service.py:113-125 | an empty reply object yields the fallback subject and letter |
| EmailService.DumpJob | backend/main.py:144 | the job request model dumps to a dictionary with every field as a key, of the shapes the service reads, carrying the request's role, company and skills |
| EmailService.DumpPersonal | backend/main.py:145 | the personal request model dumps to a dictionary with every field as a key, of the shapes the service reads, carrying the request's name and skills |
| EmailService.EndpointFallbacksUseRequest | backend/main.py:143-146 | called from the endpoint, the fallbacks and prompt use the request's own role, company, skills and name, never the defaults |
| Backend.ScanEmail | backend/main.py:56-57 | a direct scan decides exactly the shape `[^\s@]+@[^\s@]+\.[^\s@]+` |
| Backend.ScanEmailCorrect | backend/main.py:56 | splitting at the first '@' and testing the two sides is equivalent to the shape |
| Backend.ValidateEmailAsWritten | backend/main.py:55-59 | as written: accepts exactly what `re.match` with `$` accepts, the shape plus an optional final line feed; the value is returned unchanged; otherwise "Invalid email format" |
| Backend.TrailingLineFeedSlipsThrough | backend/main.py:56-57 | "a@b.co\n" is accepted as written and rejected as intended |
| Backend.ValidateEmail | backend/main.py:55-59 | as intended: accepts exactly the shape, returns the value unchanged, otherwise "Invalid email format" |
| Backend.AcceptedEmailHasOneAt | backend/main.py:56 | an accepted address contains exactly one '@' |
| Backend.ValidateSkills | backend/main.py:63-66 | accepted iff the stripped text has at least 10 characters; the stripped text is stored; otherwise the exact message |
| Backend.ValidateSkillsIdempotent | backend/main.py:63-66 | a stored skills text passes again unchanged |
| Backend.ValidatePersonalInfo | backend/main.py:42-66 | as intended (corrected email check): valid iff both validators accept; the stored value has stripped skills; a failure lists one or two messages: the email message first exactly when the email failed, the skills message exactly when the skills failed |
| Backend.HttpExceptionHandler | backend/main.py:174-183 | an `HTTPException` becomes its status with `{error: true, message: detail, status_code}` |
| Backend.GeneralExceptionHandler | backend/main.py:185-194 | any other exception becomes 500 with the fixed message "An unexpected error occurred" |
| Backend.HttpExceptionText | backend/main.py:130-136 | `str()` of an `HTTPException` is its status, ": " and its detail, which is how the 400 for an empty record ends up inside the 500 message |
| Backend.ToJobModel | backend/main.py:132 | the cleaned record fills the response model, with experience and location present |
| Backend.ExtractEndpoint | backend/main.py:122-136 | 200 exactly for a non-empty record; every failure, including the 400 for an empty record, becomes 500 with the "Failed to extract job data: " prefix |
| Backend.ExtractEndpointOverScraper | backend/main.py:125-136 | over the scraper, 200 exactly when the scraper succeeded, with a non-empty role and skills; a failure carries the prefix twice |
| Backend.GenerateEndpoint | backend/main.py:138-155 | 200 with the service's subject, content and score exactly when the service succeeded; otherwise 500 with the "Failed to generate email: " prefix |
| Backend.ValidatePersonalInfoAsWritten | backend/main.py:42-66 | the same validation with the email check as written: valid iff the as-written email check and the skills check accept, with the same messages |
| Backend.PersonalInfoTrailingLineFeed | backend/main.py:54-58 | with valid skills, "a@b.co\n" passes the request model as written and fails it as intended with the email message alone |
| Backend.HandleGenerateRequest | backend/main.py:42-155 | as intended (corrected email check): an invalid `personalInfo` gets 422 with the validators' messages before the service runs; otherwise the service sees the stripped skills |
| Backend.EndpointErrorsAreExplicit | backend/main.py:122-155 | every error body of the two endpoints carries its own status and never the generic message |
| UrlInput.SomeDomain | frontend/src/components/URLInput.tsx:34-36 | true iff some listed domain occurs anywhere in the hostname |
| UrlInput.ValidateUrl | frontend/src/components/URLInput.tsx:18-49 | no error iff the URL parses and its hostname is supported; a parse failure and an unsupported host each get their message |
| UrlInput.OnlyHostnameMatters | frontend/src/components/URLInput.tsx:20-36 | two URLs with the same hostname are judged alike |
| UrlInput.LookalikeHostAccepted | frontend/src/components/URLInput.tsx:34-36 | "linkedin.com.example.org" is accepted: containment, not a suffix match |
| UrlInput.Submit | frontend/src/components/URLInput.tsx:51-63 | a blank input gets "Please enter a job URL" and no submit; otherwise the trimmed URL is submitted iff it validates, and the error is the validator's |
| UrlInput.SubmitEnabled | frontend/src/components/URLInput.tsx:195 | the submit button is enabled exactly when not loading, the trimmed URL is non-empty and no error is shown |
| UrlInput.Type | frontend/src/components/URLInput.tsx:65-73 | typing stores the text and clears an error only for non-blank text |
| UrlInput.ChooseSuggestion | frontend/src/components/URLInput.tsx:75-78 | a suggestion replaces the text and always clears the error |
| UrlInput.EnabledSubmitIsNeverBlank | frontend/src/components/URLInput.tsx:195 | through the enabled button the blank message never appears, and the URL is submitted iff it validates |
| UrlInput.RefusalDisablesUntilEdited | frontend/src/components/URLInput.tsx:195 | after a refusal the button is disabled, and re-enabled by typing exactly when the new text is non-blank |
| JobDetails.Mount | frontend/src/components/JobDetails.tsx:12-13 | the screen starts with a copy of the record, not editing, with an empty skill input |
| JobDetails.AddSkill | frontend/src/components/JobDetails.tsx:20-27 | a non-empty skill not already present (exact comparison) is appended; anything else changes nothing; no other field changes |
| JobDetails.RemoveSkill | frontend/src/components/JobDetails.tsx:29-33 | the skill no longer occurs, every remaining entry was there before, and no other field changes |
| JobDetails.AddSkillSet | frontend/src/components/JobDetails.tsx:20-27 | after adding, the set of skills is the old set plus the skill when it is non-empty |
| JobDetails.AddSkillKeepsNoDuplicates | frontend/src/components/JobDetails.tsx:21 | adding keeps the list free of duplicates |
| JobDetails.RemoveSkillCounts | frontend/src/components/JobDetails.tsx:32 | removal keeps every other skill with its multiplicity and drops every copy of the removed one |
| JobDetails.RemoveSkillKeepsNoDuplicates | frontend/src/components/JobDetails.tsx:29-33 | removal keeps the list free of duplicates |
| JobDetails.RemoveUndoesAdd | frontend/src/components/JobDetails.tsx:20-33 | removing a skill that was just added restores the record |
| JobDetails.EditField | frontend/src/components/JobDetails.tsx:58 | a field edit sets that field and leaves every other field unchanged |
| JobDetails.Handle | frontend/src/components/JobDetails.tsx:15-160 | only Save sends the record, and it leaves edit mode; only Continue asks to move on; the toggle flips edit mode and keeps the copy; the toggle and Save leave the skill input empty, because the uncontrolled input is remounted; Enter adds the input's text and clears the input; a field edit changes that field of the copy and a removal drops that skill, both keeping the input; typing sets the input and keeps the copy; Continue changes nothing |
| JobDetails.ReadOnlyOutsideEditMode | frontend/src/components/JobDetails.tsx:104-160 | outside edit mode no available control changes the record, and the only output is Continue |
| JobDetails.Run | frontend/src/components/JobDetails.tsx:15-160 | a run produces at most one output per event, and the k-th output is a record exactly when the k-th event is Save and the move-on request exactly when it is Continue |
| JobDetails.RunKeepsNoDuplicates | frontend/src/components/JobDetails.tsx:20-33 | whatever the user does, a duplicate-free skill list stays duplicate-free |
| JobDetails.CancelledEditsAreSavedLater | frontend/src/components/JobDetails.tsx:42 | an edit made, cancelled and followed by Edit and Save is still sent |
| JobDetails.CancelledSkillTextIsDiscarded | frontend/src/components/JobDetails.tsx:115-127 | text left in the skill input when edit mode is cancelled is gone on return: Enter then adds nothing |
| Types.ParseJobType | frontend/src/types/index.ts:11 | exactly the four employment-type strings read back as a type |
| Types.JobTypeRoundTrip | frontend/src/types/index.ts:11 | every employment type reads back from its text |
| Types.ToBackend | backend/main.py:68-77 | the frontend record reaches the backend model with the same skills, experience and location present, and a job type that reads back |
| Types.EmptyJobData | frontend/src/App.tsx:20-27 | the starting job record has empty role, company and skills |
| Wizard.DefaultPersonalInfo | frontend/src/App.tsx:29-34 | the default personal details are empty, with an empty portfolio |
| Wizard.EmptyEmail | frontend/src/App.tsx:37-40 | the starting email has an empty subject and content |
| Wizard.Init | frontend/src/App.tsx:19-46 | the first render: step 1, an empty job and email, the stored personal details, no loading, no error, no toasts |
| Wizard.ShowToast | frontend/src/App.tsx:49-52 | one toast with the current time as id is appended and the others are kept |
| Wizard.RemoveToast | frontend/src/App.tsx:54-56 | every toast with the id goes and every other toast stays |
| Wizard.RemoveUndoesShow | frontend/src/App.tsx:49-56 | closing a toast whose id was new undoes showing it |
| Wizard.CollidingToastsCloseTogether | frontend/src/App.tsx:49-56 | two toasts shown in the same millisecond are closed together: closing their shared id leaves exactly the toasts that were there before them minus that id |
| Wizard.ErrorText | frontend/src/App.tsx:69 | an empty error message gives way to the handler's default text |
| Wizard.FallbackEmail | frontend/src/App.tsx:96-100 | the fallback subject is "Interest in <role> Position"; no score, suggestions or level |
| Wizard.FallbackEmailMentions | frontend/src/App.tsx:99 | the fallback letter opens with the salutation, names role, company and skills, and ends "Best regards,\n<name>" |
| Wizard.ScreenFor | frontend/src/App.tsx:128-159 | some screen renders iff the step is 1 to 4 |
| Wizard.Handle | frontend/src/App.tsx:59-125 | the step moves only on a successful extraction (to 2), Continue (2 to 3), the personal submit (3 to 4) and restart (to 1); loading starts on each request and ends when it settles; only the personal submit changes the personal details; a new extraction clears the error; a successful extraction shows the extracted record on step 2 with the success toast; a failed extraction keeps the step and job and stores the error text with an error toast; a job update replaces the record with its toast; a generated email replaces the email with its toast; a failed generation installs the fallback built from the pending job and details with an error toast; restart empties the record, the email and the error; what each event leaves alone is stated by `Wizard.HandleRequestFrames` and `Wizard.HandleScreenControls` |
| Wizard.HandleScreenControls | frontend/src/App.tsx:149-200 | an email edit replaces the email; the email screen's toasts are shown as successes; closing a toast removes its id; the chat toggles and closes, the about panel opens and closes, and neither panel changes on any other event; each of these events changes no other field |
| Wizard.HandleRequestFrames | frontend/src/App.tsx:59-121 | the fields each handler leaves alone: a URL submit keeps the step, record, email and toasts; an extraction keeps the email, and a failed one the step; a job update keeps step, email, loading, error and request; Continue keeps toasts, email, error, loading and request; the personal submit keeps record, email, error and toasts and captures the current record with the details; a generation keeps step and record; restart keeps toasts, loading and request; no handler touches the panels |
| Wizard.InitInvariant | frontend/src/App.tsx:19-46 | the first render satisfies the invariant |
| Wizard.HandleKeepsInvariant | frontend/src/App.tsx:59-125 | every available event keeps the step in 1..4, loading exactly while a request is in flight, and each request on its own screen |
| Wizard.RunKeepsInvariant | frontend/src/App.tsx:128-159 | every reachable state renders some screen |
| Wizard.RestartKeepsPersonalInfo | frontend/src/App.tsx:106-121 | restart returns to step 1 with empty job and email and no error, and keeps the personal details and toasts |
| Wizard.FailedGenerationUsesSubmittedData | frontend/src/App.tsx:82-104 | a failed generation leaves step 4, not loading, with the fallback from the job and the submitted details, and one error toast |
| LocalStorage.Read | frontend/src/hooks/useLocalStorage.ts:12-27 | a missing or empty item, or one that does not parse, reads as the initial value; otherwise the parsed value |
| LocalStorage.Mount | frontend/src/hooks/useLocalStorage.ts:30 | the first render reads the stored value |
| LocalStorage.SetValue | frontend/src/hooks/useLocalStorage.ts:33-53 | the state takes the new value (an updater applied to the render's value); storage is written under the key only when serialisation succeeds |
| LocalStorage.WriteThenRead | frontend/src/hooks/useLocalStorage.ts:16-49 | a successful write reads back as the written value; other keys read as before |
| LocalStorage.RemountRestores | frontend/src/hooks/useLocalStorage.ts:12-53 | reloading after a successful write restores the value |
| LocalStorage.OnStorage | frontend/src/hooks/useLocalStorage.ts:56-71 | an event for another key, a cleared item or unparsable text leaves the state; a parsable new value for the key replaces it; storage is untouched |
| LocalStorage.OtherTabWriteArrives | frontend/src/hooks/useLocalStorage.ts:59-62 | another tab's successful write arrives as the value it wrote |
| LocalStorage.Merge | frontend/src/hooks/useLocalStorage.ts:86 | the keys of the update take their new values and every other key keeps its old one |
| LocalStorage.MergeIdempotent | frontend/src/hooks/useLocalStorage.ts:86 | applying the same partial update twice equals applying it once |
| LocalStorage.MergeCompose | frontend/src/hooks/useLocalStorage.ts:86 | two partial updates compose into one whose later keys win |
| LocalStorage.UpdateState | frontend/src/hooks/useLocalStorage.ts:85-87 | `updateState` merges the update into the state; the new value is written under the key when it serialises, and the store is left as it was when it does not |
| LocalStorage.ResetState | frontend/src/hooks/useLocalStorage.ts:89-91 | `resetState` restores the initial object; the new value is written under the key when it serialises, and the store is left as it was when it does not |
| LocalStorage.AddItem | frontend/src/hooks/useLocalStorage.ts:105-107 | the item is appended; the new value is written under the key when it serialises, and the store is left as it was when it does not |
| LocalStorage.RemoveItem | frontend/src/hooks/useLocalStorage.ts:109-111 | no kept item satisfies the predicate, every kept item was there, and every item the predicate rejects is kept; the new value is written under the key when it serialises, and the store is left as it was when it does not |
| LocalStorage.ClearArray | frontend/src/hooks/useLocalStorage.ts:113-115 | the array becomes empty; the new value is written under the key when it serialises, and the store is left as it was when it does not |
| LocalStorage.RemoveItemCounts | frontend/src/hooks/useLocalStorage.ts:110 | removal keeps each rejected item's multiplicity and drops every accepted item |
| LocalStorage.RemoveUndoesAdd | frontend/src/hooks/useLocalStorage.ts:105-111 | removing by a predicate that accepts only the added item undoes the addition |
| Chatbot.Respond | frontend/src/components/chat/EnhancedChatbot.tsx:73-134 | the reply (one of the fifteen canned texts, named by the rule that picks it) is that of the first rule, in priority order (the current step's rules, then the generic ones), whose keyword the lower-cased message contains, else the default reply |
| Chatbot.FirstMatch | frontend/src/components/chat/EnhancedChatbot.tsx:76-133 | a reply is found iff some rule fires, and it is the reply of a firing rule |
| Chatbot.FirstMatchAppend | frontend/src/components/chat/EnhancedChatbot.tsx:76-133 | a later part of the table is consulted only when no rule of the earlier part fires |
| Chatbot.ClassifyIsFirstMatch | frontend/src/components/chat/EnhancedChatbot.tsx:76-133 | the handler's nested conditions equal the priority table, for every keyword test |
| Chatbot.Utf16Length | frontend/src/components/chat/EnhancedChatbot.tsx:152 | the JavaScript length lies between the number of characters and twice it |
| Chatbot.TypingDelay | frontend/src/components/chat/EnhancedChatbot.tsx:152 | the delay is exactly 30 ms per UTF-16 unit of the reply while that stays below 2000 ms, and exactly 2000 ms from there on |
| Chatbot.BmpLength | frontend/src/components/chat/EnhancedChatbot.tsx:152 | without characters beyond the Basic Multilingual Plane the JavaScript length is the character count |
| Chatbot.RespondIgnoresCase | frontend/src/components/chat/EnhancedChatbot.tsx:74 | a message and its lower-cased form get the same reply |
| Chatbot.OutsideStepsOnlyGeneric | frontend/src/components/chat/EnhancedChatbot.tsx:76-133 | outside steps 1-4 the reply is the greeting, thanks, tips or default reply |
| Chatbot.StepRules | frontend/src/components/chat/EnhancedChatbot.tsx:76-119 | the rules of a step are limited to that step |
| Chatbot.StepRulesComeFirst | frontend/src/components/chat/EnhancedChatbot.tsx:76-123 | when a rule of the current step fires, it wins over every generic rule |
| Chatbot.HiInsideAWord | frontend/src/components/chat/EnhancedChatbot.tsx:121-123 | "this" gets the greeting: "hi" is a substring test |
| Chatbot.Welcome | frontend/src/components/chat/EnhancedChatbot.tsx:36-58 | steps 1-4 get a step greeting and any other step the generic one |
| Chatbot.WelcomesDiffer | frontend/src/components/chat/EnhancedChatbot.tsx:36-53 | the four step greetings are pairwise different, down to their first suggestion |
| Chatbot.WelcomeLeadsIntoStep | frontend/src/components/chat/EnhancedChatbot.tsx:36-53 | each step's first suggestion is answered by a rule of that same step: the URL advice on step 1, editing on step 2, describing skills on step 3, the subject line on step 4 |
| Chatbot.TipsSuggestionGetsGreeting | frontend/src/components/chat/EnhancedChatbot.tsx:55-58 | the generic welcome's "Tips for job searching" suggestion is answered with the greeting, since "searching" contains "hi" |
| Chatbot.WelcomeEffect | frontend/src/components/chat/EnhancedChatbot.tsx:34-70 | an open panel with an empty history gets exactly the step's welcome message with its suggestions; otherwise nothing changes |
| Chatbot.Send | frontend/src/components/chat/EnhancedChatbot.tsx:136-164 | a blank text is ignored; otherwise the user's message is appended, the input cleared, typing shown and the step's reply scheduled with its delay |
| Chatbot.SendEnabled | frontend/src/components/chat/EnhancedChatbot.tsx:276 | the send button is enabled exactly when the trimmed input is non-empty |
| Chatbot.SendButtonMatchesGuard | frontend/src/components/chat/EnhancedChatbot.tsx:275-276 | the send button is enabled exactly when pressing it changes the panel |
| Chatbot.Deliver | frontend/src/components/chat/EnhancedChatbot.tsx:154-163 | a timer appends its reply as an AI message, hides the typing indicator and leaves the other pending replies |
| Chatbot.EmptyIsBalanced | frontend/src/components/chat/EnhancedChatbot.tsx:136-164 | an empty panel is balanced |
| Chatbot.WelcomeKeepsBalance | frontend/src/components/chat/EnhancedChatbot.tsx:34-70 | the welcome effect keeps every user message matched by one delivered or pending reply |
| Chatbot.SendKeepsBalance | frontend/src/components/chat/EnhancedChatbot.tsx:136-164 | sending keeps every user message matched by one delivered or pending reply |
| Chatbot.DeliverKeepsBalance | frontend/src/components/chat/EnhancedChatbot.tsx:154-163 | delivering keeps every user message matched by one delivered or pending reply |
| EmailOutput.ParseFullText | frontend/src/components/EmailOutput.tsx:27 | reading an exported text back yields a subject without line breaks |
| EmailOutput.FullTextRoundTrip | frontend/src/components/EmailOutput.tsx:27 | a subject without line breaks survives the export: the text reads back as the same subject and content |
| EmailOutput.ParsedTextIsExport | frontend/src/components/EmailOutput.tsx:27 | every text that reads back is the export of what it reads back as |
| EmailOutput.ParsedParts | frontend/src/components/EmailOutput.tsx:27 | a parsed subject and content, joined again with the subject prefix and the blank line, give back the text |
| EmailOutput.SubjectWithBlankLineIsAmbiguous | frontend/src/components/EmailOutput.tsx:27 | two different emails can export the same text when the subject holds a blank line |
| EmailOutput.Perform | frontend/src/components/EmailOutput.tsx:26-44 | Copy and Download both export the editable copy's full text; only Download names a file |
| EmailOutput.CopyEqualsDownload | frontend/src/components/EmailOutput.tsx:27-33 | the copied and downloaded texts are identical |
| EmailOutput.SyncProp | frontend/src/components/EmailOutput.tsx:22-24 | a new prop replaces the editable copy, edits included |
| EmailOutput.Edit | frontend/src/components/EmailOutput.tsx:80-96 | an edit changes only its field, and the same record goes to the wizard |
| EmailOutput.EditThenSyncIsStable | frontend/src/components/EmailOutput.tsx:20-24 | the prop the wizard hands back after an edit leaves the copy unchanged |
| EmailOutput.BadgeLabel | frontend/src/components/EmailOutput.tsx:69 | the badge reads "Confidence: " followed by a number and '%' |
| EmailOutput.BadgeAsWritten | frontend/src/components/EmailOutput.tsx:67-71 | as written: no score renders nothing, a zero score renders the text "0", any other score the badge |
| EmailOutput.ZeroScoreRendersStrayZero | frontend/src/components/EmailOutput.tsx:67 | a zero score puts something other than nothing in the badge slot |
| EmailOutput.ConfidenceBadge | frontend/src/components/EmailOutput.tsx:67-71 | as intended: the badge shows exactly for a present non-zero score, and nothing else is rendered in its place |
| EmailOutput.BadgeAgreesExceptZero | frontend/src/components/EmailOutput.tsx:67-71 | the two badge rules agree on every score except zero |
| EmailOutput.RenderAsWritten | frontend/src/components/EmailOutput.tsx:46-71 | the loading view exactly while loading; otherwise the editable copy's fields and the badge slot as written for the wizard's email, stray "0" included |
| EmailOutput.Render | frontend/src/components/EmailOutput.tsx:46-71 | the same screen with the corrected badge of the Findings table: the loading view exactly while loading; otherwise the editable copy's fields and the intended badge for the wizard's email |
| EmailOutput.RenderAgreesExceptZero | frontend/src/components/EmailOutput.tsx:67-71 | the screen as written and the corrected screen differ exactly when not loading with a score of 0 |
| Stepper.StepsNumberedInOrder | frontend/src/components/Stepper.tsx:17-42 | four steps numbered 1 to 4 in screen order |
| Stepper.CircleFor | frontend/src/components/Stepper.tsx:49-67 | a step is active iff it is the current one, completed iff the current one is past it, locked iff before it |
| Stepper.AccessibleStyleUnreachable | frontend/src/components/Stepper.tsx:51-65 | the "accessible" style is never chosen: accessible is active or completed |
| Stepper.MarkerFor | frontend/src/components/Stepper.tsx:49-93 | check mark iff completed; pulse and highlighted description iff active; highlighted title unless locked; otherwise the icon is white iff active |
| Stepper.ConnectorAfter | frontend/src/components/Stepper.tsx:98-110 | a connector is green iff its step is completed, animated iff the next step is active, and animated only when green |
| Stepper.RenderTrack | frontend/src/components/Stepper.tsx:47-115 | one marker per step and a connector after every step but the last |
| Stepper.TrackShowsOneActiveStep | frontend/src/components/Stepper.tsx:47-115 | on steps 1-4: completed steps before the current one, exactly one active step, locked steps after it; exactly the connectors before it green and only the one into it animated |
| Stepper.NoActiveStepOutsideRange | frontend/src/components/Stepper.tsx:49 | outside 1-4 no step is active |
| Stepper.Percent | frontend/src/components/Stepper.tsx:130 | the percentage rounds 100·current/total half up; none for a zero total |
| Stepper.RoundingIsUnique | frontend/src/components/Stepper.tsx:130 | the half-up rounding has exactly one answer |
| Stepper.PercentMonotone | frontend/src/components/Stepper.tsx:130 | with a positive total the percentage never falls as the step advances |
| Stepper.WizardPercentages | frontend/src/components/Stepper.tsx:16-130 | with the default four steps, step c reads 25·c percent, so the last reads 100% |
| Integration.HandlerAnswerIsFinal | frontend/src/services/api.ts:38-56 | a handler's answer to the first attempt is final, and the call rejects with the message derived from the body the client sees |
| Integration.ClientViewAsWritten | backend/main.py:174-183 | as written the client finds no `detail` in a handler's body, so whatever the status its message is "API Error: <status>" |
| Integration.ClientView | frontend/src/services/api.ts:40-41 | as intended, a handler's non-empty text is the client's message whatever the status |
| Integration.ValidationView | frontend/src/services/api.ts:40-41 | FastAPI's 422 body, whose `detail` is one object per failed validator, gives the client the message of that array and none of the validators' texts |
| Integration.ValidationFailureShowsObjectText | backend/main.py:42-67 | as intended (corrected email check): details that fail validation are answered with 422 once, and the wizard shows "[object Object]" once per failed validator instead of the validators' messages |
| Integration.ServerMessageIsLost | backend/main.py:174-183 | as written, whatever the handler's text, the wizard shows "API Error: <status>" |
| Integration.ScraperReasonIsHidden | backend/main.py:134-136 | a scraper failure "timeout" reaches the client as "API Error: 500", not as its own message |
| Integration.ServerMessageReachesUser | frontend/src/services/api.ts:39-41 | as intended, a handler's non-empty text is what the wizard shows |
| Integration.ExtractFailureReachesUser | backend/main.py:134-136 | as intended, every extraction failure reaches the user with the endpoint's prefix |
| Integration.IndicatorFollowsWizard | frontend/src/App.tsx:169 | in every reachable wizard state the indicator has exactly one active step, the one shown, and reads 25% per step |
| Integration.Reload | frontend/src/App.tsx:29-34 | a reload starts at step 1, with the defaults when nothing is stored |
| Integration.SubmittedDetailsSurviveReload | frontend/src/App.tsx:83 | submitted details are written under their key, and a reload starts over with them filled in |

## Left out

- The page loader (Playwright), the language-model calls, prompt templates and the JSON output parser. Their results are inputs: `JobScraper.ModelReply` and `EmailService.ModelReply`.
- `test_connection`, the health check, the root endpoint and the supported-sites endpoint. They only probe or list services.
- FastAPI, CORS and uvicorn wiring, and pydantic's `HttpUrl` checks of `url`, `portfolio`, `linkedin` and `github`. This has a visible cost: the wizard starts with `portfolio: ''` (frontend/src/App.tsx:34, kept by frontend/src/components/PersonalInfo.tsx:57-58), and an empty string fails `Optional[HttpUrl]` (backend/main.py:46). A submission whose portfolio was never filled in is therefore answered with 422 and one more error object than `Integration.ValidationFailureShowsObjectText` counts, and the model's `Backend.HandleGenerateRequest` lets such a request through where the backend would not.
- FastAPI's own 422 body beyond its shape. `Backend.ValidationErrors` carries the validators' messages, and the client reads its `detail` as an array of that many objects (`Integration.ValidationView`). The fields of each object (`loc`, `msg`, `type`, `input`) are not modelled, because the client only turns the array into a string.
- Api.ErrorResponseMessage: an empty `detail` array, whose message would be empty, is not representable (`JsonObjectList` holds at least one object). FastAPI never sends an empty list.
- `fetch`, `AbortController`, `setTimeout` and promise scheduling. Attempts are a given sequence of outcomes, the timer is a header latency, and waits are returned numbers.
- WHATWG URL parsing. The hostname is a parameter, `hostOf`.
- `JSON.stringify` and `JSON.parse`. They are a `Codec` with a round-trip predicate.
- The regex engine. The email pattern is a direct predicate, plus Python's `$` rule for a final line feed.
- Whitespace is one ASCII set (space, tab, line feed, vertical tab, form feed, carriage return) on both sides. The two sides in fact differ: Python's `strip()` and `\s` also treat the separators \x1c-\x1f (and Unicode spaces) as whitespace, while JavaScript's `trim()` does not treat \x1c-\x1f as whitespace. Case folding is ASCII only; Unicode whitespace and case mappings are not modelled.
- The mis-decoded bullet delimiter is modelled as the three characters it is in the source text. The file's encoding is not modelled.
- EmailService.ConfidenceTenths: the score is integer tenths. The float sums the source produces (such as 0.7000000000000001) are not modelled.
- Stepper.Percent: exact rational rounding of `current / total * 100`. Floating-point error in that product is not modelled. A zero total, which prints Infinity or NaN, gives no value.
- The progress bar's width text `${(current / total) * 100}%` and the `Step c of t` caption are not modelled. The caption is a plain `RenderFooter` without a contract.
- EmailOutput.BadgeLabel: states the label's frame ("Confidence: " … "%") but not the digits `toFixed(0)` prints for a float score.
- Chatbot.TypingDelay: the reply lengths are the UTF-16 lengths of the reply constants. Emoji and other characters beyond the Basic Multilingual Plane count twice, as in JavaScript.
- The chatbot's Escape handler and scrolling, and its `return null` when closed. The panel state is modelled; its rendering is not.
- Message ids and timestamps from `Date.now()`. They are the parameter `now`; the AI reply's id is `now + 1` as in the source.
- The clipboard, the `Blob` and the download link. The text and the file name they receive are modelled.
- Presentation components: Toast (its own timer), BackgroundAnimation, AboutSection, Header, Footer, ChatBubble, and PersonalInfo.tsx. PersonalInfo.tsx is form glue; its submitted record is the `SubmitPersonal` event.
- The in-memory storage fallback. It behaves like the browser storage for reads and writes, and receives no storage events.
- The type declarations in `types/index.ts` that nothing in the core uses (API envelopes, form, analytics, template and feature-flag types).

## Findings

| source | as written | input that shows it | evidently intended | confidence | as-written member | corrected member |
|---|---|---|---|---|---|---|
| frontend/src/services/api.ts:40-41 | a non-2xx response whose body is JSON `null` makes `errorData.detail` throw a `TypeError`, which the retry test then retries | a 500 response with body `null`, then a success: two attempts, and the success is returned | every non-2xx response is final and rejects with "API Error: <status>" | high; not executed | Api.SettleAsWritten (Api.NullErrorBodyIsRetried) | Api.Settle |
| backend/main.py:56-57 | `re.match` with `$` accepts an address followed by one line feed and stores it unchanged | "a@b.co\n" | only the bare address shape is accepted | high; not executed | Backend.ValidateEmailAsWritten (Backend.TrailingLineFeedSlipsThrough), Backend.ValidatePersonalInfoAsWritten (Backend.PersonalInfoTrailingLineFeed) | Backend.ValidateEmail, Backend.ValidatePersonalInfo, Backend.HandleGenerateRequest, Integration.ValidationFailureShowsObjectText |
| frontend/src/components/EmailOutput.tsx:67-71 | `{score && <badge/>}` with a score of 0 renders the number 0 as text | `confidence_score: 0` | a zero score hides the badge and renders nothing | high; not executed | EmailOutput.BadgeAsWritten, EmailOutput.RenderAsWritten (EmailOutput.ZeroScoreRendersStrayZero, EmailOutput.RenderAgreesExceptZero) | EmailOutput.ConfidenceBadge, EmailOutput.Render |
| backend/main.py:174-183 | the exception handlers put the text under `message`; the client reads `detail` (frontend/src/services/api.ts:40-41), so every server reason reaches the user as "API Error: <status>" | a scraper failure "timeout": the server says "Failed to extract job data: timeout", the user sees "API Error: 500" | the server's reason is shown to the user | medium; not executed | Integration.ClientViewAsWritten (Integration.ServerMessageIsLost) | Integration.ClientView (Integration.ServerMessageReachesUser) |

=== FILE: api.dfy ===
/** The frontend's request client (`services/api.ts`): one logical JSON
    request is made of up to `RetryAttempts + 1` attempts. A transport
    failure (`TypeError`) or a timeout (`AbortError`) is retried after an
    exponentially growing wait; an answered request is final.

    Nothing here performs I/O: what each attempt brings back is an input
    (`Outcome`), and the waits are returned as numbers of milliseconds. */
module Api {
  import opened Base
  import opened Text
  import opened Types

  const DefaultBaseUrl: string := "http://localhost:8000"
  const TimeoutMs: nat := 30000
  const RetryAttempts: nat := 2

  /** `VITE_API_URL || 'http://localhost:8000'`: an unset or empty variable
      falls back to the local backend. */
  function BaseUrl(env: Option<string>): (r: string)
    ensures env.Some? && env.value != "" ==> r == env.value
    ensures env.None? || env.value == "" ==> r == DefaultBaseUrl
  {
    if env.Some? && env.value != "" then env.value else DefaultBaseUrl
  }

  // ---------------------------------------------------------------------------
  // Errors and attempt outcomes

  /** The error classes that reach `apiCall`'s `catch`. */
  datatype ErrorKind = TypeError | AbortError | SyntaxError | PlainError

  datatype JsError = JsError(kind: ErrorKind, message: string)

  /** The retry test: `error instanceof TypeError || error.name === 'AbortError'`. */
  predicate Retryable(e: JsError) {
    e.kind == TypeError || e.kind == AbortError
  }

  /** The body of a response whose status is outside 200-299, as
      `response.json()` sees it. For a JSON value, `detail` is the text of its
      `detail` property when that property is truthy, and "" otherwise. A
      JSON value whose `detail` is a non-empty array of `count` objects (the
      shape of FastAPI's validation errors) is `JsonObjectList`. */
  datatype ErrorBody = NotJson | NullJson | JsonValue(detail: string) | JsonObjectList(count: Positive)

  type Positive = n: int | n >= 1 witness 1

  const ObjectText: string := "[object Object]"

  /** `String(array)` for an array of `n` plain objects: their
      `[object Object]` texts joined with commas. */
  function ObjectListText(n: Positive): (t: string)
    ensures |t| == 16 * n - 1
    ensures t[..|ObjectText|] == ObjectText
  {
    if n == 1 then ObjectText else ObjectText + "," + ObjectListText(n - 1)
  }

  /** The body of a 2xx response: a parsed JSON value, or text that
      `response.json()` rejects with the given message. */
  datatype Parsed<T> = Parsed(value: T) | Unparsable(message: string)

  /** What one attempt brings back. */
  datatype Outcome<T> =
    | OkResponse(payload: Parsed<T>)                                    // status 200-299
    | ErrorResponse(status: int, statusText: string, errorBody: ErrorBody) // any other status
    | NetworkFailure(message: string)                              // fetch rejects with a TypeError
    | Aborted                                                      // the attempt's timer fired

  predicate IsTransportFailure<T>(o: Outcome<T>) {
    o.NetworkFailure? || o.Aborted?
  }

  /** The messages the browser gives the errors that the code does not word
      itself. Their exact text is engine-specific. */
  const AbortMessage: string := "This operation was aborted"
  const NullPropertyMessage: string := "Cannot read properties of null (reading 'detail')"

  /** How one attempt ends inside the `try` block: it returns a value or
      throws an error. */
  datatype Settled<T> = Returned(value: T) | Threw(error: JsError) {
    function AsResult(): Result<T, JsError> {
      match this
      case Returned(v) => Ok(v)
      case Threw(e) => Err(e)
    }
  }

  predicate IsTransient<T>(s: Settled<T>) {
    s.Threw? && Retryable(s.error)
  }

  function ApiErrorText(status: int): string {
    "API Error: " + IntToString(status)
  }

  /** The message of the `Error` thrown for a non-2xx response whose body is
      not JSON `null`: the body's truthy `detail`; for a body that is not JSON,
      the status text when it is non-empty; otherwise "API Error: <status>".
      An array `detail` is truthy and `new Error` turns it into its string. */
  function ErrorResponseMessage(status: int, statusText: string, body: ErrorBody): (m: string)
    requires !body.NullJson?
    ensures body.JsonValue? && body.detail != "" ==> m == body.detail
    ensures body.NotJson? && statusText != "" ==> m == statusText
    ensures body.JsonObjectList? ==> m == ObjectListText(body.count)
    ensures (body.JsonValue? && body.detail == "") || (body.NotJson? && statusText == "")
            ==> m == ApiErrorText(status)
    ensures m != ""
  {
    var detail := match body
      case NotJson => statusText
      case JsonValue(d) => d
      case JsonObjectList(n) => ObjectListText(n);
    if detail != "" then detail else ApiErrorText(status)
  }

  /** One attempt exactly as written. A JSON `null` error body makes
      `errorData.detail` throw a `TypeError`, which the retry test then
      treats like a network failure. */
  function SettleAsWritten<T>(o: Outcome<T>): (r: Settled<T>)
    ensures o.OkResponse? && o.payload.Parsed? ==> r == Returned(o.payload.value)
    ensures o.ErrorResponse? && o.errorBody.NullJson? ==> r == Threw(JsError(TypeError, NullPropertyMessage))
  {
    match o
    case OkResponse(Parsed(v)) => Returned(v)
    case OkResponse(Unparsable(m)) => Threw(JsError(SyntaxError, m))
    case ErrorResponse(status, statusText, NullJson) => Threw(JsError(TypeError, NullPropertyMessage))
    case ErrorResponse(status, statusText, body) => Threw(JsError(PlainError, ErrorResponseMessage(status, statusText, body)))
    case NetworkFailure(m) => Threw(JsError(TypeError, m))
    case Aborted => Threw(JsError(AbortError, AbortMessage))
  }

  /** One attempt as intended: every non-2xx response ends in a plain
      `Error`; a JSON `null` body has no `detail`, so its message is
      "API Error: <status>". An attempt's result is retryable exactly when
      the transport failed. */
  function Settle<T>(o: Outcome<T>): (r: Settled<T>)
    ensures IsTransient(r) <==> IsTransportFailure(o)
    ensures r.Returned? <==> o.OkResponse? && o.payload.Parsed?
    ensures r.Returned? ==> r.value == o.payload.value
    ensures o.OkResponse? && o.payload.Unparsable? ==> r == Threw(JsError(SyntaxError, o.payload.message))
    ensures o.ErrorResponse? ==> r.Threw? && r.error.kind == PlainError && r.error.message != ""
    ensures o.ErrorResponse? && o.errorBody.NullJson? ==> r.error.message == ApiErrorText(o.status)
    ensures o.NetworkFailure? ==> r == Threw(JsError(TypeError, o.message))
  {
    match o
    case ErrorResponse(status, statusText, NullJson) => Threw(JsError(PlainError, ApiErrorText(status)))
    case _ => SettleAsWritten(o)
  }

  /** A non-2xx response with a JSON `null` body is retried by the code as
      written: the first attempt is answered with status 500, yet a second
      attempt is made and its value returned. */
  lemma NullErrorBodyIsRetried<T>(v: T)
    ensures var outcomes := [ErrorResponse(500, "Internal Server Error", NullJson), OkResponse(Parsed(v)), Aborted];
      var r := CallAsWritten(outcomes);
      r.attempts == 2 && r.result == Ok(v) && r.delays == [1000]
  {
    var outcomes := [ErrorResponse(500, "Internal Server Error", NullJson), OkResponse(Parsed(v)), Aborted];
    var settled := SettleAll(outcomes, SettleAsWritten);
    assert settled[0] == Threw(JsError(TypeError, NullPropertyMessage));
    assert settled[1] == Returned(v);
    assert ApiCall(settled[1..], 1) == CallResult(Ok(v), 1, []);
  }

  // ---------------------------------------------------------------------------
  // The retry loop

  /** `Math.pow(2, k)`: at least 1 and above `k`. */
  function Pow2(k: nat): (r: nat)
    ensures r >= 1 && r > k
  {
    if k == 0 then 1 else 2 * Pow2(k - 1)
  }

  /** `1000 * Math.pow(2, retryCount)` milliseconds. */
  function Backoff(retryCount: nat): nat {
    1000 * Pow2(retryCount)
  }

  /** Each retry waits twice as long as the one before, so the waits
      strictly increase with the retry count. */
  lemma {:induction false} BackoffIncreases(i: nat, j: nat)
    requires i < j
    ensures Backoff(j) >= 2 * Backoff(i)
    decreases j
  {
    if j > i + 1 {
      BackoffIncreases(i, j - 1);
    }
  }

  /** The result of one logical call: what it resolves or rejects with, how
      many fetch attempts it made, and the waits between them in order. */
  datatype CallResult<T> = CallResult(result: Result<T, JsError>, attempts: nat, delays: seq<nat>)

  /** `apiCall(endpoint, options, retryCount)` over the settled results of
      its attempts: `settled[i]` is how the attempt made with retry count
      `retryCount + i` ended. The call stops at the first result that is not
      retryable, or once `retryCount` has reached `RetryAttempts`; every
      attempt before the last one failed transiently, each was followed by a
      wait of 1000 * 2^k ms for its retry count k, and the call ends with the
      last attempt's own result. */
  function ApiCall<T>(settled: seq<Settled<T>>, retryCount: nat): (r: CallResult<T>)
    requires |settled| > 0 && |settled| > RetryAttempts - retryCount
    ensures 1 <= r.attempts <= |settled|
    ensures retryCount + r.attempts - 1 <= RetryAttempts || r.attempts == 1
    ensures |r.delays| == r.attempts - 1
    ensures forall i :: 0 <= i < |r.delays| ==> r.delays[i] == Backoff(retryCount + i)
    ensures forall i :: 0 <= i < r.attempts - 1 ==> IsTransient(settled[i])
    ensures retryCount + r.attempts - 1 < RetryAttempts ==> !IsTransient(settled[r.attempts - 1])
    ensures r.result == settled[r.attempts - 1].AsResult()
    decreases RetryAttempts - retryCount
  {
    match settled[0]
    case Returned(v) => CallResult(Ok(v), 1, [])
    case Threw(e) =>
      if retryCount < RetryAttempts && Retryable(e) then
        var rest := ApiCall(settled[1..], retryCount + 1);
        CallResult(rest.result, rest.attempts + 1, [Backoff(retryCount)] + rest.delays)
      else
        CallResult(Err(e), 1, [])
  }

  function SettleAll<T>(outcomes: seq<Outcome<T>>, settle: Outcome<T> -> Settled<T>): (s: seq<Settled<T>>)
    ensures |s| == |outcomes|
    ensures forall i :: 0 <= i < |outcomes| ==> s[i] == settle(outcomes[i])
  {
    seq(|outcomes|, i requires 0 <= i < |outcomes| => settle(outcomes[i]))
  }

  /** A logical call from the start (`retryCount = 0`) given what each
      possible attempt would bring back. */
  function Call<T>(outcomes: seq<Outcome<T>>): (r: CallResult<T>)
    requires |outcomes| == RetryAttempts + 1
    ensures 1 <= r.attempts <= |outcomes| && |r.delays| == r.attempts - 1
    ensures forall i :: 0 <= i < |r.delays| ==> r.delays[i] == Backoff(i)
    ensures forall i :: 0 <= i < r.attempts - 1 ==> IsTransient(Settle(outcomes[i]))
    ensures r.attempts < |outcomes| ==> !IsTransient(Settle(outcomes[r.attempts - 1]))
    ensures r.result == Settle(outcomes[r.attempts - 1]).AsResult()
  {
    ApiCall(SettleAll(outcomes, Settle), 0)
  }

  /** The same call with each attempt settled as written. */
  function CallAsWritten<T>(outcomes: seq<Outcome<T>>): (r: CallResult<T>)
    requires |outcomes| == RetryAttempts + 1
    ensures 1 <= r.attempts <= |outcomes| && |r.delays| == r.attempts - 1
    ensures forall i :: 0 <= i < |r.delays| ==> r.delays[i] == Backoff(i)
    ensures forall i :: 0 <= i < r.attempts - 1 ==> IsTransient(SettleAsWritten(outcomes[i]))
    ensures r.attempts < |outcomes| ==> !IsTransient(SettleAsWritten(outcomes[r.attempts - 1]))
    ensures r.result == SettleAsWritten(outcomes[r.attempts - 1]).AsResult()
  {
    ApiCall(SettleAll(outcomes, SettleAsWritten), 0)
  }

  /** A call makes at most three attempts, one more than the number of
      waits, and every attempt but the last failed in transport. */
  lemma CallBounds<T>(outcomes: seq<Outcome<T>>)
    requires |outcomes| == RetryAttempts + 1
    ensures var r := Call(outcomes);
      1 <= r.attempts <= 3 && |r.delays| == r.attempts - 1
      && (forall i :: 0 <= i < r.attempts - 1 ==> IsTransportFailure(outcomes[i]))
      && (r.attempts < 3 ==> !IsTransportFailure(outcomes[r.attempts - 1]))
      && r.result == Settle(outcomes[r.attempts - 1]).AsResult()
  {
    var s := SettleAll(outcomes, Settle);
    var r := ApiCall(s, 0);
    forall i | 0 <= i < r.attempts - 1
      ensures IsTransportFailure(outcomes[i])
    {
      assert IsTransient(s[i]);
    }
    if r.attempts < 3 {
      assert !IsTransient(s[r.attempts - 1]);
    }
  }

  /** A response that is not a success is final: exactly one attempt, no
      wait, and the call rejects with a plain `Error`. */
  lemma ResponsesAreNeverRetried<T>(outcomes: seq<Outcome<T>>)
    requires |outcomes| == RetryAttempts + 1
    requires outcomes[0].ErrorResponse?
    ensures var r := Call(outcomes);
      r.attempts == 1 && r.delays == []
      && r.result.Err? && r.result.error.kind == PlainError
  {
    var s := SettleAll(outcomes, Settle);
    assert !IsTransient(s[0]);
  }

  /** When every attempt fails in transport the call waits 1000 ms and then
      2000 ms, makes three attempts and rejects with the last failure. */
  lemma AllTransportFailures<T>(outcomes: seq<Outcome<T>>)
    requires |outcomes| == RetryAttempts + 1
    requires forall i :: 0 <= i < |outcomes| ==> IsTransportFailure(outcomes[i])
    ensures var r := Call(outcomes);
      r.attempts == 3 && r.delays == [1000, 2000]
      && r.result == Settle(outcomes[2]).AsResult()
  {
    var s := SettleAll(outcomes, Settle);
    var r := ApiCall(s, 0);
    assert IsTransient(s[0]) && IsTransient(s[1]);
    assert r.attempts == 3;
    assert Pow2(1) == 2;
  }

  /** Two network failures followed by a success resolve with the success
      value after three attempts and 3000 ms of waiting. */
  lemma RecoversAfterTwoNetworkFailures<T>(v: T, m1: string, m2: string)
    ensures var r := Call([NetworkFailure(m1), NetworkFailure(m2), OkResponse(Parsed(v))]);
      r.result == Ok(v) && r.attempts == 3 && r.delays == [1000, 2000]
  {
    var outcomes := [NetworkFailure(m1), NetworkFailure(m2), OkResponse(Parsed(v))];
    var s := SettleAll(outcomes, Settle);
    assert IsTransient(s[0]) && IsTransient(s[1]) && s[2] == Returned(v);
    assert Pow2(1) == 2;
  }

  // ---------------------------------------------------------------------------
  // Timeouts

  /** One attempt as the network performs it: the time until the response
      headers arrive, and what arrives. */
  datatype Transport<T> = Transport(headerLatencyMs: nat, outcome: Outcome<T>)

  /** The attempt's own 30000 ms timer: it is started when the attempt starts
      and cleared as soon as the headers arrive, so the body is read without a
      time bound and the next attempt starts a fresh timer. */
  function WithTimeout<T>(t: Transport<T>): (o: Outcome<T>)
    ensures t.headerLatencyMs >= TimeoutMs ==> o == Aborted
    ensures t.headerLatencyMs < TimeoutMs ==> o == t.outcome
  {
    if t.headerLatencyMs >= TimeoutMs then Aborted else t.outcome
  }

  function CallOverNetwork<T>(transports: seq<Transport<T>>): CallResult<T>
    requires |transports| == RetryAttempts + 1
  {
    Call(seq(|transports|, i requires 0 <= i < |transports| => WithTimeout(transports[i])))
  }

  /** The timeout bounds each attempt on its own: attempts that each answer
      within 30000 ms are never cut short, however long the call takes in
      total. */
  lemma EachAttemptHasItsOwnBudget<T>(transports: seq<Transport<T>>)
    requires |transports| == RetryAttempts + 1
    requires forall i :: 0 <= i < |transports| ==> transports[i].headerLatencyMs < TimeoutMs
    ensures CallOverNetwork(transports) == Call(seq(|transports|, i requires 0 <= i < |transports| => transports[i].outcome))
  {
    var a := seq(|transports|, i requires 0 <= i < |transports| => WithTimeout(transports[i]));
    var b := seq(|transports|, i requires 0 <= i < |transports| => transports[i].outcome);
    assert a == b;
  }

  // ---------------------------------------------------------------------------
  // Requests

  /** `{'Content-Type': 'application/json', ...options.headers}`: the JSON
      content type is always present unless the caller supplies its own,
      which wins. Header names are compared exactly, as object keys. */
  function RequestHeaders(callerHeaders: map<string, string>): (h: map<string, string>)
    ensures h.Keys == callerHeaders.Keys + {"Content-Type"}
    ensures forall k :: k in callerHeaders ==> h[k] == callerHeaders[k]
    ensures "Content-Type" !in callerHeaders ==> h["Content-Type"] == "application/json"
  {
    map["Content-Type" := "application/json"] + callerHeaders
  }

  datatype RequestBody =
    | ExtractJobBody(url: string)
    | GenerateEmailBody(jobData: JobData, personalInfo: PersonalInfo)

  /** What every attempt of a call sends: the same URL, method, headers and
      body, since a retry reuses `options` unchanged. */
  datatype Request = Request(url: string, verb: string, headers: map<string, string>, body: RequestBody)

  /** `extractJobData(url)`: a POST to `/api/extract-job` with body `{url}`. */
  function ExtractJobDataRequest(baseUrl: string, url: string): (q: Request)
    ensures q.url == baseUrl + "/api/extract-job" && q.verb == "POST"
    ensures q.headers == map["Content-Type" := "application/json"]
    ensures q.body.ExtractJobBody? && q.body.url == url
  {
    Request(baseUrl + "/api/extract-job", "POST", RequestHeaders(map[]), ExtractJobBody(url))
  }

  /** `generateEmail(jobData, personalInfo)`: a POST to
      `/api/generate-email` with body `{jobData, personalInfo}`. */
  function GenerateEmailRequest(baseUrl: string, jobData: JobData, info: PersonalInfo): (q: Request)
    ensures q.url == baseUrl + "/api/generate-email" && q.verb == "POST"
    ensures q.headers == map["Content-Type" := "application/json"]
    ensures q.body == GenerateEmailBody(jobData, info)
  {
    Request(baseUrl + "/api/generate-email", "POST", RequestHeaders(map[]), GenerateEmailBody(jobData, info))
  }
}

=== FILE: app.dfy ===
/** The wizard shell (`App`): the current step, the records the four screens
    share, the loading and error flags, the toast list, and the handlers the
    screens call. Each asynchronous handler is split into the event that
    starts the request and the event that settles it; the request's result
    is an input. `now` is the `Date.now()` reading a toast takes as its id. */
module Wizard {
  import opened Base
  import opened Text
  import opened Types
  import Seqs

  const ExtractedToast: string := "Job details extracted successfully!"
  const ExtractFailedDefault: string :=
    "Failed to extract job details. Please check the URL and try again."
  const UpdatedToast: string := "Job details updated successfully!"
  const GeneratedToast: string := "Personalized email generated!"
  const GenerateFailedDefault: string := "Failed to generate email. Please try again."

  /** The request in flight, with what the generation handler captured when
      it started: the job record of that render and the submitted details. */
  datatype Pending = Idle | Extracting | Generating(job: JobData, info: PersonalInfo)

  datatype AppState = AppState(
    step: int,
    jobData: JobData,
    personalInfo: PersonalInfo,
    email: GeneratedEmail,
    isLoading: bool,
    error: Option<string>,
    chatbotOpen: bool,
    aboutOpen: bool,
    toasts: seq<ToastMessage>,
    pending: Pending)

  /** The personal details used when nothing is stored yet. */
  function DefaultPersonalInfo(): (p: PersonalInfo)
    ensures p.name == "" && p.email == "" && p.skills == "" && p.portfolio == Some("")
  {
    PersonalInfo("", "", "", Some(""), None, None, None, None, None)
  }

  function EmptyEmail(): (e: GeneratedEmail)
    ensures e.subject == "" && e.content == ""
  {
    GeneratedEmail("", "", None, None, None)
  }

  /** The first render: step 1, an empty job record, an empty email, no
      toasts. `stored` is what the persisted personal details read back
      as. */
  function Init(stored: PersonalInfo): (s: AppState)
    ensures s.step == 1 && s.jobData == EmptyJobData() && s.personalInfo == stored
    ensures s.email == EmptyEmail() && !s.isLoading && s.error.None? && s.toasts == []
  {
    AppState(1, EmptyJobData(), stored, EmptyEmail(), false, None, false, false, [], Idle)
  }

  // ---------------------------------------------------------------------------
  // Toasts

  /** `showToast`: one toast goes to the end of the list. */
  function ShowToast(toasts: seq<ToastMessage>, now: int, message: string, kind: ToastKind): (r: seq<ToastMessage>)
    ensures |r| == |toasts| + 1 && r[..|toasts|] == toasts
    ensures r[|toasts|] == ToastMessage(now, message, kind, None)
  {
    toasts + [ToastMessage(now, message, kind, None)]
  }

  function OtherId(id: int): ToastMessage -> bool {
    (t: ToastMessage) => t.id != id
  }

  /** `removeToast`: every toast carrying the id goes, the rest stay in
      order.
      The contract states which entries stay; their order is that of
      `Seqs.Filter`, which `Seqs.FilterAppend` shows works piecewise over a
      concatenation, so the survivors keep their relative order. */
  function RemoveToast(toasts: seq<ToastMessage>, id: int): (r: seq<ToastMessage>)
    ensures forall k :: 0 <= k < |r| ==> r[k].id != id
    ensures forall k :: 0 <= k < |toasts| && toasts[k].id != id ==> toasts[k] in r
    ensures forall k :: 0 <= k < |r| ==> r[k] in toasts
  {
    Seqs.Filter(toasts, OtherId(id))
  }

  /** Removing a toast whose id was new undoes showing it. */
  lemma {:induction false} RemoveUndoesShow(toasts: seq<ToastMessage>, now: int, message: string, kind: ToastKind)
    requires forall k :: 0 <= k < |toasts| ==> toasts[k].id != now
    ensures RemoveToast(ShowToast(toasts, now, message, kind), now) == toasts
  {
    Seqs.FilterAppend(toasts, [ToastMessage(now, message, kind, None)], OtherId(now));
    Seqs.FilterKeepsAll(toasts, OtherId(now));
    assert Seqs.Filter([ToastMessage(now, message, kind, None)], OtherId(now)) == [];
  }

  /** Two toasts shown within the same millisecond share an id, so closing
      either closes both. */
  lemma CollidingToastsCloseTogether(toasts: seq<ToastMessage>, now: int, m1: string, m2: string)
    ensures var shown := ShowToast(ShowToast(toasts, now, m1, Success), now, m2, ErrorToast);
            |shown| == |toasts| + 2
            && RemoveToast(shown, now) == RemoveToast(toasts, now)
            && |RemoveToast(shown, now)| <= |toasts|
  {
    var shown := ShowToast(ShowToast(toasts, now, m1, Success), now, m2, ErrorToast);
    var t1 := ToastMessage(now, m1, Success, None);
    var t2 := ToastMessage(now, m2, ErrorToast, None);
    assert shown == toasts + [t1, t2];
    Seqs.FilterAppend(toasts, [t1, t2], OtherId(now));
    assert [t1, t2] == [t1] + [t2];
    Seqs.FilterAppend([t1], [t2], OtherId(now));
    assert Seqs.Filter([t1], OtherId(now)) == [];
    assert Seqs.Filter([t2], OtherId(now)) == [];
  }

  // ---------------------------------------------------------------------------
  // Handler results

  /** `err.message || fallback`: an empty message gives way to the
      handler's default text. */
  function ErrorText(message: string, fallback: string): (r: string)
    ensures message != "" ==> r == message
    ensures message == "" ==> r == fallback
  {
    if message == "" then fallback else message
  }

  const Salutation: string := "Dear Hiring Manager,"
  const SignOff: string := "Best regards,\n"
  const FallbackOpening: string :=
    Salutation + "\n\nI am writing to express my strong interest in the "
  const FallbackClosing: string :=
    "\n\nI would love to discuss how my experience aligns with your needs.\n\n" + SignOff

  /** The email the wizard shows when generation fails, built from the job
      record and the submitted details. */
  function FallbackEmail(job: JobData, info: PersonalInfo): (e: GeneratedEmail)
    ensures e.subject == "Interest in " + job.role + " Position"
    ensures e.confidenceTenths.None? && e.suggestions.None? && e.personalizationLevel.None?
  {
    GeneratedEmail("Interest in " + job.role + " Position",
      FallbackBody(job.role, job.company, info.skills, info.name), None, None, None)
  }

  function FallbackBody(role: string, company: string, skills: string, name: string): string {
    FallbackOpening + role + " position at " + company + ".\n\n" + skills + FallbackClosing + name
  }

  /** The fallback letter opens with the salutation, names the role, the
      company, the applicant's skills text and ends with the name. */
  lemma FallbackEmailMentions(job: JobData, info: PersonalInfo)
    ensures var body := FallbackEmail(job, info).content;
            body[..|Salutation|] == Salutation
            && Contains(body, job.role) && Contains(body, job.company)
            && Contains(body, info.skills)
            && body[|body| - |info.name| - |SignOff|..] == SignOff + info.name
  {
    FallbackBodyEnds(job.role, job.company, info.skills, info.name);
    FallbackBodyNamesRole(job.role, job.company, info.skills, info.name);
    FallbackBodyNamesCompany(job.role, job.company, info.skills, info.name);
    FallbackBodyNamesSkills(job.role, job.company, info.skills, info.name);
  }

  lemma FallbackBodyEnds(role: string, company: string, skills: string, name: string)
    ensures var body := FallbackBody(role, company, skills, name);
            body[..|Salutation|] == Salutation
            && body[|body| - |name| - |SignOff|..] == SignOff + name
  {
    FallbackBodyOpens(role, company, skills, name);
    FallbackBodyCloses(role, company, skills, name);
  }

  lemma FallbackBodyOpens(role: string, company: string, skills: string, name: string)
    ensures var body := FallbackBody(role, company, skills, name);
            body[..|Salutation|] == Salutation
  {
    var rest := role + " position at " + company + ".\n\n" + skills + FallbackClosing + name;
    assert FallbackBody(role, company, skills, name) == FallbackOpening + rest;
    var opening := FallbackOpening[|Salutation|..];
    assert FallbackOpening == Salutation + opening;
  }

  lemma FallbackBodyCloses(role: string, company: string, skills: string, name: string)
    ensures var body := FallbackBody(role, company, skills, name);
            body[|body| - |name| - |SignOff|..] == SignOff + name
  {
    var before := FallbackOpening + role + " position at " + company + ".\n\n" + skills;
    assert FallbackBody(role, company, skills, name) == before + FallbackClosing + name;
    var middle := FallbackClosing[..|FallbackClosing| - |SignOff|];
    assert FallbackClosing == middle + SignOff;
    assert before + FallbackClosing + name == (before + middle) + (SignOff + name);
  }

  lemma FallbackBodyNamesRole(role: string, company: string, skills: string, name: string)
    ensures Contains(FallbackBody(role, company, skills, name), role)
  {
    var rest := " position at " + company + ".\n\n" + skills + FallbackClosing + name;
    assert FallbackBody(role, company, skills, name) == FallbackOpening + role + rest;
    ContainsMiddle(FallbackOpening, role, rest);
  }

  lemma FallbackBodyNamesCompany(role: string, company: string, skills: string, name: string)
    ensures Contains(FallbackBody(role, company, skills, name), company)
  {
    var before := FallbackOpening + role + " position at ";
    var rest := ".\n\n" + skills + FallbackClosing + name;
    assert FallbackBody(role, company, skills, name) == before + company + rest;
    ContainsMiddle(before, company, rest);
  }

  lemma FallbackBodyNamesSkills(role: string, company: string, skills: string, name: string)
    ensures Contains(FallbackBody(role, company, skills, name), skills)
  {
    var before := FallbackOpening + role + " position at " + company + ".\n\n";
    var rest := FallbackClosing + name;
    assert FallbackBody(role, company, skills, name) == before + skills + rest;
    ContainsMiddle(before, skills, rest);
  }

  // ---------------------------------------------------------------------------
  // Events

  /** The screens each render for a step; any other step renders nothing. */
  datatype Screen = UrlScreen | JobScreen | PersonalScreen | EmailScreen

  function ScreenFor(step: int): (r: Option<Screen>)
    ensures r.Some? <==> 1 <= step <= 4
  {
    if step == 1 then Some(UrlScreen)
    else if step == 2 then Some(JobScreen)
    else if step == 3 then Some(PersonalScreen)
    else if step == 4 then Some(EmailScreen)
    else None
  }

  datatype Event =
    | SubmitUrl                                   // URLInput's onSubmit
    | ExtractDone(job: Result<JobData, string>, now: int)
    | UpdateJob(data: JobData, now: int)          // JobDetails' onUpdate
    | Continue                                    // JobDetails' onNext
    | SubmitPersonal(info: PersonalInfo)          // PersonalInfo's onSubmit
    | GenerateDone(email: Result<GeneratedEmail, string>, now: int)
    | EditEmail(edited: GeneratedEmail)           // EmailOutput's onUpdate
    | EmailToast(message: string, now: int)       // EmailOutput's copy and download toasts
    | Restart                                     // EmailOutput's Start Over
    | CloseToast(id: int)
    | ToggleChat | CloseChat | OpenAbout | CloseAbout

  /** Which handlers can fire: each screen's callbacks only while that
      screen is shown, the URL submit button not while loading, the email
      screen's controls not behind its loading view, a settling event only
      for the request in flight, a close only for a toast on screen. */
  predicate Available(s: AppState, ev: Event) {
    match ev
    case SubmitUrl => s.step == 1 && !s.isLoading
    case ExtractDone(_, _) => s.pending.Extracting?
    case UpdateJob(_, _) => s.step == 2
    case Continue => s.step == 2
    case SubmitPersonal(_) => s.step == 3
    case GenerateDone(_, _) => s.pending.Generating?
    case EditEmail(_) => s.step == 4 && !s.isLoading
    case EmailToast(_, _) => s.step == 4 && !s.isLoading
    case Restart => s.step == 4 && !s.isLoading
    case CloseToast(id) => exists k :: 0 <= k < |s.toasts| && s.toasts[k].id == id
    case _ => true
  }

  /** One handler. */
  function Handle(s: AppState, ev: Event): (r: AppState)
    requires Available(s, ev)
    // the step moves only on these four transitions
    ensures r.step != s.step ==>
              (ev.ExtractDone? && ev.job.Ok? && r.step == 2)
              || (ev.Continue? && s.step == 2 && r.step == 3)
              || (ev.SubmitPersonal? && s.step == 3 && r.step == 4)
              || (ev.Restart? && r.step == 1)
    ensures ev.SubmitUrl? || ev.SubmitPersonal? ==> r.isLoading
    ensures ev.ExtractDone? || ev.GenerateDone? ==> !r.isLoading && r.pending.Idle?
    ensures ev.SubmitPersonal? ==> r.personalInfo == ev.info && r.step == 4
    ensures !ev.SubmitPersonal? ==> r.personalInfo == s.personalInfo
    ensures ev.ExtractDone? && ev.job.Err? ==>
              r.step == s.step && r.jobData == s.jobData
              && r.error == Some(ErrorText(ev.job.error, ExtractFailedDefault))
    ensures ev.GenerateDone? && ev.email.Err? ==>
              r.email == FallbackEmail(s.pending.job, s.pending.info)
              && r.error == Some(ErrorText(ev.email.error, GenerateFailedDefault))
              && r.toasts == ShowToast(s.toasts, ev.now, ErrorText(ev.email.error, GenerateFailedDefault), ErrorToast)
    // a new extraction clears the last error and waits on the scraper
    ensures ev.SubmitUrl? ==> r.error == None && r.pending.Extracting? && r.step == 1
    // extracted data is shown on the job screen, with a success toast
    ensures ev.ExtractDone? && ev.job.Ok? ==>
              r.jobData == ev.job.value && r.step == 2 && r.error == s.error
              && r.toasts == ShowToast(s.toasts, ev.now, ExtractedToast, Success)
    ensures ev.ExtractDone? && ev.job.Err? ==>
              r.toasts == ShowToast(s.toasts, ev.now, ErrorText(ev.job.error, ExtractFailedDefault), ErrorToast)
    // the job screen's saved record replaces the wizard's, with a toast
    ensures ev.UpdateJob? ==>
              r.jobData == ev.data && r.step == 2
              && r.toasts == ShowToast(s.toasts, ev.now, UpdatedToast, Success)
    ensures ev.Continue? ==> r.step == 3 && r.jobData == s.jobData
    // a generated email is shown as it came, with a success toast
    ensures ev.GenerateDone? && ev.email.Ok? ==>
              r.email == ev.email.value && r.step == s.step && r.error == s.error
              && r.toasts == ShowToast(s.toasts, ev.now, GeneratedToast, Success)
    // starting over empties the record, the email and the error, but keeps
    // the stored personal details
    ensures ev.Restart? ==>
              r.step == 1 && r.jobData == EmptyJobData() && r.email == EmptyEmail() && r.error == None
  {
    match ev
    case SubmitUrl => s.(isLoading := true, error := None, pending := Extracting)
    case ExtractDone(Ok(data), now) =>
      s.(jobData := data, step := 2, toasts := ShowToast(s.toasts, now, ExtractedToast, Success),
         isLoading := false, pending := Idle)
    case ExtractDone(Err(message), now) =>
      var text := ErrorText(message, ExtractFailedDefault);
      s.(error := Some(text), toasts := ShowToast(s.toasts, now, text, ErrorToast),
         isLoading := false, pending := Idle)
    case UpdateJob(data, now) => s.(jobData := data, toasts := ShowToast(s.toasts, now, UpdatedToast, Success))
    case Continue => s.(step := 3)
    case SubmitPersonal(info) =>
      s.(personalInfo := info, isLoading := true, step := 4, pending := Generating(s.jobData, info))
    case GenerateDone(Ok(email), now) =>
      s.(email := email, toasts := ShowToast(s.toasts, now, GeneratedToast, Success),
         isLoading := false, pending := Idle)
    case GenerateDone(Err(message), now) =>
      var text := ErrorText(message, GenerateFailedDefault);
      s.(error := Some(text), toasts := ShowToast(s.toasts, now, text, ErrorToast),
         email := FallbackEmail(s.pending.job, s.pending.info), isLoading := false, pending := Idle)
    case EditEmail(edited) => s.(email := edited)
    case EmailToast(message, now) => s.(toasts := ShowToast(s.toasts, now, message, Success))
    case Restart => s.(step := 1, jobData := EmptyJobData(), email := EmptyEmail(), error := None)
    case CloseToast(id) => s.(toasts := RemoveToast(s.toasts, id))
    case ToggleChat => s.(chatbotOpen := !s.chatbotOpen)
    case CloseChat => s.(chatbotOpen := false)
    case OpenAbout => s.(aboutOpen := true)
    case CloseAbout => s.(aboutOpen := false)
  }

  /** The email screen's own controls, the toasts' close buttons and the
      two panels: each touches only its own part of the state, and the
      panels change only on their own events. */
  lemma HandleScreenControls(s: AppState, ev: Event)
    requires Available(s, ev)
    ensures var r := Handle(s, ev);
      && (ev.EditEmail? ==> r.email == ev.edited && r.step == 4)
      && (ev.EmailToast? ==> r.toasts == ShowToast(s.toasts, ev.now, ev.message, Success))
      && (ev.CloseToast? ==> r.toasts == RemoveToast(s.toasts, ev.id))
      && (ev.ToggleChat? ==> r.chatbotOpen == !s.chatbotOpen)
      && (ev.CloseChat? ==> !r.chatbotOpen)
      && (ev.OpenAbout? ==> r.aboutOpen)
      && (ev.CloseAbout? ==> !r.aboutOpen)
      && (!ev.ToggleChat? && !ev.CloseChat? ==> r.chatbotOpen == s.chatbotOpen)
      && (!ev.OpenAbout? && !ev.CloseAbout? ==> r.aboutOpen == s.aboutOpen)
      // nothing else changes
      && (ev.EditEmail? ==> r == s.(email := r.email))
      && (ev.EmailToast? || ev.CloseToast? ==> r == s.(toasts := r.toasts))
      && (ev.ToggleChat? || ev.CloseChat? ==> r == s.(chatbotOpen := r.chatbotOpen))
      && (ev.OpenAbout? || ev.CloseAbout? ==> r == s.(aboutOpen := r.aboutOpen))
  {
  }

  /** What the request handlers and Start Over leave alone: each sets the
      fields its handler writes and keeps every other field, the panels
      included. */
  lemma HandleRequestFrames(s: AppState, ev: Event)
    requires Available(s, ev)
    ensures var r := Handle(s, ev);
      && (ev.SubmitUrl? ==>
            r.step == s.step && r.jobData == s.jobData && r.email == s.email && r.toasts == s.toasts)
      && (ev.ExtractDone? ==> r.email == s.email)
      && (ev.ExtractDone? && ev.job.Err? ==> r.step == s.step)
      && (ev.UpdateJob? ==>
            r.step == s.step && r.email == s.email && r.isLoading == s.isLoading
            && r.error == s.error && r.pending == s.pending)
      && (ev.Continue? ==>
            r.toasts == s.toasts && r.email == s.email && r.error == s.error
            && r.isLoading == s.isLoading && r.pending == s.pending)
      && (ev.SubmitPersonal? ==>
            r.jobData == s.jobData && r.email == s.email && r.error == s.error && r.toasts == s.toasts
            && r.pending == Generating(s.jobData, ev.info))
      && (ev.GenerateDone? ==> r.step == s.step && r.jobData == s.jobData)
      && (ev.Restart? ==>
            r.toasts == s.toasts && r.isLoading == s.isLoading && r.pending == s.pending)
      && (!ev.ToggleChat? && !ev.CloseChat? && !ev.OpenAbout? && !ev.CloseAbout? ==>
            r.chatbotOpen == s.chatbotOpen && r.aboutOpen == s.aboutOpen)
  {
  }

  /** What holds in every reachable state: the step is one of the four
      screens, the loading flag is up exactly while a request is in flight,
      and a request in flight belongs to the screen that started it. */
  predicate Invariant(s: AppState) {
    1 <= s.step <= 4
    && (s.isLoading <==> !s.pending.Idle?)
    && (s.pending.Extracting? ==> s.step == 1)
    && (s.pending.Generating? ==> s.step == 4)
  }

  lemma InitInvariant(stored: PersonalInfo)
    ensures Invariant(Init(stored))
  {
  }

  lemma HandleKeepsInvariant(s: AppState, ev: Event)
    requires Invariant(s) && Available(s, ev)
    ensures Invariant(Handle(s, ev))
  {
  }

  /** Applies the available prefix of a run of events. */
  function Run(s: AppState, evs: seq<Event>): (r: AppState)
    decreases |evs|
  {
    if evs == [] || !Available(s, evs[0]) then s else Run(Handle(s, evs[0]), evs[1..])
  }

  /** Every state reached from the first render satisfies the invariant, so
      some screen is always shown. */
  lemma {:induction false} RunKeepsInvariant(s: AppState, evs: seq<Event>)
    requires Invariant(s)
    ensures Invariant(Run(s, evs)) && ScreenFor(Run(s, evs).step).Some?
    decreases |evs|
  {
    if evs != [] && Available(s, evs[0]) {
      HandleKeepsInvariant(s, evs[0]);
      RunKeepsInvariant(Handle(s, evs[0]), evs[1..]);
    }
  }

  /** Start Over returns to the first screen with empty job and email
      records and no error, and keeps the stored personal details. */
  lemma RestartKeepsPersonalInfo(s: AppState)
    requires Available(s, Restart)
    ensures var r := Handle(s, Restart);
            r.step == 1 && r.jobData == EmptyJobData() && r.email == EmptyEmail()
            && r.error.None? && r.personalInfo == s.personalInfo && r.toasts == s.toasts
  {
  }

  /** A failed generation falls back to a letter built from the job record
      of the submitting render and the submitted details, even when the
      stored record is edited meanwhile. */
  lemma FailedGenerationUsesSubmittedData(s: AppState, info: PersonalInfo, message: string, now: int)
    requires s.step == 3
    ensures var r := Run(s, [SubmitPersonal(info), GenerateDone(Err(message), now)]);
            r.step == 4 && !r.isLoading && r.personalInfo == info
            && r.email == FallbackEmail(s.jobData, info)
            && r.toasts == s.toasts + [ToastMessage(now, ErrorText(message, GenerateFailedDefault), ErrorToast, None)]
  {
    var s1 := Handle(s, SubmitPersonal(info));
    assert [SubmitPersonal(info), GenerateDone(Err(message), now)][1..] == [GenerateDone(Err(message), now)];
    assert Run(s1, [GenerateDone(Err(message), now)]) == Handle(s1, GenerateDone(Err(message), now));
  }
}

=== FILE: backend_main.dfy ===
/** The backend's HTTP layer (`main.py`): the request-model validators for
    the applicant's email and skills, the two processing endpoints with their
    error mapping, and the two exception handlers that shape every error
    response. The scraper and the email service are the modules
    `JobScraper` and `EmailService`; their outcomes are inputs here. */
module Backend {
  import opened Base
  import opened Text
  import Types
  import JobScraper
  import EmailService

  // ---------------------------------------------------------------------------
  // Email validator

  /** A run of the class `[^\s@]+`: non-empty, with no whitespace and no '@'. */
  predicate Atom(t: string) {
    |t| > 0 && forall k :: 0 <= k < |t| ==> !IsSpace(t[k]) && t[k] != '@'
  }

  /** `[^\s@]+\.[^\s@]+`: an atom with a '.' that is neither its first nor
      its last character. */
  predicate DomainShape(d: string) {
    Atom(d) && exists j :: 0 < j < |d| - 1 && d[j] == '.'
  }

  /** The whole of `s` matches `[^\s@]+@[^\s@]+\.[^\s@]+`. */
  predicate EmailShape(s: string) {
    exists i :: 0 <= i < |s| && s[i] == '@' && Atom(s[..i]) && DomainShape(s[i + 1..])
  }

  /** What `re.match` with the pattern anchored by `^` and `$` accepts: in
      Python `$` matches at the end and also just before a final line feed. */
  predicate RegexAccepts(s: string) {
    EmailShape(s) || (|s| > 0 && s[|s| - 1] == '\n' && EmailShape(s[..|s| - 1]))
  }

  /** Whether no character of `t` is whitespace or '@'. */
  predicate NoSpaceOrAt(t: string) {
    forall k :: 0 <= k < |t| ==> !IsSpace(t[k]) && t[k] != '@'
  }

  /** A direct check of the pattern: split at the first '@', then test the
      two sides. */
  function ScanEmail(s: string): (b: bool)
    ensures b <==> EmailShape(s)
  {
    if '@' !in s then
      assert !EmailShape(s) by {
        forall i | 0 <= i < |s| ensures s[i] != '@' { }
      }
      false
    else
      var i := IndexOf(s, '@');
      var local := s[..i];
      var dom := s[i + 1..];
      var b := |local| > 0 && NoSpaceOrAt(local) && NoSpaceOrAt(dom) && |dom| >= 3 && '.' in dom[1..|dom| - 1];
      ScanEmailCorrect(s, i);
      b
  }

  lemma ScanEmailCorrect(s: string, i: nat)
    requires i < |s| && s[i] == '@' && '@' !in s[..i]
    ensures var local := s[..i]; var dom := s[i + 1..];
      (|local| > 0 && NoSpaceOrAt(local) && NoSpaceOrAt(dom) && |dom| >= 3 && '.' in dom[1..|dom| - 1])
      <==> EmailShape(s)
  {
    var local := s[..i];
    var dom := s[i + 1..];
    if EmailShape(s) {
      var i' :| 0 <= i' < |s| && s[i'] == '@' && Atom(s[..i']) && DomainShape(s[i' + 1..]);
      assert forall k :: 0 <= k < i ==> s[k] == s[..i][k];
      assert forall k :: 0 <= k < i' ==> s[k] == s[..i'][k];
      assert i' == i;
      var j :| 0 < j < |dom| - 1 && dom[j] == '.';
      assert dom[1..|dom| - 1][j - 1] == '.';
    }
    if |local| > 0 && NoSpaceOrAt(local) && NoSpaceOrAt(dom) && |dom| >= 3 && '.' in dom[1..|dom| - 1] {
      var m :| 0 <= m < |dom| - 2 && dom[1..|dom| - 1][m] == '.';
      assert dom[m + 1] == '.';
      assert DomainShape(dom);
    }
  }

  const InvalidEmailMessage: string := "Invalid email format"

  /** `PersonalInfo.validate_email` as written: the value is kept unchanged
      when `re.match` accepts it, so one trailing line feed gets through. */
  function ValidateEmailAsWritten(v: string): (r: Result<string, string>)
    ensures r.Ok? <==> RegexAccepts(v)
    ensures r.Ok? ==> r.value == v
    ensures r.Err? ==> r.error == InvalidEmailMessage
  {
    if ScanEmail(v) || (|v| > 0 && v[|v| - 1] == '\n' && ScanEmail(v[..|v| - 1])) then Ok(v)
    else Err(InvalidEmailMessage)
  }

  /** The validator as intended: the whole value must have the email shape. */
  function ValidateEmail(v: string): (r: Result<string, string>)
    ensures r.Ok? <==> EmailShape(v)
    ensures r.Ok? ==> r.value == v
    ensures r.Err? ==> r.error == InvalidEmailMessage
  {
    if ScanEmail(v) then Ok(v) else Err(InvalidEmailMessage)
  }

  /** The two differ exactly on values that are an email followed by one line
      feed, such as "a@b.co\n". */
  lemma TrailingLineFeedSlipsThrough()
    ensures ValidateEmailAsWritten("a@b.co\n").Ok?
    ensures ValidateEmail("a@b.co\n").Err?
  {
    var s := "a@b.co";
    assert s[..1] == "a" && s[2..] == "b.co";
    assert s[2..][1] == '.';
    assert EmailShape(s);
    assert ("a@b.co\n")[..6] == s;
    var t := "a@b.co\n";
    forall i | 0 <= i < |t| && t[i] == '@'
      ensures !DomainShape(t[i + 1..])
    {
      assert i == 1;
      assert t[i + 1..][4] == '\n';
    }
  }

  /** An accepted address has exactly one '@', with a non-empty local part
      before it and a dotted domain after it. */
  lemma AcceptedEmailHasOneAt(v: string)
    requires ValidateEmail(v).Ok?
    ensures multiset(v)['@'] == 1
  {
    var i :| 0 <= i < |v| && v[i] == '@' && Atom(v[..i]) && DomainShape(v[i + 1..]);
    assert v == v[..i] + [v[i]] + v[i + 1..];
    assert '@' !in v[..i] && '@' !in v[i + 1..];
    assert multiset(v) == multiset(v[..i]) + multiset{'@'} + multiset(v[i + 1..]);
  }

  // ---------------------------------------------------------------------------
  // Skills validator

  const MinSkillsLength: nat := 10
  const ShortSkillsMessage: string := "Skills description must be at least 10 characters long"

  /** `PersonalInfo.validate_skills`: the stripped text must be at least 10
      characters, and the stripped text is what is stored. */
  function ValidateSkills(v: string): (r: Result<string, string>)
    ensures r.Ok? <==> |Strip(v)| >= MinSkillsLength
    ensures r.Ok? ==> r.value == Strip(v) && IsStripped(r.value)
    ensures r.Err? ==> r.error == ShortSkillsMessage
  {
    var t := Strip(v);
    if |t| < MinSkillsLength then Err(ShortSkillsMessage) else Ok(t)
  }

  /** A stored skills text passes the validator again unchanged. */
  lemma ValidateSkillsIdempotent(v: string)
    requires ValidateSkills(v).Ok?
    ensures ValidateSkills(ValidateSkills(v).value) == ValidateSkills(v)
  {
    StripIdempotent(v);
  }

  /** Validation of the `PersonalInfo` request model: both validators run and
      every failure is reported, the email's first; on success the skills
      text is the stripped one. */
  function ValidatePersonalInfo(p: Types.PersonalInfo): (r: Result<Types.PersonalInfo, seq<string>>)
    ensures r.Ok? <==> ValidateEmail(p.email).Ok? && ValidateSkills(p.skills).Ok?
    ensures r.Ok? ==> r.value == p.(skills := Strip(p.skills))
    ensures r.Err? ==> (1 <= |r.error| <= 2
      && (r.error[0] == InvalidEmailMessage <==> ValidateEmail(p.email).Err?)
      && (ShortSkillsMessage in r.error <==> ValidateSkills(p.skills).Err?))
  {
    CollectErrors(p, ValidateEmail(p.email).Ok?)
  }

  /** The same validation with the email validator as written, which also
      lets an address followed by one line feed through. */
  function ValidatePersonalInfoAsWritten(p: Types.PersonalInfo): (r: Result<Types.PersonalInfo, seq<string>>)
    ensures r.Ok? <==> ValidateEmailAsWritten(p.email).Ok? && ValidateSkills(p.skills).Ok?
    ensures r.Ok? ==> r.value == p.(skills := Strip(p.skills))
    ensures r.Err? ==> (1 <= |r.error| <= 2
      && (r.error[0] == InvalidEmailMessage <==> ValidateEmailAsWritten(p.email).Err?)
      && (ShortSkillsMessage in r.error <==> ValidateSkills(p.skills).Err?))
  {
    CollectErrors(p, ValidateEmailAsWritten(p.email).Ok?)
  }

  /** Both validators run; the email's message comes first. */
  function CollectErrors(p: Types.PersonalInfo, emailOk: bool): Result<Types.PersonalInfo, seq<string>> {
    var emailErrors := if !emailOk then [InvalidEmailMessage] else [];
    var skillErrors := if ValidateSkills(p.skills).Err? then [ShortSkillsMessage] else [];
    if emailErrors + skillErrors == [] then Ok(p.(skills := Strip(p.skills)))
    else Err(emailErrors + skillErrors)
  }

  /** The request models differ only on the email check: with valid skills,
      "a@b.co\n" passes as written and is refused by the intended check. */
  lemma PersonalInfoTrailingLineFeed(p: Types.PersonalInfo)
    requires p.email == "a@b.co\n" && ValidateSkills(p.skills).Ok?
    ensures ValidatePersonalInfoAsWritten(p).Ok?
    ensures ValidatePersonalInfo(p) == Err([InvalidEmailMessage])
  {
    TrailingLineFeedSlipsThrough();
    assert [InvalidEmailMessage] + [] == [InvalidEmailMessage];
  }

  // ---------------------------------------------------------------------------
  // Responses

  /** A JSON response body: an extracted job, a generated email, the body
      the exception handlers write, or FastAPI's list of validation
      messages. */
  datatype Body =
    | JobBody(job: Types.BackendJobData)
    | EmailBody(subject: string, content: string, confidenceTenths: Option<int>,
                suggestions: Option<seq<string>>, personalizationLevel: Option<string>)
    | ErrorJson(error: bool, message: string, statusCode: int)
    | ValidationErrors(messages: seq<string>)

  datatype Response = Response(status: int, body: Body)

  /** `http_exception_handler`: the detail goes under `message` (there is no
      `detail` key) next to the status code. */
  function HttpExceptionHandler(status: int, detail: string): (r: Response)
    ensures r.status == status && r.body.ErrorJson? && r.body.error
    ensures r.body.statusCode == status && r.body.message == detail
  {
    Response(status, ErrorJson(true, detail, status))
  }

  const UnexpectedMessage: string := "An unexpected error occurred"

  /** `general_exception_handler`: any other exception becomes a 500 whose
      message hides the exception. */
  function GeneralExceptionHandler(exceptionMessage: string): (r: Response)
    ensures r == Response(500, ErrorJson(true, UnexpectedMessage, 500))
  {
    Response(500, ErrorJson(true, UnexpectedMessage, 500))
  }

  /** `str(HTTPException(status, detail))`: "<status>: <detail>". */
  function HttpExceptionText(status: nat, detail: string): (t: string)
    ensures var code := NatToString(status);
      |t| == |code| + 2 + |detail|
      && t[..|code|] == code && t[|code|..|code| + 2] == ": " && t[|code| + 2..] == detail
  {
    NatToString(status) + ": " + detail
  }

  const ExtractPrefix: string := "Failed to extract job data: "
  const NoDataMessage: string := "Unable to extract job data from the provided URL"
  const GeneratePrefix: string := "Failed to generate email: "

  /** What `job_scraper.extract_job_data` does: return a record (`None`
      standing for an empty, falsy one) or raise with a message. */
  datatype ScrapeOutcome = Scraped(data: Option<JobScraper.CleanJob>) | ScrapeRaised(message: string)

  function FromExtraction(x: JobScraper.Extraction): ScrapeOutcome {
    match x.result
    case Ok(j) => Scraped(Some(j))
    case Err(m) => ScrapeRaised(m)
  }

  /** `JobData(**job_data)`: the cleaned record as the response model. */
  function ToJobModel(j: JobScraper.CleanJob): (b: Types.BackendJobData)
    ensures b.role == j.role && b.company == j.company && b.skills == j.skills
    ensures b.experience == Some(j.experience) && b.location == Some(j.location)
  {
    Types.BackendJobData(j.role, j.company, j.description, j.skills,
      Some(j.experience), Some(j.location), None, None, None)
  }

  /** `POST /api/extract-job`. Every failure, including the 400 raised for an
      empty record inside the `try`, is caught and re-raised as a 500 whose
      detail is the prefix followed by `str` of the caught exception. */
  function ExtractEndpoint(o: ScrapeOutcome): (r: Response)
    ensures r.status == 200 <==> o.Scraped? && o.data.Some?
    ensures r.status == 200 ==> r.body == JobBody(ToJobModel(o.data.value))
    ensures r.status != 200 ==> r.status == 500 && r.body.ErrorJson? && r.body.statusCode == 500
    ensures o.ScrapeRaised? ==> r.body.message == ExtractPrefix + o.message
    ensures o == Scraped(None) ==> r.body.message == ExtractPrefix + "400: " + NoDataMessage
  {
    match o
    case ScrapeRaised(m) => HttpExceptionHandler(500, ExtractPrefix + m)
    case Scraped(None) => HttpExceptionHandler(500, ExtractPrefix + HttpExceptionText(400, NoDataMessage))
    case Scraped(Some(j)) => Response(200, JobBody(ToJobModel(j)))
  }

  /** Composed with the scraper: a cleaned record always comes back (so the
      400 branch is never taken), and a scraper failure reaches the client
      with the prefix twice, once from the scraper and once from the
      endpoint. */
  lemma ExtractEndpointOverScraper(pages: seq<string>, reply: JobScraper.ModelReply)
    ensures var x := JobScraper.ExtractJobData(pages, reply);
      var r := ExtractEndpoint(FromExtraction(x));
      && (r.status == 200 <==> x.result.Ok?)
      && (r.status == 200 ==> r.body.job.role != "" && r.body.job.skills != [])
      && (r.status != 200 ==> r.body.message == ExtractPrefix + x.result.error
                              && r.body.message[..2 * |ExtractPrefix|] == ExtractPrefix + ExtractPrefix)
  {
    var x := JobScraper.ExtractJobData(pages, reply);
    if x.result.Err? {
      var m := x.result.error;
      assert m[..|ExtractPrefix|] == ExtractPrefix;
      assert (ExtractPrefix + m)[..2 * |ExtractPrefix|] == ExtractPrefix + m[..|ExtractPrefix|];
    }
  }

  /** `POST /api/generate-email` for a request that passed validation: the
      service's result becomes the email response (the score, in tenths, is
      the only optional field set); any failure becomes a 500 with the prefix
      in front of the service's message. */
  function GenerateEndpoint(job: Types.BackendJobData, info: Types.PersonalInfo,
                            reply: EmailService.ModelReply): (r: Response)
    ensures var g := EmailService.GenerateEmail(EmailService.DumpJob(job), EmailService.DumpPersonal(info), reply);
      && (r.status == 200 <==> g.Ok?)
      && (g.Ok? ==> r.body == EmailBody(g.value.subject, g.value.content, Some(g.value.confidenceTenths), None, None))
      && (g.Err? ==> r == HttpExceptionHandler(500, GeneratePrefix + g.error))
  {
    match EmailService.GenerateEmail(EmailService.DumpJob(job), EmailService.DumpPersonal(info), reply)
    case Ok(e) => Response(200, EmailBody(e.subject, e.content, Some(e.confidenceTenths), None, None))
    case Err(m) => HttpExceptionHandler(500, GeneratePrefix + m)
  }

  /** The whole request: an invalid `personalInfo` is answered with 422 and
      the validators' messages before the service is called; otherwise the
      service sees the stripped skills text. */
  function HandleGenerateRequest(job: Types.BackendJobData, info: Types.PersonalInfo,
                                 reply: EmailService.ModelReply): (r: Response)
    ensures r.status == 422 <==> ValidatePersonalInfo(info).Err?
    ensures r.status == 422 ==> r.body == ValidationErrors(ValidatePersonalInfo(info).error)
    ensures r.status != 422 ==> r == GenerateEndpoint(job, info.(skills := Strip(info.skills)), reply)
  {
    match ValidatePersonalInfo(info)
    case Err(messages) => Response(422, ValidationErrors(messages))
    case Ok(valid) => GenerateEndpoint(job, valid, reply)
  }

  /** Every endpoint error body carries its own status code, and the
      generic message never appears: both endpoints catch every exception
      themselves. */
  lemma EndpointErrorsAreExplicit(o: ScrapeOutcome, job: Types.BackendJobData, info: Types.PersonalInfo,
                                  reply: EmailService.ModelReply)
    ensures var r := ExtractEndpoint(o);
      r.body.ErrorJson? ==> r.body.statusCode == r.status && r.body.message != UnexpectedMessage
    ensures var r := GenerateEndpoint(job, info, reply);
      r.body.ErrorJson? ==> r.body.statusCode == r.status && r.body.message != UnexpectedMessage
  {
    var r := ExtractEndpoint(o);
    if r.body.ErrorJson? {
      assert r.body.message[0] == ExtractPrefix[0] != UnexpectedMessage[0];
    }
    var g := GenerateEndpoint(job, info, reply);
    if g.body.ErrorJson? {
      assert g.body.message[0] == GeneratePrefix[0] != UnexpectedMessage[0];
    }
  }
}

=== FILE: base.dfy ===
/** Option and Result values used throughout the model in place of the
    source's `null`/`undefined`, `None` and thrown exceptions. */
module Base {

  datatype Option<T> = None | Some(value: T) {
    function GetOr(default: T): T {
      match this
      case Some(v) => v
      case None => default
    }
  }

  datatype Result<T, E> = Ok(value: T) | Err(error: E)
}

=== FILE: chatbot.dfy ===
/** The assistant panel (`EnhancedChatbot`): the keyword classifier that
    picks a canned reply, the typing delay, the send handler with its
    blank-message guard, and the welcome message. Texts are sequences of
    Unicode scalar values; `Utf16Length` gives the JavaScript `length` the
    delay is computed from. */
module Chatbot {
  import opened Base
  import opened Text
  import opened Types

  // ---------------------------------------------------------------------------
  // Replies

  const LinkedInReply: string := "\U{1F517} I work best with job postings from LinkedIn, Indeed, and company career sites.\n\nLook for URLs that end with:\n- linkedin.com/jobs/view/\n- indeed.com/viewjob?\n- company.com/careers/"
  const UrlReply: string := "Just paste the full job posting URL here.\n\nExample:\nhttps://www.linkedin.com/jobs/view/senior-frontend-developer-1234567890"
  const ExampleReply: string := "Here\U{2019}s a sample good job URL:\n\nhttps://www.linkedin.com/jobs/view/senior-frontend-developer-at-techcorp-inc-1234567890\n\nMake sure it\U{2019}s a direct job posting, not a search page."
  const EditReply: string := "\U{270F}\U{FE0F} Use the 'Edit' button to update job details. Key things to verify:\n- Job title\n- Skills\n- Company info\n- Location"
  const SkillsReviewReply: string := "Review the extracted skills and requirements carefully. Add any that weren\U{2019}t auto-detected!"
  const NextReply: string := "Click **Continue to Personal Info** when ready."
  const DescribeSkillsReply: string := "When describing your skills, be specific:\n- Mention projects\n- Technologies\n- Achievements\n- Quantifiable results"
  const SummaryReply: string := "Template for your summary:\n\n> As a [Your Role] with [X] years of experience, I specialize in [Key Skills]. At [Company], I [Achievement] which resulted in [Result]. I'm excited about [Company] because [Reason]."
  const SubjectReply: string := "\U{1F3AF} A good subject line is short, relevant, and personalized.\n\nExamples:\n- *Experienced Frontend Dev Interested in [Company]*\n- *React Specialist | Perfect Fit for [Role]*"
  const EmailBodyReply: string := "An effective email should:\n1. Open with a personalized hook\n2. Show your value in 2-3 sentences\n3. Close with a clear call-to-action"
  const SendReply: string := "\U{1F4E7} Steps to send:\n1. Copy your email\n2. Paste into your email client\n3. Address to hiring manager\n4. Send during **business hours** for better response rates."
  const GreetingReply: string := "Hey there! \U{1F44B} How can I help you today?"
  const ThanksReply: string := "You're welcome! \U{1F64C} Anything else you\U{2019}d like help with?"
  const TipsReply: string := "\U{1F4A1} Tips:\n- Research the company\n- Tailor your message\n- Highlight achievements\n- Stay professional yet friendly\n- Follow up if needed"
  const DefaultReply: string := "I'm here to help you create the perfect cold email. What would you like to work on?"

  /** The canned replies, by the rule that picks them. */
  datatype Reply = LinkedIn | Url | Example | Edit | SkillsReview | Next | DescribeSkills | Summary | SubjectLine | EmailBody | SendSteps | Hello | Thanks | Tips | Fallback

  /** The text shown for a reply. */
  function ReplyText(r: Reply): string {
    match r
    case LinkedIn => LinkedInReply
    case Url => UrlReply
    case Example => ExampleReply
    case Edit => EditReply
    case SkillsReview => SkillsReviewReply
    case Next => NextReply
    case DescribeSkills => DescribeSkillsReply
    case Summary => SummaryReply
    case SubjectLine => SubjectReply
    case EmailBody => EmailBodyReply
    case SendSteps => SendReply
    case Hello => GreetingReply
    case Thanks => ThanksReply
    case Tips => TipsReply
    case Fallback => DefaultReply
  }

  /** `generateResponse`: the message is lower-cased, then the rules for
      the current step are tried in order, then the generic ones. */
  function Respond(step: int, message: string): (reply: Reply)
    ensures reply == FirstMatch(Rules, step, Mentions(Lower(message))).GetOr(Fallback)
  {
    ClassifyIsFirstMatch(step, Mentions(Lower(message)));
    Classify(step, Lower(message))
  }

  function Classify(step: int, m: string): Reply {
    ClassifyBy(step, Mentions(m))
  }

  /** The keyword test: does the lower-cased message contain `kw`. */
  function Mentions(m: string): string -> bool {
    (kw: string) => Contains(m, kw)
  }

  /** The handler's nested conditions, over the keyword test `has`. */
  function ClassifyBy(step: int, has: string -> bool): Reply {
    if step == 1 && (has("linkedin") || has("indeed") || has("career")) then LinkedIn
    else if step == 1 && (has("url") || has("link") || has("paste")) then Url
    else if step == 1 && has("example") then Example
    else if step == 2 && (has("edit") || has("change")) then Edit
    else if step == 2 && (has("skill") || has("requirement")) then SkillsReview
    else if step == 2 && has("next") then Next
    else if step == 3 && (has("skill") || has("experience")) then DescribeSkills
    else if step == 3 && (has("help") || has("summary")) then Summary
    else if step == 4 && has("subject") then SubjectLine
    else if step == 4 && (has("email") || has("body")) then EmailBody
    else if step == 4 && has("send") then SendSteps
    else if has("hello") || has("hi") then Hello
    else if has("thank") then Thanks
    else if has("tip") || has("advice") then Tips
    else Fallback
  }

  // ---------------------------------------------------------------------------
  // The same classifier as a priority table

  /** A rule: the step it is limited to (`None` for the generic ones), its
      keywords, and its reply. */
  datatype Rule = Rule(step: Option<int>, keywords: seq<string>, reply: Reply)

  const Step1Rules: seq<Rule> := [
    Rule(Some(1), ["linkedin", "indeed", "career"], LinkedIn),
    Rule(Some(1), ["url", "link", "paste"], Url),
    Rule(Some(1), ["example"], Example)]
  const Step2Rules: seq<Rule> := [
    Rule(Some(2), ["edit", "change"], Edit),
    Rule(Some(2), ["skill", "requirement"], SkillsReview),
    Rule(Some(2), ["next"], Next)]
  const Step3Rules: seq<Rule> := [
    Rule(Some(3), ["skill", "experience"], DescribeSkills),
    Rule(Some(3), ["help", "summary"], Summary)]
  const Step4Rules: seq<Rule> := [
    Rule(Some(4), ["subject"], SubjectLine),
    Rule(Some(4), ["email", "body"], EmailBody),
    Rule(Some(4), ["send"], SendSteps)]
  const GenericRules: seq<Rule> := [
    Rule(None, ["hello", "hi"], Hello),
    Rule(None, ["thank"], Thanks),
    Rule(None, ["tip", "advice"], Tips)]

  /** The whole table in priority order. */
  const Rules: seq<Rule> := Step1Rules + (Step2Rules + (Step3Rules + (Step4Rules + GenericRules)))

  predicate AnyKeyword(has: string -> bool, keywords: seq<string>) {
    exists k :: 0 <= k < |keywords| && has(keywords[k])
  }

  predicate Fires(r: Rule, step: int, has: string -> bool) {
    (r.step.None? || r.step == Some(step)) && AnyKeyword(has, r.keywords)
  }

  /** The reply of the first rule that fires, if any. */
  function FirstMatch(rules: seq<Rule>, step: int, has: string -> bool): (reply: Option<Reply>)
    ensures reply.Some? <==> exists k :: 0 <= k < |rules| && Fires(rules[k], step, has)
    ensures reply.Some? ==> exists k :: 0 <= k < |rules| && Fires(rules[k], step, has) && reply.value == rules[k].reply
  {
    if rules == [] then None
    else if Fires(rules[0], step, has) then Some(rules[0].reply)
    else
      var reply := FirstMatch(rules[1..], step, has);
      assert forall k :: 0 <= k < |rules[1..]| ==> rules[1..][k] == rules[k + 1];
      assert forall k :: 0 < k < |rules| ==> rules[k] == rules[1..][k - 1];
      reply
  }

  /** A table split in two: the second part is consulted only when no rule
      of the first fires. */
  lemma {:induction false} FirstMatchAppend(a: seq<Rule>, b: seq<Rule>, step: int, has: string -> bool)
    ensures FirstMatch(a + b, step, has)
         == if FirstMatch(a, step, has).Some? then FirstMatch(a, step, has) else FirstMatch(b, step, has)
  {
    if a == [] {
      assert a + b == b;
    } else {
      assert (a + b)[0] == a[0];
      assert (a + b)[1..] == a[1..] + b;
      FirstMatchAppend(a[1..], b, step, has);
    }
  }

  lemma AnyOfOne(has: string -> bool, a: string)
    ensures AnyKeyword(has, [a]) <==> has(a)
  {
    if has(a) {
      assert [a][0] == a;
    }
  }

  lemma AnyOfTwo(has: string -> bool, a: string, b: string)
    ensures AnyKeyword(has, [a, b]) <==> has(a) || has(b)
  {
    if has(a) {
      assert [a, b][0] == a;
    } else if has(b) {
      assert [a, b][1] == b;
    }
  }

  lemma AnyOfThree(has: string -> bool, a: string, b: string, c: string)
    ensures AnyKeyword(has, [a, b, c]) <==> has(a) || has(b) || has(c)
  {
    if has(a) {
      assert [a, b, c][0] == a;
    } else if has(b) {
      assert [a, b, c][1] == b;
    } else if has(c) {
      assert [a, b, c][2] == c;
    }
  }

  /** Three rules, one at a time. */
  lemma FirstOfThree(r0: Rule, r1: Rule, r2: Rule, step: int, has: string -> bool)
    ensures FirstMatch([r0, r1, r2], step, has)
         == if Fires(r0, step, has) then Some(r0.reply)
            else if Fires(r1, step, has) then Some(r1.reply)
            else if Fires(r2, step, has) then Some(r2.reply)
            else None
  {
    assert [r0, r1, r2][0] == r0 && [r0, r1, r2][1..] == [r1, r2];
    FirstOfTwo(r1, r2, step, has);
  }

  lemma FirstOfTwo(r0: Rule, r1: Rule, step: int, has: string -> bool)
    ensures FirstMatch([r0, r1], step, has)
         == if Fires(r0, step, has) then Some(r0.reply)
            else if Fires(r1, step, has) then Some(r1.reply)
            else None
  {
    assert [r0, r1][1..] == [r1];
    assert [r1][1..] == [];
  }

  lemma Step1Table(step: int, has: string -> bool)
    ensures FirstMatch(Step1Rules, step, has)
         == if step == 1 && (has("linkedin") || has("indeed") || has("career")) then Some(LinkedIn)
            else if step == 1 && (has("url") || has("link") || has("paste")) then Some(Url)
            else if step == 1 && has("example") then Some(Example)
            else None
  {
    AnyOfThree(has, "linkedin", "indeed", "career");
    AnyOfThree(has, "url", "link", "paste");
    AnyOfOne(has, "example");
    FirstOfThree(Step1Rules[0], Step1Rules[1], Step1Rules[2], step, has);
  }

  lemma Step2Table(step: int, has: string -> bool)
    ensures FirstMatch(Step2Rules, step, has)
         == if step == 2 && (has("edit") || has("change")) then Some(Edit)
            else if step == 2 && (has("skill") || has("requirement")) then Some(SkillsReview)
            else if step == 2 && has("next") then Some(Next)
            else None
  {
    AnyOfTwo(has, "edit", "change");
    AnyOfTwo(has, "skill", "requirement");
    AnyOfOne(has, "next");
    FirstOfThree(Step2Rules[0], Step2Rules[1], Step2Rules[2], step, has);
  }

  lemma Step3Table(step: int, has: string -> bool)
    ensures FirstMatch(Step3Rules, step, has)
         == if step == 3 && (has("skill") || has("experience")) then Some(DescribeSkills)
            else if step == 3 && (has("help") || has("summary")) then Some(Summary)
            else None
  {
    AnyOfTwo(has, "skill", "experience");
    AnyOfTwo(has, "help", "summary");
    FirstOfTwo(Step3Rules[0], Step3Rules[1], step, has);
  }

  lemma Step4Table(step: int, has: string -> bool)
    ensures FirstMatch(Step4Rules, step, has)
         == if step == 4 && has("subject") then Some(SubjectLine)
            else if step == 4 && (has("email") || has("body")) then Some(EmailBody)
            else if step == 4 && has("send") then Some(SendSteps)
            else None
  {
    AnyOfOne(has, "subject");
    AnyOfTwo(has, "email", "body");
    AnyOfOne(has, "send");
    FirstOfThree(Step4Rules[0], Step4Rules[1], Step4Rules[2], step, has);
  }

  lemma GenericTable(step: int, has: string -> bool)
    ensures FirstMatch(GenericRules, step, has)
         == if has("hello") || has("hi") then Some(Hello)
            else if has("thank") then Some(Thanks)
            else if has("tip") || has("advice") then Some(Tips)
            else None
  {
    AnyOfTwo(has, "hello", "hi");
    AnyOfOne(has, "thank");
    AnyOfTwo(has, "tip", "advice");
    FirstOfThree(GenericRules[0], GenericRules[1], GenericRules[2], step, has);
  }

  /** The nested conditions of the handler are exactly the priority table:
      step rules in source order, then the generic ones, then the default. */
  lemma ClassifyIsFirstMatch(step: int, has: string -> bool)
    ensures ClassifyBy(step, has) == FirstMatch(Rules, step, has).GetOr(Fallback)
  {
    Step4Table(step, has);
    GenericTable(step, has);
    FirstMatchAppend(Step4Rules, GenericRules, step, has);
    Step3Table(step, has);
    FirstMatchAppend(Step3Rules, Step4Rules + GenericRules, step, has);
    Step2Table(step, has);
    FirstMatchAppend(Step2Rules, Step3Rules + (Step4Rules + GenericRules), step, has);
    Step1Table(step, has);
    FirstMatchAppend(Step1Rules, Step2Rules + (Step3Rules + (Step4Rules + GenericRules)), step, has);
  }

  // ---------------------------------------------------------------------------
  // Typing delay

  /** JavaScript's `length`: characters outside the Basic Multilingual
      Plane take two UTF-16 code units. */
  function Utf16Length(s: string): (n: nat)
    ensures |s| <= n <= 2 * |s|
  {
    if s == [] then 0
    else (if s[0] as int > 0xFFFF then 2 else 1) + Utf16Length(s[1..])
  }

  /** `Math.min(2000, response.length * 30)`. */
  function TypingDelay(reply: string): (d: nat)
    ensures d <= 2000
    ensures d == 2000 || d == 30 * Utf16Length(reply)
    ensures 30 * Utf16Length(reply) >= 2000 ==> d == 2000
    ensures 30 * Utf16Length(reply) < 2000 ==> d == 30 * Utf16Length(reply)
  {
    if 30 * Utf16Length(reply) < 2000 then 30 * Utf16Length(reply) else 2000
  }

  /** Without characters outside the Basic Multilingual Plane the UTF-16
      length is the character count. */
  lemma {:induction false} BmpLength(s: string)
    requires forall i :: 0 <= i < |s| ==> s[i] as int <= 0xFFFF
    ensures Utf16Length(s) == |s|
  {
    if s != [] {
      BmpLength(s[1..]);
    }
  }

  // ---------------------------------------------------------------------------
  // Classifier properties

  /** Matching ignores ASCII case. */
  lemma RespondIgnoresCase(step: int, message: string)
    ensures Respond(step, message) == Respond(step, Lower(message))
  {
    LowerIdempotent(message);
  }

  /** Outside steps 1-4 only the generic rules can fire. */
  lemma OutsideStepsOnlyGeneric(step: int, message: string)
    requires step < 1 || step > 4
    ensures Respond(step, message) in {Hello, Thanks, Tips, Fallback}
  {
  }

  /** The rules of the current step. */
  function StepRules(step: int): (rules: seq<Rule>)
    ensures forall k :: 0 <= k < |rules| ==> rules[k].step == Some(step)
  {
    if step == 1 then Step1Rules
    else if step == 2 then Step2Rules
    else if step == 3 then Step3Rules
    else if step == 4 then Step4Rules
    else []
  }

  /** When a rule of the current step fires, it wins over every generic
      rule; otherwise the generic rules decide. */
  lemma StepRulesComeFirst(step: int, message: string)
    ensures var has := Mentions(Lower(message));
            var own := FirstMatch(StepRules(step), step, has);
            Respond(step, message)
              == if own.Some? then own.value else FirstMatch(GenericRules, step, has).GetOr(Fallback)
  {
    var has := Mentions(Lower(message));
    Step1Table(step, has);
    Step2Table(step, has);
    Step3Table(step, has);
    Step4Table(step, has);
    GenericTable(step, has);
    ClassifyIsFirstMatch(step, has);
  }

  /** "hi" is a substring test: a message that merely contains the letters,
      such as "this", gets the greeting when no step rule fires. */
  lemma HiInsideAWord()
    ensures Respond(0, "this") == Hello
  {
    assert Lower("this")[1..3] == "hi";
    assert OccursAt(Lower("this"), "hi", 1);
  }

  // ---------------------------------------------------------------------------
  // Welcome message

  /** A welcome message: its text and its three suggestions. */
  datatype Greeting = Greeting(content: string, suggestions: seq<string>)

  const Step1Welcome: Greeting := Greeting(
    "\U{1F44B} Welcome to OutReach AI!\n\nPaste a job URL to get started. I work best with pages from LinkedIn, Indeed, and company career sites.\n\n\U{1F4A1} Pro Tip: Make sure the URL is complete and accessible!",
    ["What makes a good job URL?", "How do I find the right job?", "Show me an example"])
  const Step2Welcome: Greeting := Greeting(
    "\U{2705} I've extracted the job details.\n\nReview them carefully and edit if needed. The AI isn't perfect, so double-check the skills and requirements.",
    ["How do I edit job details?", "What should I look for in requirements?", "Next step please"])
  const Step3Welcome: Greeting := Greeting(
    "Now tell me about yourself! \U{1F3AF}\n\nThe more specific you are about your skills and experience, the better I can personalize your email.",
    ["How do I describe my skills?", "What experience is most relevant?", "Help me craft my summary"])
  const Step4Welcome: Greeting := Greeting(
    "\U{2709}\U{FE0F} Your email is ready!\n\nDon\U{2019}t forget to personalize it further to match your unique voice.",
    ["How do I improve the subject?", "What makes a good email body?", "How do I send this?"])
  const TipsSuggestion: string := "Tips for job searching"
  const DefaultWelcome: Greeting := Greeting(
    "Hi there! I'm your AI assistant \U{1F916}. Let's create the perfect cold email together.",
    ["Help me write an email", "Improve my job application", TipsSuggestion])

  /** The welcome for a step; steps outside 1-4 get the generic one. */
  function Welcome(step: int): (w: Greeting)
    ensures 1 <= step <= 4 ==> w != DefaultWelcome
    ensures !(1 <= step <= 4) ==> w == DefaultWelcome
  {
    if step == 1 then Step1Welcome
    else if step == 2 then Step2Welcome
    else if step == 3 then Step3Welcome
    else if step == 4 then Step4Welcome
    else DefaultWelcome
  }

  /** The four step greetings are pairwise different, and each differs
      from the generic one. */
  lemma WelcomesDiffer(a: int, b: int)
    requires 1 <= a <= 4 && 1 <= b <= 4 && a != b
    ensures Welcome(a) != Welcome(b)
    ensures Welcome(a).suggestions[0] != Welcome(b).suggestions[0]
  {
    var w := [Step1Welcome, Step2Welcome, Step3Welcome, Step4Welcome];
    assert Welcome(a) == w[a - 1] && Welcome(b) == w[b - 1];
    assert w[0].suggestions[0][0] == 'W' && w[1].suggestions[0][0] == 'H';
    assert w[1].suggestions[0][9] == 'e' && w[2].suggestions[0][9] == 'd' && w[3].suggestions[0][9] == 'i';
  }

  /** Each step's greeting leads into that step's help: its first
      suggestion is answered by a rule of that step. */
  lemma WelcomeLeadsIntoStep(step: int)
    requires 1 <= step <= 4
    ensures var reply := Respond(step, Welcome(step).suggestions[0]);
      && reply == [Url, Edit, DescribeSkills, SubjectLine][step - 1]
      && exists k :: 0 <= k < |StepRules(step)| && StepRules(step)[k].reply == reply
  {
    if step == 1 {
      FirstSuggestionOfStep1();
      assert StepRules(1)[1].reply == Url;
    } else if step == 2 {
      FirstSuggestionOfStep2();
      assert StepRules(2)[0].reply == Edit;
    } else if step == 3 {
      FirstSuggestionOfStep3();
      assert StepRules(3)[0].reply == DescribeSkills;
    } else {
      FirstSuggestionOfStep4();
      assert StepRules(4)[0].reply == SubjectLine;
    }
  }

  lemma FirstSuggestionOfStep1()
    ensures Respond(1, Step1Welcome.suggestions[0]) == Url
  {
    assert Lower(Step1Welcome.suggestions[0]) == "what makes a good job url?";
    UrlQuestion();
  }

  /** The lower-cased question names no job site but mentions a URL. */
  lemma UrlQuestion()
    ensures Classify(1, "what makes a good job url?") == Url
  {
    var m := "what makes a good job url?";
    MissingCharNotContained(m, "linkedin", 1);
    MissingCharNotContained(m, "indeed", 0);
    MissingCharNotContained(m, "career", 0);
    assert OccursAt(m, "url", 22);
  }

  lemma FirstSuggestionOfStep2()
    ensures Respond(2, Step2Welcome.suggestions[0]) == Edit
  {
    var m := "how do i edit job details?";
    assert Lower(Step2Welcome.suggestions[0]) == m;
    assert Classify(2, m) == Edit by {
      assert OccursAt(m, "edit", 9);
    }
  }

  lemma FirstSuggestionOfStep3()
    ensures Respond(3, Step3Welcome.suggestions[0]) == DescribeSkills
  {
    var m := "how do i describe my skills?";
    assert Lower(Step3Welcome.suggestions[0]) == m;
    assert Classify(3, m) == DescribeSkills by {
      assert OccursAt(m, "skill", 21);
    }
  }

  lemma FirstSuggestionOfStep4()
    ensures Respond(4, Step4Welcome.suggestions[0]) == SubjectLine
  {
    var m := "how do i improve the subject?";
    assert Lower(Step4Welcome.suggestions[0]) == m;
    assert Classify(4, m) == SubjectLine by {
      assert OccursAt(m, "subject", 21);
    }
  }

  /** The generic welcome's third suggestion asks for tips but gets the
      greeting: "searching" contains "hi", and the greeting rule comes
      before the tips rule. */
  lemma TipsSuggestionGetsGreeting(step: int)
    requires step < 1 || step > 4
    ensures Respond(step, Welcome(step).suggestions[2]) == Hello
  {
    var m := Lower(TipsSuggestion);
    assert Welcome(step).suggestions[2] == TipsSuggestion;
    assert m[18] == 'h' && m[19] == 'i';
    assert m[18..20] == "hi";
    assert OccursAt(m, "hi", 18);
  }

  // ---------------------------------------------------------------------------
  // The conversation

  /** A reply waiting for its timer. */
  datatype Scheduled = Scheduled(reply: string, delay: nat)

  /** The panel's state: the history, the text in the input, the typing
      indicator and the replies whose timers are running. */
  datatype Chat = Chat(messages: seq<Message>, input: string, typing: bool, scheduled: seq<Scheduled>)

  const Empty: Chat := Chat([], "", false, [])

  /** The welcome effect: when the panel is open and the history is empty,
      the history becomes the single welcome message of the current step;
      otherwise nothing happens. */
  function WelcomeEffect(c: Chat, isOpen: bool, step: int, now: int): (r: Chat)
    ensures isOpen && c.messages == [] ==>
              |r.messages| == 1 && r.messages[0].role == Ai
              && r.messages[0].content == Welcome(step).content
              && r.messages[0].suggestions == Some(Welcome(step).suggestions)
    ensures !(isOpen && c.messages == []) ==> r == c
    ensures r.input == c.input && r.scheduled == c.scheduled
  {
    if isOpen && c.messages == [] then
      c.(messages := [Message(now, Ai, Welcome(step).content, now, Some(Welcome(step).suggestions), None)])
    else c
  }

  /** `sendMessage(messageText?)`: the text is the argument when one is
      given and the input otherwise; a blank text is ignored. Otherwise the
      user's message is appended, the input is cleared (also when the text
      came from a suggestion), the typing indicator goes on and the reply
      for the current step is scheduled. */
  function Send(c: Chat, step: int, messageText: Option<string>, now: int): (r: Chat)
    ensures var text := messageText.GetOr(c.input);
            if IsBlank(text) then r == c
            else r.messages == c.messages + [Message(now, User, text, now, None, None)]
                 && r.input == "" && r.typing
                 && r.scheduled == c.scheduled + [Scheduled(ReplyText(Respond(step, text)), TypingDelay(ReplyText(Respond(step, text))))]
  {
    var text := messageText.GetOr(c.input);
    if Strip(text) == "" then c
    else
      var reply := ReplyText(Respond(step, text));
      Chat(c.messages + [Message(now, User, text, now, None, None)], "", true,
        c.scheduled + [Scheduled(reply, TypingDelay(reply))])
  }

  /** The send button is enabled exactly when pressing it does something. */
  predicate SendEnabled(c: Chat): (b: bool)
    ensures b <==> Strip(c.input) != ""
  {
    !IsBlank(c.input)
  }

  lemma SendButtonMatchesGuard(c: Chat, step: int, now: int)
    ensures SendEnabled(c) <==> Send(c, step, None, now) != c
  {
    if SendEnabled(c) {
      assert |Send(c, step, None, now).messages| == |c.messages| + 1;
    }
  }

  /** A timer fires: its reply is appended as an AI message and the typing
      indicator goes off, even if other replies are still pending. */
  function Deliver(c: Chat, k: nat, now: int): (r: Chat)
    requires k < |c.scheduled|
    ensures r.messages == c.messages + [Message(now + 1, Ai, c.scheduled[k].reply, now, None, None)]
    ensures !r.typing && r.input == c.input
    ensures |r.scheduled| == |c.scheduled| - 1
    ensures multiset(r.scheduled) + multiset{c.scheduled[k]} == multiset(c.scheduled)
  {
    assert c.scheduled == c.scheduled[..k] + [c.scheduled[k]] + c.scheduled[k + 1..];
    c.(messages := c.messages + [Message(now + 1, Ai, c.scheduled[k].reply, now, None, None)],
       typing := false,
       scheduled := c.scheduled[..k] + c.scheduled[k + 1..])
  }

  /** Messages of a role, counting AI messages only when they carry no
      suggestions (replies, not the welcome). */
  function CountReplies(ms: seq<Message>): nat {
    if ms == [] then 0
    else CountReplies(ms[..|ms| - 1]) + (if ms[|ms| - 1].role == Ai && ms[|ms| - 1].suggestions.None? then 1 else 0)
  }

  function CountUser(ms: seq<Message>): nat {
    if ms == [] then 0
    else CountUser(ms[..|ms| - 1]) + (if ms[|ms| - 1].role == User then 1 else 0)
  }

  /** Every user message is answered by exactly one reply: those already
      shown plus those still scheduled match the user messages one for
      one. */
  predicate Balanced(c: Chat) {
    CountReplies(c.messages) + |c.scheduled| == CountUser(c.messages)
  }

  lemma EmptyIsBalanced()
    ensures Balanced(Empty)
  {
  }

  lemma {:induction false} WelcomeKeepsBalance(c: Chat, isOpen: bool, step: int, now: int)
    requires Balanced(c)
    ensures Balanced(WelcomeEffect(c, isOpen, step, now))
  {
    if isOpen && c.messages == [] {
      var ms := WelcomeEffect(c, isOpen, step, now).messages;
      assert ms[..|ms| - 1] == [];
    }
  }

  lemma {:induction false} SendKeepsBalance(c: Chat, step: int, messageText: Option<string>, now: int)
    requires Balanced(c)
    ensures Balanced(Send(c, step, messageText, now))
  {
    var text := messageText.GetOr(c.input);
    if !IsBlank(text) {
      AppendUserMessage(c.messages, Message(now, User, text, now, None, None));
    }
  }

  lemma AppendUserMessage(ms: seq<Message>, m: Message)
    requires m.role == User
    ensures CountReplies(ms + [m]) == CountReplies(ms)
    ensures CountUser(ms + [m]) == CountUser(ms) + 1
  {
    assert (ms + [m])[..|ms|] == ms;
  }

  lemma {:induction false} DeliverKeepsBalance(c: Chat, k: nat, now: int)
    requires Balanced(c) && k < |c.scheduled|
    ensures Balanced(Deliver(c, k, now))
  {
    var r := Deliver(c, k, now);
    assert r.messages[..|r.messages| - 1] == c.messages;
  }
}

=== FILE: email_output.dfy ===
/** The last wizard screen (`EmailOutput`): a local editable copy of the
    generated email kept in step with the wizard's, the text that Copy and
    Download export, the subject and content edits, the loading view and
    the confidence badge. The clipboard, the download link and the toasts'
    display are effects outside the model; the text and the toast message
    each action produces are what is modelled. */
module EmailOutput {
  import opened Base
  import opened Text
  import opened Types

  const SubjectPrefix: string := "Subject: "
  const CopiedToast: string := "Email copied to clipboard!"
  const DownloadedToast: string := "Email downloaded!"
  const DownloadName: string := "cold-email.txt"

  /** The exported text: the subject line, a blank line, the body. */
  function FullText(e: GeneratedEmail): string {
    SubjectPrefix + e.subject + "\n\n" + e.content
  }

  /** Reads an exported text back: the subject runs to the first line
      break, which must be followed by a second one. */
  function ParseFullText(text: string): (r: Option<(string, string)>)
    ensures r.Some? ==> '\n' !in r.value.0
  {
    if |text| < |SubjectPrefix| || text[..|SubjectPrefix|] != SubjectPrefix then None
    else
      var rest := text[|SubjectPrefix|..];
      if '\n' !in rest then None
      else
        var i := IndexOf(rest, '\n');
        if i + 1 < |rest| && rest[i + 1] == '\n' then Some((rest[..i], rest[i + 2..])) else None
  }

  /** A subject without line breaks survives the export: the text reads
      back as the same subject and content. */
  lemma FullTextRoundTrip(e: GeneratedEmail)
    requires '\n' !in e.subject
    ensures ParseFullText(FullText(e)) == Some((e.subject, e.content))
  {
    var text := FullText(e);
    assert text == SubjectPrefix + (e.subject + "\n\n" + e.content);
    var rest := text[|SubjectPrefix|..];
    assert rest == e.subject + "\n\n" + e.content;
    assert rest[|e.subject|] == '\n';
    assert forall k :: 0 <= k < |e.subject| ==> rest[k] == e.subject[k] && rest[k] != '\n';
    IndexOfIsFirst(rest, '\n', |e.subject|);
    var i := IndexOf(rest, '\n');
    assert rest[..i] == e.subject;
    assert rest[i + 2..] == e.content;
  }

  /** Conversely, every text that reads back is the export of what it
      reads back as. */
  lemma ParsedTextIsExport(text: string, e: GeneratedEmail)
    requires ParseFullText(text) == Some((e.subject, e.content))
    ensures FullText(e) == text
  {
    ParsedParts(text);
  }

  /** The pieces a parse finds, put back together with the separators it
      consumed, give the text. */
  lemma ParsedParts(text: string)
    requires ParseFullText(text).Some?
    ensures var (subject, content) := ParseFullText(text).value;
            text == SubjectPrefix + subject + "\n\n" + content
  {
    var n := |SubjectPrefix|;
    var rest := text[n..];
    var i := IndexOf(rest, '\n');
    assert ParseFullText(text).value == (rest[..i], rest[i + 2..]);
    SplitAtBlankLine(rest, i);
    assert text == text[..n] + rest;
  }

  /** A text with a blank line at `i` is what comes before it, the blank
      line, and what comes after. */
  lemma SplitAtBlankLine(s: string, i: nat)
    requires i + 1 < |s| && s[i] == '\n' && s[i + 1] == '\n'
    ensures s == s[..i] + "\n\n" + s[i + 2..]
  {
    assert s[i..i + 2] == "\n\n";
    assert s == s[..i] + s[i..i + 2] + s[i + 2..];
  }

  /** A subject with a blank line in it is not recoverable: two different
      emails export the same text. */
  lemma SubjectWithBlankLineIsAmbiguous()
    ensures FullText(GeneratedEmail("a\n\nb", "c", None, None, None))
         == FullText(GeneratedEmail("a", "b\n\nc", None, None, None))
  {
  }

  // ---------------------------------------------------------------------------
  // Actions

  datatype Action = Copy | Download

  /** What an action exports: the same text for both, a file name for the
      download only, and the toast it shows. */
  datatype Export = Export(text: string, fileName: Option<string>, toast: string)

  function Perform(editable: GeneratedEmail, a: Action): (r: Export)
    ensures r.text == FullText(editable)
    ensures r.fileName.Some? <==> a == Download
  {
    match a
    case Copy => Export(FullText(editable), None, CopiedToast)
    case Download => Export(FullText(editable), Some(DownloadName), DownloadedToast)
  }

  /** Copy and Download export identical text. */
  lemma CopyEqualsDownload(editable: GeneratedEmail)
    ensures Perform(editable, Copy).text == Perform(editable, Download).text
  {
  }

  /** The screen's state: the local editable copy. */
  datatype View = View(editable: GeneratedEmail)

  /** The effect on the `generatedEmail` prop: any new prop replaces the
      copy, edits included. */
  function SyncProp(v: View, prop: GeneratedEmail): (r: View)
    ensures r.editable == prop
  {
    View(prop)
  }

  datatype Field = SubjectField | ContentField

  /** A subject or content edit: only that field changes, and the same
      updated record goes to the wizard. */
  function Edit(v: View, f: Field, value: string): (r: (View, GeneratedEmail))
    ensures r.0.editable == r.1
    ensures f == SubjectField ==> r.1 == v.editable.(subject := value)
    ensures f == ContentField ==> r.1 == v.editable.(content := value)
  {
    var updated := match f
      case SubjectField => v.editable.(subject := value)
      case ContentField => v.editable.(content := value);
    (View(updated), updated)
  }

  /** The wizard stores what it is sent, and the prop effect then hands the
      same record back: the copy is unchanged by the round trip. */
  lemma EditThenSyncIsStable(v: View, f: Field, value: string)
    ensures var (v1, sent) := Edit(v, f, value);
            SyncProp(v1, sent) == v1
  {
  }

  // ---------------------------------------------------------------------------
  // Rendering

  /** What the badge slot renders. */
  datatype BadgeView = NoBadge | StrayText(text: string) | Badge(caption: string)

  /** The badge label: the score as a whole percentage. */
  function BadgeLabel(tenths: int): (caption: string)
    ensures |caption| > 13 && caption[..12] == "Confidence: " && caption[|caption| - 1] == '%'
  {
    "Confidence: " + IntToString(10 * tenths) + "%"
  }

  /** `{score && <badge/>}` as written: a missing score renders nothing,
      a non-zero one the badge, and a zero score the text "0", because the
      expression's value is the number 0 and React renders numbers. */
  function BadgeAsWritten(score: Option<int>): (r: BadgeView)
    ensures score.None? ==> r == NoBadge
    ensures score == Some(0) ==> r == StrayText("0")
    ensures score.Some? && score.value != 0 ==> r == Badge(BadgeLabel(score.value))
  {
    match score
    case None => NoBadge
    case Some(t) => if t == 0 then StrayText("0") else Badge(BadgeLabel(t))
  }

  /** The input that shows it: a score of zero puts a stray "0" under the
      heading instead of hiding the badge. */
  lemma ZeroScoreRendersStrayZero()
    ensures BadgeAsWritten(Some(0)) != NoBadge
  {
  }

  /** The badge as intended: shown exactly for a present, non-zero score,
      and nothing else is ever rendered in its place. */
  function ConfidenceBadge(score: Option<int>): (r: BadgeView)
    ensures !r.StrayText?
    ensures r.Badge? <==> score.Some? && score.value != 0
    ensures r.Badge? ==> r.caption == BadgeLabel(score.value)
  {
    if score.Some? && score.value != 0 then Badge(BadgeLabel(score.value)) else NoBadge
  }

  /** The two agree except on a zero score. */
  lemma BadgeAgreesExceptZero(score: Option<int>)
    ensures score != Some(0) <==> BadgeAsWritten(score) == ConfidenceBadge(score)
  {
  }

  /** The screen: the loading view while generating, otherwise the editor
      with the badge for the wizard's email (not the local copy). */
  datatype Screen = Loading | Editor(subject: string, content: string, badge: BadgeView)

  /** The screen as written, with the badge slot's stray "0". */
  function RenderAsWritten(v: View, prop: GeneratedEmail, isLoading: bool): (r: Screen)
    ensures isLoading <==> r.Loading?
    ensures !isLoading ==> r.subject == v.editable.subject && r.content == v.editable.content
    ensures !isLoading ==> r.badge == BadgeAsWritten(prop.confidenceTenths)
  {
    if isLoading then Loading
    else Editor(v.editable.subject, v.editable.content, BadgeAsWritten(prop.confidenceTenths))
  }

  /** The screen with the badge as intended; the rest of the model uses
      this one. */
  function Render(v: View, prop: GeneratedEmail, isLoading: bool): (r: Screen)
    ensures isLoading <==> r.Loading?
    ensures !isLoading ==> r.subject == v.editable.subject && r.content == v.editable.content
    ensures !isLoading ==> r.badge == ConfidenceBadge(prop.confidenceTenths)
  {
    if isLoading then Loading
    else Editor(v.editable.subject, v.editable.content, ConfidenceBadge(prop.confidenceTenths))
  }

  /** The two screens differ only in the badge slot, and only for a
      zero score. */
  lemma RenderAgreesExceptZero(v: View, prop: GeneratedEmail, isLoading: bool)
    ensures RenderAsWritten(v, prop, isLoading) != Render(v, prop, isLoading)
        <==> !isLoading && prop.confidenceTenths == Some(0)
  {
    BadgeAgreesExceptZero(prop.confidenceTenths);
  }
}

=== FILE: email_service.dfy ===
/** The backend's email service (`EmailService`): the data handed to the
    prompt, the reading of the language model's JSON reply, the fallback
    subject and letter, and the confidence score. The language model itself
    is an input: its reply is given, already decoded. */
module EmailService {
  import opened Base
  import opened Text
  import Types

  /** A Python value as it appears in the dictionaries the service reads:
      a string, `None`, a list of strings, or any other value, known by its
      Python type name ("int", "bool", "dict", ...). */
  datatype Value = Str(s: string) | Null | StrList(items: seq<string>) | Other(typeName: string)

  type Dict = map<string, Value>

  /** `d.get(key, default)`. */
  function Get(d: Dict, key: string, default: Value): (v: Value)
    ensures key !in d ==> v == default
  {
    if key in d then d[key] else default
  }

  /** Python's `type(v).__name__`. */
  function TypeName(v: Value): string {
    match v
    case Str(_) => "str"
    case Null => "NoneType"
    case StrList(_) => "list"
    case Other(t) => t
  }

  /** Values that an f-string or a prompt template renders here: strings
      render as themselves and `None` as "None". */
  predicate Showable(v: Value) {
    v.Str? || v.Null?
  }

  function Show(v: Value): string
    requires Showable(v)
  {
    if v.Str? then v.s else "None"
  }

  /** The shape of `job_data.model_dump()`: the text fields are strings,
      `skills` is a list of strings and the optional texts are strings or
      `None`. Keys may be missing (the service has defaults for them). */
  predicate JobDictShape(d: Dict) {
    && (forall k :: k in ["role", "company", "description"] && k in d ==> d[k].Str?)
    && ("skills" in d ==> d["skills"].StrList?)
    && (forall k :: k in ["experience", "location"] && k in d ==> Showable(d[k]))
  }

  /** The shape of `personal_info.model_dump()`. */
  predicate PersonalDictShape(d: Dict) {
    && (forall k :: k in ["name", "email", "skills"] && k in d ==> d[k].Str?)
    && ("portfolio" in d ==> Showable(d["portfolio"]))
  }

  /** A string field, or the default when the key is missing. */
  function Field(d: Dict, key: string, default: string): (r: string)
    requires key in d ==> d[key].Str?
    ensures key in d ==> r == d[key].s
    ensures key !in d ==> r == default
  {
    Get(d, key, Str(default)).s
  }

  function Optional(d: Dict, key: string): (r: string)
    requires key in d ==> Showable(d[key])
    ensures key !in d ==> r == ""
  {
    Show(Get(d, key, Str("")))
  }

  function JobSkills(job: Dict): (r: seq<string>)
    requires JobDictShape(job)
    ensures "skills" !in job ==> r == []
  {
    Get(job, "skills", StrList([])).items
  }

  // ---------------------------------------------------------------------------
  // Prompt data

  /** The ten variables of the prompt template. */
  datatype Prompt = Prompt(
    role: string,
    company: string,
    description: string,
    skills: string,
    experience: string,
    location: string,
    name: string,
    email: string,
    applicantSkills: string,
    portfolio: string)

  /** `prompt_data` of `generate_email`: the job's skills are joined with
      ", "; the applicant's skills text becomes `applicant_skills`; a
      missing key gives "" and a `None` renders as "None". */
  function PromptData(job: Dict, personal: Dict): (p: Prompt)
    requires JobDictShape(job) && PersonalDictShape(personal)
    ensures p.role == Field(job, "role", "") && p.company == Field(job, "company", "")
    ensures p.name == Field(personal, "name", "") && p.email == Field(personal, "email", "")
    ensures p.applicantSkills == Field(personal, "skills", "")
    ensures p.skills == Join(JobSkills(job), ", ")
    ensures "experience" in job && job["experience"].Null? ==> p.experience == "None"
  {
    Prompt(
      Field(job, "role", ""),
      Field(job, "company", ""),
      Field(job, "description", ""),
      Join(JobSkills(job), ", "),
      Optional(job, "experience"),
      Optional(job, "location"),
      Field(personal, "name", ""),
      Field(personal, "email", ""),
      Field(personal, "skills", ""),
      Optional(personal, "portfolio"))
  }

  /** Every skill of the job occurs in the prompt's skills text. */
  lemma PromptNamesEverySkill(job: Dict, personal: Dict)
    requires JobDictShape(job) && PersonalDictShape(personal)
    ensures var p := PromptData(job, personal);
      forall k :: 0 <= k < |JobSkills(job)| ==> Contains(p.skills, JobSkills(job)[k])
  {
    var skills := JobSkills(job);
    forall k | 0 <= k < |skills|
      ensures Contains(Join(skills, ", "), skills[k])
    {
      JoinContainsParts(skills, ", ", k);
    }
  }

  // ---------------------------------------------------------------------------
  // Fallbacks

  /** The subject used when the model's subject is blank. The company is
      looked up with a default too, but the subject does not use it. */
  function FallbackSubject(job: Dict, personal: Dict): (r: string)
    requires JobDictShape(job) && PersonalDictShape(personal)
    // "Application for <role> - <name>", the role and name defaulting
    ensures var role := Field(job, "role", "Position");
      var name := Field(personal, "name", "Candidate");
      |r| == 19 + |role| + |name|
      && r[..16] == "Application for " && r[16..16 + |role|] == role
      && r[16 + |role|..19 + |role|] == " - " && r[19 + |role|..] == name
  {
    var role := Field(job, "role", "Position");
    var name := Field(personal, "name", "Candidate");
    var r := "Application for " + role + " - " + name;
    assert r == ("Application for " + role) + (" - " + name);
    r
  }

  const LetterOpening: string := "Dear Hiring Manager,\n\nI am writing to express my interest in the "
  const LetterAfterSkills: string :=
    "\n\nI am excited about the opportunity to contribute to your team and would welcome the chance"
    + " to discuss how my background aligns with your needs.\n\nThank you for your time and"
    + " consideration. I look forward to hearing from you.\n\nBest regards,\n"

  /** `_generate_fallback_email`: the letter used when the model's content
      is blank. The text after the company keeps the source's trailing
      space before the blank line. */
  function FallbackEmail(job: Dict, personal: Dict): (r: string)
    requires JobDictShape(job) && PersonalDictShape(personal)
    // the letter opens with the fixed greeting and ends with the name
    ensures var name := Field(personal, "name", "");
      |r| > |LetterOpening| + |name|
      && r[..|LetterOpening|] == LetterOpening && r[|r| - |name|..] == name
  {
    var role := Field(job, "role", "the position");
    var company := Field(job, "company", "your company");
    var skills := Field(personal, "skills", "my relevant experience");
    var name := Field(personal, "name", "");
    LetterFrame(role, company, skills, name);
    Letter(role, company, skills, name)
  }

  /** The fallback letter names the role, the company and the applicant's
      skills, ends with the applicant's name, and is over 200 characters. */
  lemma FallbackEmailMentions(job: Dict, personal: Dict)
    requires JobDictShape(job) && PersonalDictShape(personal)
    ensures var e := FallbackEmail(job, personal);
      && Contains(e, Field(job, "role", "the position"))
      && Contains(e, Field(job, "company", "your company"))
      && Contains(e, Field(personal, "skills", "my relevant experience"))
      && Contains(e, Field(personal, "name", ""))
      && |e| > 200
  {
    var role := Field(job, "role", "the position");
    var company := Field(job, "company", "your company");
    var skills := Field(personal, "skills", "my relevant experience");
    var name := Field(personal, "name", "");
    LetterContains(role, company, skills, name);
  }

  function Letter(role: string, company: string, skills: string, name: string): string {
    LetterOpening + role + " position at " + company + ". \n\n" + skills + LetterAfterSkills + name
  }

  /** The letter opens with the greeting and closes with the name. */
  lemma LetterFrame(role: string, company: string, skills: string, name: string)
    ensures var e := Letter(role, company, skills, name);
      |e| > |LetterOpening| + |name|
      && e[..|LetterOpening|] == LetterOpening && e[|e| - |name|..] == name
  {
    var e := Letter(role, company, skills, name);
    var front := LetterOpening + role + " position at " + company + ". \n\n" + skills + LetterAfterSkills;
    assert e == front + name;
    PrefixOfAppend(LetterOpening + role + " position at " + company + ". \n\n" + skills, LetterAfterSkills, |LetterOpening|);
    PrefixOfAppend(LetterOpening + role + " position at " + company + ". \n\n", skills, |LetterOpening|);
    PrefixOfAppend(LetterOpening + role + " position at " + company, ". \n\n", |LetterOpening|);
    PrefixOfAppend(LetterOpening + role + " position at ", company, |LetterOpening|);
    PrefixOfAppend(LetterOpening + role, " position at ", |LetterOpening|);
    PrefixOfAppend(LetterOpening, role, |LetterOpening|);
    PrefixOfAppend(front, name, |LetterOpening|);
  }

  lemma LetterContains(role: string, company: string, skills: string, name: string)
    ensures var e := Letter(role, company, skills, name);
      Contains(e, role) && Contains(e, company) && Contains(e, skills) && Contains(e, name) && |e| > 200
  {
    LetterContainsRole(role, company, skills, name);
    LetterContainsCompany(role, company, skills, name);
    LetterContainsSkills(role, company, skills, name);
    LetterContainsName(role, company, skills, name);
  }

  lemma LetterContainsRole(role: string, company: string, skills: string, name: string)
    ensures Contains(Letter(role, company, skills, name), role)
  {
    var rest := " position at " + company + ". \n\n" + skills + LetterAfterSkills + name;
    assert Letter(role, company, skills, name) == LetterOpening + role + rest;
    ContainsMiddle(LetterOpening, role, rest);
  }

  lemma LetterContainsCompany(role: string, company: string, skills: string, name: string)
    ensures Contains(Letter(role, company, skills, name), company)
  {
    var before := LetterOpening + role + " position at ";
    var rest := ". \n\n" + skills + LetterAfterSkills + name;
    assert Letter(role, company, skills, name) == before + company + rest;
    ContainsMiddle(before, company, rest);
  }

  lemma LetterContainsSkills(role: string, company: string, skills: string, name: string)
    ensures Contains(Letter(role, company, skills, name), skills)
  {
    var before := LetterOpening + role + " position at " + company + ". \n\n";
    var rest := LetterAfterSkills + name;
    assert Letter(role, company, skills, name) == before + skills + rest;
    ContainsMiddle(before, skills, rest);
  }

  lemma LetterContainsName(role: string, company: string, skills: string, name: string)
    ensures Contains(Letter(role, company, skills, name), name)
  {
    var before := LetterOpening + role + " position at " + company + ". \n\n" + skills + LetterAfterSkills;
    assert Letter(role, company, skills, name) == before + name + "";
    ContainsMiddle(before, name, "");
  }

  // ---------------------------------------------------------------------------
  // Confidence score

  /** How many of the job's skills occur, lower-cased, in the lower-cased
      content; every listed skill counts, duplicates and "" included. */
  function SkillMatches(skills: seq<string>, contentLower: string): (n: nat)
    ensures n <= |skills|
    ensures n == 0 <==> forall k :: 0 <= k < |skills| ==> !Contains(contentLower, Lower(skills[k]))
    ensures n == |skills| <==> forall k :: 0 <= k < |skills| ==> Contains(contentLower, Lower(skills[k]))
  {
    if skills == [] then 0
    else (if Contains(contentLower, Lower(skills[0])) then 1 else 0) + SkillMatches(skills[1..], contentLower)
  }

  function Min(a: int, b: int): int {
    if a <= b then a else b
  }

  /** Every listed skill that is the empty string counts as a match, since
      "" occurs in any content. */
  lemma {:induction false} EmptySkillAlwaysMatches(skills: seq<string>, contentLower: string)
    requires "" in skills
    ensures SkillMatches(skills, contentLower) >= 1
  {
    if skills[0] == "" {
      assert Lower(skills[0]) == "";
      ContainsEmpty(contentLower);
    } else {
      assert "" in skills[1..];
      EmptySkillAlwaysMatches(skills[1..], contentLower);
    }
  }

  /** A mention term: 2 tenths when the lower-cased needle is non-empty
      and occurs in the lower-cased text, nothing otherwise. */
  function MentionTenths(text: string, needle: string): (t: int)
    ensures t == 2 <==> needle != "" && Contains(Lower(text), Lower(needle))
    ensures t == 0 <==> !(needle != "" && Contains(Lower(text), Lower(needle)))
    ensures needle == "" ==> t == 0
  {
    var n := Lower(needle);
    if n != "" && Contains(Lower(text), n) then 2 else 0
  }

  /** The length term: 2 tenths past 100 characters and 1 more past 200. */
  function LengthTenths(content: string): (t: int)
    ensures |content| <= 100 <==> t == 0
    ensures 100 < |content| <= 200 <==> t == 2
    ensures |content| > 200 <==> t == 3
  {
    (if |content| > 100 then 2 else 0) + (if |content| > 200 then 1 else 0)
  }

  /** The skill term: one tenth per matching skill, at most 3. */
  function SkillTenths(matches: nat): (t: int)
    ensures 0 <= t <= 3
    ensures t == 0 <==> matches == 0
    ensures matches <= 3 ==> t == matches
    ensures t == 3 <==> matches >= 3
  {
    if matches > 0 then Min(matches, 3) else 0
  }

  /** The terms of `_calculate_confidence_score`, in tenths, before the
      cap: 2 when the company occurs in the subject, 2 when the role does,
      2 for content over 100 characters and 1 more over 200, 2 when the
      applicant's name occurs in the content, one per matching job skill
      up to 3. Comparisons are case-insensitive and an empty company, role
      or name never counts. The body adds the terms one after another as
      the source does; the contract states the total as their sum. */
  function UncappedTenths(subject: string, content: string, job: Dict, personal: Dict): (u: int)
    requires JobDictShape(job) && PersonalDictShape(personal)
    ensures u == MentionTenths(subject, Field(job, "company", "")) + MentionTenths(subject, Field(job, "role", ""))
               + LengthTenths(content) + MentionTenths(content, Field(personal, "name", ""))
               + SkillTenths(SkillMatches(JobSkills(job), Lower(content)))
    ensures 0 <= u <= 12
    ensures |content| <= 100 ==> u <= 9
    ensures (Field(job, "company", "") == "" && Field(job, "role", "") == "" && Field(personal, "name", "") == ""
             && |content| <= 100 && SkillMatches(JobSkills(job), Lower(content)) == 0) ==> u == 0
  {
    var company := Lower(Field(job, "company", ""));
    var role := Lower(Field(job, "role", ""));
    var name := Lower(Field(personal, "name", ""));
    var s1 := if company != "" && Contains(Lower(subject), company) then 2 else 0;
    var s2 := if role != "" && Contains(Lower(subject), role) then s1 + 2 else s1;
    var s3 := if |content| > 100 then s2 + 2 else s2;
    var s4 := if |content| > 200 then s3 + 1 else s3;
    var s5 := if name != "" && Contains(Lower(content), name) then s4 + 2 else s4;
    var matches := SkillMatches(JobSkills(job), Lower(content));
    if matches > 0 then s5 + Min(matches, 3) else s5
  }

  /** An empty company never adds to the score, whatever the subject. */
  lemma EmptyCompanyNeverContributes(subject: string, content: string, job: Dict, personal: Dict)
    requires JobDictShape(job) && PersonalDictShape(personal)
    requires Field(job, "company", "") == ""
    ensures UncappedTenths(subject, content, job, personal)
         == MentionTenths(subject, Field(job, "role", "")) + LengthTenths(content)
            + MentionTenths(content, Field(personal, "name", ""))
            + SkillTenths(SkillMatches(JobSkills(job), Lower(content)))
  {
  }

  /** An empty role never adds to the score, whatever the subject. */
  lemma EmptyRoleNeverContributes(subject: string, content: string, job: Dict, personal: Dict)
    requires JobDictShape(job) && PersonalDictShape(personal)
    requires Field(job, "role", "") == ""
    ensures UncappedTenths(subject, content, job, personal)
         == MentionTenths(subject, Field(job, "company", "")) + LengthTenths(content)
            + MentionTenths(content, Field(personal, "name", ""))
            + SkillTenths(SkillMatches(JobSkills(job), Lower(content)))
  {
  }

  /** An empty name never adds to the score, whatever the content. */
  lemma EmptyNameNeverContributes(subject: string, content: string, job: Dict, personal: Dict)
    requires JobDictShape(job) && PersonalDictShape(personal)
    requires Field(personal, "name", "") == ""
    ensures UncappedTenths(subject, content, job, personal)
         == MentionTenths(subject, Field(job, "company", "")) + MentionTenths(subject, Field(job, "role", ""))
            + LengthTenths(content) + SkillTenths(SkillMatches(JobSkills(job), Lower(content)))
  {
  }

  /** The score: the terms capped at 10 tenths, so always within 0 to 1. */
  function ConfidenceTenths(subject: string, content: string, job: Dict, personal: Dict): (t: int)
    requires JobDictShape(job) && PersonalDictShape(personal)
    ensures 0 <= t <= 10
    ensures t <= UncappedTenths(subject, content, job, personal)
    ensures UncappedTenths(subject, content, job, personal) <= 10 ==> t == UncappedTenths(subject, content, job, personal)
    ensures UncappedTenths(subject, content, job, personal) >= 10 ==> t == 10
  {
    Min(UncappedTenths(subject, content, job, personal), 10)
  }

  /** Adding a skill to the job never lowers the score. */
  lemma {:induction false} MoreSkillsNeverLowerScore(subject: string, content: string, job: Dict, personal: Dict, extra: string)
    requires JobDictShape(job) && PersonalDictShape(personal)
    ensures var job' := job["skills" := StrList(JobSkills(job) + [extra])];
      ConfidenceTenths(subject, content, job, personal) <= ConfidenceTenths(subject, content, job', personal)
  {
    var job' := job["skills" := StrList(JobSkills(job) + [extra])];
    SkillMatchesAppend(JobSkills(job), extra, Lower(content));
    assert Field(job', "company", "") == Field(job, "company", "");
    assert Field(job', "role", "") == Field(job, "role", "");
  }

  /** A skill appended to the list adds one match exactly when it occurs,
      lower-cased, in the content. */
  lemma {:induction false} SkillMatchesAppend(skills: seq<string>, extra: string, c: string)
    ensures SkillMatches(skills + [extra], c) == SkillMatches(skills, c) + (if Contains(c, Lower(extra)) then 1 else 0)
    ensures SkillMatches(skills, c) <= SkillMatches(skills + [extra], c) <= SkillMatches(skills, c) + 1
  {
    if skills != [] {
      assert (skills + [extra])[1..] == skills[1..] + [extra];
      SkillMatchesAppend(skills[1..], extra, c);
    }
  }

  /** An email that mentions the company and role in its subject, is over
      200 characters, names the applicant and covers a job skill gets the
      full score. */
  lemma FullScore(subject: string, content: string, job: Dict, personal: Dict)
    requires JobDictShape(job) && PersonalDictShape(personal)
    requires var company := Lower(Field(job, "company", "")); company != "" && Contains(Lower(subject), company)
    requires var role := Lower(Field(job, "role", "")); role != "" && Contains(Lower(subject), role)
    requires |content| > 200
    requires var name := Lower(Field(personal, "name", "")); name != "" && Contains(Lower(content), name)
    requires SkillMatches(JobSkills(job), Lower(content)) > 0
    ensures ConfidenceTenths(subject, content, job, personal) == 10
  {
  }

  /** The cap is reached with room to spare: every term at its largest
      sums to 12 tenths. */
  lemma UncappedMaximum(subject: string, content: string, job: Dict, personal: Dict)
    requires JobDictShape(job) && PersonalDictShape(personal)
    requires var company := Lower(Field(job, "company", "")); company != "" && Contains(Lower(subject), company)
    requires var role := Lower(Field(job, "role", "")); role != "" && Contains(Lower(subject), role)
    requires |content| > 200
    requires var name := Lower(Field(personal, "name", "")); name != "" && Contains(Lower(content), name)
    requires SkillMatches(JobSkills(job), Lower(content)) >= 3
    ensures UncappedTenths(subject, content, job, personal) == 12
    ensures ConfidenceTenths(subject, content, job, personal) == 10
  {
  }

  /** The fallback letter earns the length points, and the name points
      whenever the applicant has a non-empty name. */
  lemma FallbackLetterScore(subject: string, job: Dict, personal: Dict)
    requires JobDictShape(job) && PersonalDictShape(personal)
    requires "name" in personal && personal["name"].s != ""
    ensures var content := FallbackEmail(job, personal);
      var name := Lower(Field(personal, "name", ""));
      name != "" && Contains(Lower(content), name) && |content| > 200
  {
    FallbackEmailMentions(job, personal);
    LowerContains(FallbackEmail(job, personal), Field(personal, "name", ""));
  }

  /** The fallback subject earns the role points whenever the job has a
      non-empty role. */
  lemma FallbackSubjectNamesRole(job: Dict, personal: Dict)
    requires JobDictShape(job) && PersonalDictShape(personal)
    requires "role" in job && job["role"].s != ""
    ensures var role := Lower(Field(job, "role", ""));
      role != "" && Contains(Lower(FallbackSubject(job, personal)), role)
  {
    var role := Field(job, "role", "");
    var subject := FallbackSubject(job, personal);
    assert OccursAt(subject, role, 16);
    LowerContains(subject, role);
  }

  // ---------------------------------------------------------------------------
  // Reading the reply

  /** The dictionary `_enhance_email_result` returns. */
  datatype EmailResult = EmailResult(subject: string, content: string, confidenceTenths: int)

  /** The message of the `AttributeError` Python raises when `attr` is
      looked up on a value of the given type. */
  function NoAttribute(typeName: string, attr: string): string {
    "'" + typeName + "' object has no attribute '" + attr + "'"
  }

  /** `email_result.get(key, "").strip()`: fails on a value that is not a
      string. */
  function StrippedField(d: Dict, key: string): (r: Result<string, string>)
    ensures r.Ok? <==> Get(d, key, Str("")).Str?
    ensures r.Ok? ==> IsStripped(r.value) && (key !in d ==> r.value == "")
    ensures r.Err? ==> r.error == NoAttribute(TypeName(d[key]), "strip")
  {
    var v := Get(d, key, Str(""));
    if v.Str? then Ok(Strip(v.s)) else Err(NoAttribute(TypeName(v), "strip"))
  }

  /** `_enhance_email_result`: the model's subject and content, stripped;
      a blank one is replaced by the fallback; then the score. */
  function EnhanceEmailResult(reply: Dict, job: Dict, personal: Dict): (r: Result<EmailResult, string>)
    requires JobDictShape(job) && PersonalDictShape(personal)
    ensures r.Ok? <==> StrippedField(reply, "subject").Ok? && StrippedField(reply, "content").Ok?
    ensures r.Ok? ==> var e := r.value;
      && (StrippedField(reply, "subject").value != "" ==> e.subject == StrippedField(reply, "subject").value)
      && (StrippedField(reply, "subject").value == "" ==> e.subject == FallbackSubject(job, personal))
      && (StrippedField(reply, "content").value != "" ==> e.content == StrippedField(reply, "content").value)
      && (StrippedField(reply, "content").value == "" ==> e.content == FallbackEmail(job, personal))
      && e.subject != "" && e.content != ""
      && e.confidenceTenths == ConfidenceTenths(e.subject, e.content, job, personal)
  {
    match StrippedField(reply, "subject")
    case Err(m) => Err(m)
    case Ok(subject) =>
      match StrippedField(reply, "content")
      case Err(m) => Err(m)
      case Ok(content) =>
        var s := if subject == "" then FallbackSubject(job, personal) else subject;
        var c := if content == "" then FallbackEmail(job, personal) else content;
        Ok(EmailResult(s, c, ConfidenceTenths(s, c, job, personal)))
  }

  /** What the prompt-and-model chain yields: a decoded JSON object, a
      decoded value of another type, or a failure (the model call or the
      JSON parser raised) with its message. */
  datatype ModelReply = JsonObject(fields: Dict) | JsonNonObject(typeName: string) | ModelFailure(message: string)

  const GeneratePrefix: string := "Failed to generate email: "

  /** `generate_email`: every failure is re-raised with the prefix "Failed
      to generate email: ". */
  function GenerateEmail(job: Dict, personal: Dict, reply: ModelReply): (r: Result<EmailResult, string>)
    requires JobDictShape(job) && PersonalDictShape(personal)
    ensures r.Err? ==> |GeneratePrefix| <= |r.error| && r.error[..|GeneratePrefix|] == GeneratePrefix
    ensures r.Ok? <==> reply.JsonObject? && EnhanceEmailResult(reply.fields, job, personal).Ok?
    ensures r.Ok? ==> r == EnhanceEmailResult(reply.fields, job, personal)
    ensures reply.JsonNonObject? ==> r == Err(GeneratePrefix + NoAttribute(reply.typeName, "get"))
  {
    match reply
    case ModelFailure(m) => Err(GeneratePrefix + m)
    case JsonNonObject(t) => Err(GeneratePrefix + NoAttribute(t, "get"))
    case JsonObject(fields) =>
      match EnhanceEmailResult(fields, job, personal)
      case Ok(e) => Ok(e)
      case Err(m) => Err(GeneratePrefix + m)
  }

  /** A model that returns an empty object still yields an email: the
      fallback subject and letter. */
  lemma EmptyReplyFallsBack(job: Dict, personal: Dict)
    requires JobDictShape(job) && PersonalDictShape(personal)
    ensures var r := GenerateEmail(job, personal, JsonObject(map[]));
      r.Ok? && r.value.subject == FallbackSubject(job, personal) && r.value.content == FallbackEmail(job, personal)
  {
  }

  // ---------------------------------------------------------------------------
  // The dictionaries the endpoint passes

  function OptionalValue(o: Option<string>): Value {
    match o
    case Some(s) => Str(s)
    case None => Null
  }

  /** `request.jobData.model_dump()`: every field is a key. */
  function DumpJob(j: Types.BackendJobData): (d: Dict)
    ensures JobDictShape(d)
    ensures forall k :: k in ["role", "company", "description", "skills", "experience", "location"] ==> k in d
    ensures d["role"] == Str(j.role) && d["company"] == Str(j.company) && d["skills"] == StrList(j.skills)
  {
    map[
      "role" := Str(j.role),
      "company" := Str(j.company),
      "description" := Str(j.description),
      "skills" := StrList(j.skills),
      "experience" := OptionalValue(j.experience),
      "location" := OptionalValue(j.location),
      "salary" := OptionalValue(j.salary),
      "remote" := if j.remote.Some? then Other("bool") else Null,
      "jobType" := OptionalValue(j.jobType)]
  }

  /** `request.personalInfo.model_dump()`: every field is a key. */
  function DumpPersonal(p: Types.PersonalInfo): (d: Dict)
    ensures PersonalDictShape(d)
    ensures forall k :: k in ["name", "email", "skills", "portfolio"] ==> k in d
    ensures d["name"] == Str(p.name) && d["skills"] == Str(p.skills)
  {
    map[
      "name" := Str(p.name),
      "email" := Str(p.email),
      "skills" := Str(p.skills),
      "portfolio" := OptionalValue(p.portfolio),
      "phone" := OptionalValue(p.phone),
      "linkedin" := OptionalValue(p.linkedin),
      "github" := OptionalValue(p.github),
      "experience" := OptionalValue(p.experience),
      "location" := OptionalValue(p.location)]
  }

  /** Called from the endpoint, the defaults are never used: the fallback
      subject and letter carry the request's own role, company, skills and
      name. */
  lemma EndpointFallbacksUseRequest(j: Types.BackendJobData, p: Types.PersonalInfo)
    ensures FallbackSubject(DumpJob(j), DumpPersonal(p)) == "Application for " + j.role + " - " + p.name
    ensures FallbackEmail(DumpJob(j), DumpPersonal(p))
      == Letter(j.role, j.company, p.skills, p.name)
    ensures PromptData(DumpJob(j), DumpPersonal(p)).skills == Join(j.skills, ", ")
  {
    var job := DumpJob(j);
    var personal := DumpPersonal(p);
    assert Field(job, "role", "Position") == j.role && Field(job, "role", "the position") == j.role;
    assert Field(job, "company", "your company") == j.company;
    assert Field(personal, "name", "Candidate") == p.name && Field(personal, "name", "") == p.name;
    assert Field(personal, "skills", "my relevant experience") == p.skills;
    assert JobSkills(job) == j.skills;
  }
}

=== FILE: integration.dfy ===
/** How the parts meet: the error bodies the backend writes as the frontend
    reads them, the wizard's step as the progress indicator shows it, and
    the persisted personal details across a reload. */
module Integration {
  import opened Base
  import opened Text
  import Api
  import Backend
  import Wizard
  import Stepper
  import LocalStorage
  import Types
  import EmailService

  // ---------------------------------------------------------------------------
  // Error bodies across the wire

  /** What the client's `errorData.detail` sees in a body the backend's
      exception handlers wrote, as written: the handlers put the text under
      `message` and the client reads `detail`, which is absent, so the
      client falls back to "API Error: <status>". */
  function ClientViewAsWritten(b: Backend.Body): (v: Api.ErrorBody)
    requires b.ErrorJson?
    ensures !v.NullJson?
    ensures forall status, statusText :: Api.ErrorResponseMessage(status, statusText, v) == Api.ApiErrorText(status)
  {
    Api.JsonValue("")
  }

  /** As intended: the handler's text under the key the client reads. */
  function ClientView(b: Backend.Body): (v: Api.ErrorBody)
    requires b.ErrorJson?
    ensures !v.NullJson?
    ensures b.message != "" ==>
              forall status, statusText :: Api.ErrorResponseMessage(status, statusText, v) == b.message
  {
    Api.JsonValue(b.message)
  }

  /** FastAPI's 422 body as the client reads it: `detail` is an array with
      one object per validation error, so the client's message is that
      array's string, and none of the validators' own texts. */
  function ValidationView(b: Backend.Body): (v: Api.ErrorBody)
    requires b.ValidationErrors? && |b.messages| >= 1
    ensures !v.NullJson?
    ensures forall status, statusText ::
              Api.ErrorResponseMessage(status, statusText, v) == Api.ObjectListText(|b.messages|)
  {
    Api.JsonObjectList(|b.messages|)
  }

  /** A request whose personal details fail validation is answered with 422
      once, and the wizard's error reads "[object Object]" (one per failed
      validator, comma-separated) instead of the validators' messages. */
  lemma ValidationFailureShowsObjectText<T>(job: Types.BackendJobData, info: Types.PersonalInfo,
                                            reply: EmailService.ModelReply, statusText: string,
                                            later: seq<Api.Outcome<T>>)
    requires |later| == Api.RetryAttempts
    requires Backend.ValidatePersonalInfo(info).Err?
    ensures var r := Backend.HandleGenerateRequest(job, info, reply);
      var c := Api.Call([Api.ErrorResponse(r.status, statusText, ValidationView(r.body))] + later);
      var shown := Wizard.ErrorText(c.result.error.message, Wizard.GenerateFailedDefault);
      r.status == 422 && c.attempts == 1 && c.result.Err?
      && shown == Api.ObjectListText(|Backend.ValidatePersonalInfo(info).error|)
      && shown[..15] == "[object Object]"
  {
    var r := Backend.HandleGenerateRequest(job, info, reply);
    HandlerAnswerIsFinal(r, statusText, ValidationView(r.body), later);
  }

  /** A call whose first attempt is answered by one of the handlers: the
      answer is final, and the call rejects with the message the client
      derives from the body it sees. */
  lemma HandlerAnswerIsFinal<T>(r: Backend.Response, statusText: string, view: Api.ErrorBody,
                                later: seq<Api.Outcome<T>>)
    requires |later| == Api.RetryAttempts
    requires !view.NullJson?
    ensures var c := Api.Call([Api.ErrorResponse(r.status, statusText, view)] + later);
      c.attempts == 1
      && c.result == Err(Api.JsError(Api.PlainError, Api.ErrorResponseMessage(r.status, statusText, view)))
  {
    var outcomes := [Api.ErrorResponse(r.status, statusText, view)] + later;
    Api.ResponsesAreNeverRetried(outcomes);
  }

  /** As written, no handler's text reaches the user: whatever the backend
      said, the wizard shows "API Error: <status>". For a failed extraction
      that hides the scraper's reason behind "API Error: 500". */
  lemma ServerMessageIsLost<T>(status: int, detail: string, statusText: string,
                               later: seq<Api.Outcome<T>>)
    requires |later| == Api.RetryAttempts
    ensures var r := Backend.HttpExceptionHandler(status, detail);
      var c := Api.Call([Api.ErrorResponse(r.status, statusText, ClientViewAsWritten(r.body))] + later);
      c.result.Err?
      && Wizard.ErrorText(c.result.error.message, Wizard.ExtractFailedDefault) == Api.ApiErrorText(status)
  {
    var r := Backend.HttpExceptionHandler(status, detail);
    HandlerAnswerIsFinal(r, statusText, ClientViewAsWritten(r.body), later);
  }

  /** The input that shows it: a scraper failure "timeout" is reported to
      the client as "API Error: 500" rather than as its own message. */
  lemma ScraperReasonIsHidden<T>(statusText: string, later: seq<Api.Outcome<T>>)
    requires |later| == Api.RetryAttempts
    ensures var r := Backend.ExtractEndpoint(Backend.ScrapeRaised("timeout"));
      var c := Api.Call([Api.ErrorResponse(r.status, statusText, ClientViewAsWritten(r.body))] + later);
      r.body.message == Backend.ExtractPrefix + "timeout"
      && c.result.error.message == Api.ApiErrorText(500)
      && c.result.error.message != r.body.message
  {
    var r := Backend.ExtractEndpoint(Backend.ScrapeRaised("timeout"));
    ServerMessageIsLost<T>(500, Backend.ExtractPrefix + "timeout", statusText, later);
    assert |Api.ApiErrorText(500)| < |r.body.message|;
  }

  /** As intended, the handler's non-empty text is what the wizard shows;
      an empty one still gives "API Error: <status>". */
  lemma ServerMessageReachesUser<T>(status: int, detail: string, statusText: string,
                                    later: seq<Api.Outcome<T>>)
    requires |later| == Api.RetryAttempts
    ensures var r := Backend.HttpExceptionHandler(status, detail);
      var c := Api.Call([Api.ErrorResponse(r.status, statusText, ClientView(r.body))] + later);
      c.result.Err?
      && (detail != "" ==> Wizard.ErrorText(c.result.error.message, Wizard.ExtractFailedDefault) == detail)
      && (detail == "" ==> c.result.error.message == Api.ApiErrorText(status))
  {
    var r := Backend.HttpExceptionHandler(status, detail);
    HandlerAnswerIsFinal(r, statusText, ClientView(r.body), later);
  }

  /** With the intended reading, every extraction failure reaches the user
      with the endpoint's prefix in front. */
  lemma ExtractFailureReachesUser<T>(o: Backend.ScrapeOutcome, statusText: string,
                                     later: seq<Api.Outcome<T>>)
    requires |later| == Api.RetryAttempts
    requires Backend.ExtractEndpoint(o).status != 200
    ensures var r := Backend.ExtractEndpoint(o);
      var c := Api.Call([Api.ErrorResponse(r.status, statusText, ClientView(r.body))] + later);
      c.result.Err? && c.result.error.message[..|Backend.ExtractPrefix|] == Backend.ExtractPrefix
  {
    var r := Backend.ExtractEndpoint(o);
    ServerMessageReachesUser<T>(r.status, r.body.message, statusText, later);
  }

  // ---------------------------------------------------------------------------
  // The wizard and its progress indicator

  /** In every state the wizard can reach from its first render, the
      indicator (drawn with the default of four steps) has exactly one
      active step, the one shown, and reads 25% per step. */
  lemma IndicatorFollowsWizard(stored: Types.PersonalInfo, evs: seq<Wizard.Event>)
    ensures var s := Wizard.Run(Wizard.Init(stored), evs);
      var t := Stepper.RenderTrack(s.step);
      Stepper.Percent(s.step, Stepper.DefaultTotalSteps) == Some(25 * s.step)
      && (forall k :: 0 <= k < |Stepper.Steps| ==> (t.markers[k].circle == Stepper.Active <==> k == s.step - 1))
  {
    Wizard.InitInvariant(stored);
    Wizard.RunKeepsInvariant(Wizard.Init(stored), evs);
    var s := Wizard.Run(Wizard.Init(stored), evs);
    Stepper.WizardPercentages(s.step);
    Stepper.TrackShowsOneActiveStep(s.step);
  }

  // ---------------------------------------------------------------------------
  // Persisted personal details

  /** The storage key of the personal details. */
  const PersonalInfoKey: string := "outreach-ai-personal-info"

  /** A reload: the wizard's first render with the details read back from
      storage, or the empty defaults. */
  function Reload(store: LocalStorage.Store, c: LocalStorage.Codec<Types.PersonalInfo>): (s: Wizard.AppState)
    ensures PersonalInfoKey !in store ==> s.personalInfo == Wizard.DefaultPersonalInfo()
    ensures s.step == 1
  {
    Wizard.Init(LocalStorage.Mount(store, PersonalInfoKey, Wizard.DefaultPersonalInfo(), c).value)
  }

  /** Details submitted on the third screen are written under the key, and
      a reload starts over on the first screen with them filled in. */
  lemma SubmittedDetailsSurviveReload(h: LocalStorage.Hook<Types.PersonalInfo>, info: Types.PersonalInfo,
                                      c: LocalStorage.Codec<Types.PersonalInfo>)
    requires LocalStorage.RoundTrips(c) && c.serialize(info).Some?
    ensures var h1 := LocalStorage.SetValue(h, PersonalInfoKey, LocalStorage.Value(info), c);
      h1.value == info && Reload(h1.store, c).personalInfo == info && Reload(h1.store, c).step == 1
  {
    LocalStorage.RemountRestores(h, PersonalInfoKey, LocalStorage.Value(info), c, Wizard.DefaultPersonalInfo());
  }
}

=== FILE: job_details.dfy ===
/** The second wizard screen (`JobDetails`): a local editable copy of the
    extracted job record, an edit mode, skill add and remove, per-field
    edits, Save (which hands the copy to the wizard) and Continue. */
module JobDetails {
  import opened Base
  import opened Types
  import Seqs

  /** The screen's state: the editable copy, whether edit mode is on, and
      the text in the (uncontrolled) add-skill input. */
  datatype Editor = Editor(data: JobData, editing: bool, skillInput: string)

  /** The screen mounts with a copy of the record it is given and edit
      mode off; later changes of the prop do not reach the copy. */
  function Mount(j: JobData): (e: Editor)
    ensures e.data == j && !e.editing && e.skillInput == ""
  {
    Editor(j, false, "")
  }

  /** `addSkill`: a non-empty skill that is not already in the list, by
      exact comparison, goes to the end; anything else changes nothing. */
  function AddSkill(j: JobData, skill: string): (r: JobData)
    ensures r == j.(skills := r.skills)
    ensures skill != "" && skill !in j.skills ==> r.skills == j.skills + [skill]
    ensures skill == "" || skill in j.skills ==> r == j
  {
    if skill != "" && skill !in j.skills then j.(skills := j.skills + [skill]) else j
  }

  /** `removeSkill`: every entry equal to the skill goes, the others stay
      in order; nothing else changes.
      The contract states which entries stay; their order is that of
      `Seqs.Filter`, which `Seqs.FilterAppend` shows works piecewise over a
      concatenation, so the survivors keep their relative order. */
  function RemoveSkill(j: JobData, skill: string): (r: JobData)
    ensures r == j.(skills := r.skills)
    ensures skill !in r.skills
    ensures forall k :: 0 <= k < |r.skills| ==> r.skills[k] in j.skills
  {
    j.(skills := Seqs.Filter(j.skills, (x: string) => x != skill))
  }

  /** After adding, the skills hold exactly the old ones plus the new one
      when it is non-empty. */
  lemma AddSkillSet(j: JobData, skill: string)
    ensures (set x | x in AddSkill(j, skill).skills)
         == (set x | x in j.skills) + (if skill == "" then {} else {skill})
  {
    var r := AddSkill(j, skill).skills;
    if skill != "" && skill !in j.skills {
      assert forall k :: 0 <= k < |j.skills| ==> r[k] == j.skills[k];
      assert r[|j.skills|] == skill;
    }
  }

  /** Adding keeps the list free of duplicates. */
  lemma AddSkillKeepsNoDuplicates(j: JobData, skill: string)
    requires Seqs.NoDuplicates(j.skills)
    ensures Seqs.NoDuplicates(AddSkill(j, skill).skills)
  {
  }

  /** Removing keeps every other skill with its multiplicity and drops the
      removed one entirely. */
  lemma RemoveSkillCounts(j: JobData, skill: string, other: string)
    ensures multiset(RemoveSkill(j, skill).skills)[other]
         == if other == skill then 0 else multiset(j.skills)[other]
  {
    Seqs.FilterCounts(j.skills, (x: string) => x != skill, other);
  }

  /** Removing keeps the list free of duplicates. */
  lemma RemoveSkillKeepsNoDuplicates(j: JobData, skill: string)
    requires Seqs.NoDuplicates(j.skills)
    ensures Seqs.NoDuplicates(RemoveSkill(j, skill).skills)
  {
    Seqs.FilterNoDuplicates(j.skills, (x: string) => x != skill);
  }

  /** Removing a skill that was just added undoes the addition. */
  lemma {:induction false} RemoveUndoesAdd(j: JobData, skill: string)
    requires skill !in j.skills
    ensures RemoveSkill(AddSkill(j, skill), skill) == j
  {
    var keep := (x: string) => x != skill;
    Seqs.FilterKeepsAll(j.skills, keep);
    if skill != "" {
      Seqs.FilterAppend(j.skills, [skill], keep);
      assert Seqs.Filter([skill], keep) == [];
    }
  }

  /** The four text fields the edit mode offers inputs for. */
  datatype TextField = RoleField | CompanyField | LocationField | DescriptionField

  function FieldValue(j: JobData, f: TextField): string {
    match f
    case RoleField => j.role
    case CompanyField => j.company
    case LocationField => j.location
    case DescriptionField => j.description
  }

  /** An input's `onChange`: the field takes the new text, every other
      field keeps its value. */
  function EditField(j: JobData, f: TextField, value: string): (r: JobData)
    ensures FieldValue(r, f) == value
    ensures forall g :: g != f ==> FieldValue(r, g) == FieldValue(j, g)
    ensures r.skills == j.skills && r.experience == j.experience && r.salary == j.salary
    ensures r.remote == j.remote && r.jobType == j.jobType
  {
    match f
    case RoleField => j.(role := value)
    case CompanyField => j.(company := value)
    case LocationField => j.(location := value)
    case DescriptionField => j.(description := value)
  }

  /** What the user can do on the screen. */
  datatype Event =
    | ToggleEdit            // the Edit / Cancel button
    | Edit(field: TextField, value: string)
    | TypeSkill(text: string)
    | PressEnter            // Enter in the add-skill input
    | Remove(skill: string) // the X on a skill chip
    | Save                  // shown in edit mode
    | Continue              // shown outside edit mode

  /** Which controls are on screen: the inputs, the X buttons and Save
      only in edit mode, Continue only outside it. */
  predicate Available(e: Editor, ev: Event) {
    match ev
    case ToggleEdit => true
    case Remove(skill) => e.editing && skill in e.data.skills
    case Continue => !e.editing
    case _ => e.editing
  }

  /** What the screen hands to the wizard: the saved record, or the request
      to move on. */
  datatype Output = Nothing | Updated(data: JobData) | Next

  /** One event: the new state and what the wizard receives. Enter adds the
      input's text and clears the input whether or not the skill was
      added. Cancel only leaves edit mode: the edits stay in the copy and
      are not sent. The skill input is uncontrolled and rendered only in
      edit mode, so whenever edit mode is entered or left (the toggle,
      Save) it is mounted afresh and is empty. */
  function Handle(e: Editor, ev: Event): (r: (Editor, Output))
    requires Available(e, ev)
    ensures ev.Save? <==> r.1.Updated?
    ensures ev.Continue? <==> r.1.Next?
    ensures r.1.Updated? ==> r.1.data == e.data && r.0.data == e.data && !r.0.editing
    ensures ev.ToggleEdit? ==>
              r.0.editing == !e.editing && r.0.data == e.data && r.1 == Nothing
    ensures ev.ToggleEdit? || ev.Save? ==> r.0.skillInput == ""
    ensures ev.PressEnter? ==> r.0.data == AddSkill(e.data, e.skillInput) && r.0.skillInput == ""
    ensures ev.Edit? ==> r.0.data == EditField(e.data, ev.field, ev.value) && r.0.skillInput == e.skillInput
    ensures ev.Remove? ==> r.0.data == RemoveSkill(e.data, ev.skill) && r.0.skillInput == e.skillInput
    ensures ev.TypeSkill? ==> r.0.skillInput == ev.text && r.0.data == e.data
    ensures ev.Continue? ==> r.0 == e
    ensures !ev.ToggleEdit? && !ev.Save? ==> r.0.editing == e.editing
  {
    match ev
    case ToggleEdit => (e.(editing := !e.editing, skillInput := ""), Nothing)
    case Edit(f, v) => (e.(data := EditField(e.data, f, v)), Nothing)
    case TypeSkill(t) => (e.(skillInput := t), Nothing)
    case PressEnter => (e.(data := AddSkill(e.data, e.skillInput), skillInput := ""), Nothing)
    case Remove(skill) => (e.(data := RemoveSkill(e.data, skill)), Nothing)
    case Save => (e.(editing := false, skillInput := ""), Updated(e.data))
    case Continue => (e, Next)
  }

  /** Outside edit mode the record cannot change: only the toggle and
      Continue are available, and neither touches the copy. */
  lemma ReadOnlyOutsideEditMode(e: Editor, ev: Event)
    requires !e.editing && Available(e, ev)
    ensures Handle(e, ev).0.data == e.data
    ensures Handle(e, ev).1 != Nothing ==> Handle(e, ev).1 == Next
  {
  }

  /** Applies the available prefix of a run of events, collecting the
      outputs. */
  function Run(e: Editor, evs: seq<Event>): (r: (Editor, seq<Output>))
    ensures |r.1| <= |evs|
    // the k-th output answers the k-th event: a record only for a Save,
    // the request to move on only for a Continue
    ensures forall k :: 0 <= k < |r.1| ==>
              (r.1[k].Updated? <==> evs[k].Save?) && (r.1[k].Next? <==> evs[k].Continue?)
    decreases |evs|
  {
    if evs == [] || !Available(e, evs[0]) then (e, [])
    else
      var (e1, out) := Handle(e, evs[0]);
      var (e2, outs) := Run(e1, evs[1..]);
      (e2, [out] + outs)
  }

  /** Whatever the user does, a list without duplicates stays without
      duplicates. */
  lemma {:induction false} RunKeepsNoDuplicates(e: Editor, evs: seq<Event>)
    requires Seqs.NoDuplicates(e.data.skills)
    ensures Seqs.NoDuplicates(Run(e, evs).0.data.skills)
    decreases |evs|
  {
    if evs != [] && Available(e, evs[0]) {
      var ev := evs[0];
      match ev {
        case PressEnter => AddSkillKeepsNoDuplicates(e.data, e.skillInput);
        case Remove(skill) => RemoveSkillKeepsNoDuplicates(e.data, skill);
        case _ =>
      }
      RunKeepsNoDuplicates(Handle(e, ev).0, evs[1..]);
    }
  }

  /** Edits made and then cancelled are still in the copy: a later Save
      sends them. */
  lemma CancelledEditsAreSavedLater(e: Editor, f: TextField, v: string)
    requires e.editing
    ensures var r := Run(e, [Edit(f, v), ToggleEdit, ToggleEdit, Save]);
            |r.1| == 4 && r.1[3] == Updated(EditField(e.data, f, v))
  {
    var e1 := Handle(e, Edit(f, v)).0;
    var e2 := Handle(e1, ToggleEdit).0;
    var e3 := Handle(e2, ToggleEdit).0;
    assert e3.data == EditField(e.data, f, v) && e3.editing;
    assert [Edit(f, v), ToggleEdit, ToggleEdit, Save][1..] == [ToggleEdit, ToggleEdit, Save];
    assert [ToggleEdit, ToggleEdit, Save][1..] == [ToggleEdit, Save];
    assert [ToggleEdit, Save][1..] == [Save];
    assert [Save][1..] == [];
  }

  /** Text typed into the skill input and left there when edit mode is
      cancelled is gone on return: Enter then adds nothing. */
  lemma CancelledSkillTextIsDiscarded(e: Editor, t: string)
    requires e.editing
    ensures var r := Run(e, [TypeSkill(t), ToggleEdit, ToggleEdit, PressEnter]);
            |r.1| == 4 && r.0.data == e.data && r.0.skillInput == ""
  {
    var e1 := Handle(e, TypeSkill(t)).0;
    var e2 := Handle(e1, ToggleEdit).0;
    var e3 := Handle(e2, ToggleEdit).0;
    assert e3.data == e.data && e3.editing && e3.skillInput == "";
    assert AddSkill(e3.data, "") == e.data;
    assert [TypeSkill(t), ToggleEdit, ToggleEdit, PressEnter][1..] == [ToggleEdit, ToggleEdit, PressEnter];
    assert [ToggleEdit, ToggleEdit, PressEnter][1..] == [ToggleEdit, PressEnter];
    assert [ToggleEdit, PressEnter][1..] == [PressEnter];
    assert [PressEnter][1..] == [];
  }
}

=== FILE: job_scraper.dfy ===
/** The backend's job-data normaliser (`JobScraper._clean_job_data`) and the
    checks `extract_job_data` makes around the page loader and the language
    model, both of which are inputs here. */
module JobScraper {
  import opened Base
  import opened Text

  /** A value decoded from the language model's JSON output. `Str` is a
      Python `str`; `List` is a Python list together with its `str()` text;
      `Other` is any other value (None, a number, a bool, a dict) given by its
      `str()` text, e.g. "None". */
  datatype RawValue =
    | Str(s: string)
    | List(items: seq<RawValue>, text: string)
    | Other(text: string)

  /** Python's `str(value)`. */
  function PyStr(v: RawValue): string {
    match v
    case Str(s) => s
    case List(_, t) => t
    case Other(t) => t
  }

  /** The decoded output: a JSON object maps keys to values. */
  type RawObject = map<string, RawValue>

  /** `raw_data.get(key, default)`. */
  function Get(raw: RawObject, key: string, default: RawValue): RawValue {
    if key in raw then raw[key] else default
  }

  /** The cleaned record: exactly the six keys the normaliser writes. */
  datatype CleanJob = CleanJob(
    role: string,
    company: string,
    description: string,
    skills: seq<string>,
    experience: string,
    location: string)

  const RolePlaceholder: string := "Position Not Specified"
  const CompanyPlaceholder: string := "Company Not Specified"
  const DescriptionPlaceholder: string := "Job description not available"
  const SkillsPlaceholder: string := "Skills not specified"

  /** The three-character text a UTF-8 bullet becomes when it is decoded as
      Windows-1252; it separates skills like a comma. */
  const Bullet: string := "\U{E2}\U{20AC}\U{A2}"

  /** `str(raw_data.get(key, "")).strip()`. */
  function Field(raw: RawObject, key: string): (r: string)
    ensures IsStripped(r)
    ensures key !in raw ==> r == ""
  {
    Strip(PyStr(Get(raw, key, Str(""))))
  }

  /** Strips each piece and drops those left empty, keeping the order: a
      single piece gives its stripped form, or nothing when it is blank,
      and `StripNonBlankAppend` shows a longer run is handled piece by
      piece. */
  function StripNonBlank(pieces: seq<string>): (r: seq<string>)
    ensures |r| <= |pieces|
    ensures forall k :: 0 <= k < |r| ==> r[k] != "" && IsStripped(r[k])
    ensures (forall j :: 0 <= j < |pieces| ==> IsBlank(pieces[j])) <==> r == []
    ensures |pieces| == 1 ==> r == (if IsBlank(pieces[0]) then [] else [Strip(pieces[0])])
  {
    if |pieces| == 0 then []
    else
      var rest := StripNonBlank(pieces[1..]);
      if Strip(pieces[0]) != "" then [Strip(pieces[0])] + rest
      else
        assert forall j :: 1 <= j < |pieces| ==> pieces[j] == pieces[1..][j - 1];
        rest
  }

  /** Stripping works piece by piece: the result for two runs of pieces
      is the two results one after the other, so the order is kept. */
  lemma {:induction false} StripNonBlankAppend(a: seq<string>, b: seq<string>)
    ensures StripNonBlank(a + b) == StripNonBlank(a) + StripNonBlank(b)
    decreases |a|
  {
    if |a| == 0 {
      assert a + b == b;
    } else {
      assert (a + b)[0] == a[0];
      assert (a + b)[1..] == a[1..] + b;
      StripNonBlankAppend(a[1..], b);
    }
  }

  /** Pieces that are already non-empty and stripped pass through unchanged. */
  lemma {:induction false} StripNonBlankKeepsClean(pieces: seq<string>)
    requires forall k :: 0 <= k < |pieces| ==> pieces[k] != "" && IsStripped(pieces[k])
    ensures StripNonBlank(pieces) == pieces
  {
    if |pieces| > 0 {
      var tail := pieces[1..];
      assert forall k :: 0 <= k < |tail| ==> tail[k] == pieces[k + 1];
      StripStripped(pieces[0]);
      StripNonBlankKeepsClean(tail);
      assert StripNonBlank(pieces) == [pieces[0]] + tail;
      assert [pieces[0]] + tail == pieces;
    }
  }

  /** No skill delimiter occurs in `x`. */
  predicate NoDelimiter(x: string) {
    ',' !in x && ';' !in x && '|' !in x && !Contains(x, Bullet)
  }

  /** When no stripped piece holds a delimiter, no kept piece does. */
  lemma {:induction false} StripNonBlankNoDelimiter(pieces: seq<string>)
    requires forall j :: 0 <= j < |pieces| ==> NoDelimiter(Strip(pieces[j]))
    ensures forall k :: 0 <= k < |StripNonBlank(pieces)| ==> NoDelimiter(StripNonBlank(pieces)[k])
  {
    if |pieces| > 0 {
      var tail := pieces[1..];
      assert forall j :: 0 <= j < |tail| ==> tail[j] == pieces[j + 1];
      StripNonBlankNoDelimiter(tail);
    }
  }

  /** `skills_raw.replace(",", "|").replace(";", "|").replace(bullet, "|").split("|")`. */
  function SplitSkillText(s: string): seq<string> {
    Split(ReplaceAll(ReplaceAll(ReplaceAll(s, ",", "|"), ";", "|"), Bullet, "|"), '|')
  }

  /** The skills of a string value: the stripped, non-empty pieces between
      the delimiters ',', ';', '|' and the bullet. No skill contains a
      delimiter. */
  function SkillsFromText(s: string): (r: seq<string>)
    ensures r == StripNonBlank(SplitSkillText(s))
    ensures forall k :: 0 <= k < |r| ==> r[k] != "" && IsStripped(r[k])
    ensures forall k :: 0 <= k < |r| ==> NoDelimiter(r[k])
    ensures IsBlank(s) ==> r == []
  {
    var pieces := SplitSkillText(s);
    NoDelimiterInPieces(s);
    StripNonBlankNoDelimiter(pieces);
    if IsBlank(s) then
      BlankSplit(s);
      StripNonBlank(pieces)
    else
      StripNonBlank(pieces)
  }

  /** Skills joined by any one of the delimiters ',', ';' or '|' are read
      back exactly, in order, when each is non-empty, stripped and free of
      delimiters. */
  lemma SkillsJoinRoundTrip(xs: seq<string>, d: char)
    requires d == ',' || d == ';' || d == '|'
    requires |xs| >= 1
    requires forall k :: 0 <= k < |xs| ==> xs[k] != "" && IsStripped(xs[k]) && NoDelimiter(xs[k])
    ensures SkillsFromText(Join(xs, [d])) == xs
  {
    SplitSkillTextOfJoin(xs, d);
    StripNonBlankKeepsClean(xs);
  }

  /** Splitting a join of clean skills gives the skills back. */
  lemma SplitSkillTextOfJoin(xs: seq<string>, d: char)
    requires d == ',' || d == ';' || d == '|'
    requires |xs| >= 1
    requires forall k :: 0 <= k < |xs| ==> NoDelimiter(xs[k])
    ensures SplitSkillText(Join(xs, [d])) == xs
  {
    CommaAndSemicolonBecomeBars(xs, d);
    BulletStageKeepsBars(xs);
  }

  /** The bullet replacement leaves a '|'-join of bullet-free skills alone,
      and the split cuts it back into the skills. */
  lemma BulletStageKeepsBars(xs: seq<string>)
    requires |xs| >= 1
    requires forall k :: 0 <= k < |xs| ==> '|' !in xs[k] && !Contains(xs[k], Bullet)
    ensures Split(ReplaceAll(Join(xs, "|"), Bullet, "|"), '|') == xs
  {
    assert '|' !in Bullet;
    JoinAvoidsPattern(xs, '|', Bullet);
    ReplaceAllAbsent(Join(xs, "|"), Bullet, "|");
    SplitJoin(xs, '|');
  }

  /** The first two replacements turn any of the three joins into the
      join with '|'. */
  lemma CommaAndSemicolonBecomeBars(xs: seq<string>, d: char)
    requires d == ',' || d == ';' || d == '|'
    requires |xs| >= 1
    requires forall k :: 0 <= k < |xs| ==> ',' !in xs[k] && ';' !in xs[k] && '|' !in xs[k]
    ensures ReplaceAll(ReplaceAll(Join(xs, [d]), ",", "|"), ";", "|") == Join(xs, "|")
  {
    var s := Join(xs, [d]);
    var j := Join(xs, "|");
    JoinAvoidsChar(xs, "|", ',');
    JoinAvoidsChar(xs, "|", ';');
    var a := ReplaceAll(s, ",", "|");
    if d == ',' {
      ReplaceJoin(xs, ',', "|");
      assert a == j;
      ContainsChar(j, ';');
      ReplaceAllAbsent(j, ";", "|");
    } else {
      JoinAvoidsChar(xs, [d], ',');
      ContainsChar(s, ',');
      ReplaceAllAbsent(s, ",", "|");
      assert a == s;
      if d == ';' {
        ReplaceJoin(xs, ';', "|");
      } else {
        JoinAvoidsChar(xs, [d], ';');
        ContainsChar(s, ';');
        ReplaceAllAbsent(s, ";", "|");
      }
    }
  }

  /** A blank text has only blank pieces: no delimiter is whitespace. */
  lemma BlankSplit(s: string)
    requires IsBlank(s)
    ensures forall j :: 0 <= j < |SplitSkillText(s)| ==> IsBlank(SplitSkillText(s)[j])
  {
    assert ReplaceAll(s, ",", "|") == s by { ReplaceAbsent(s, ","); }
    assert ReplaceAll(s, ";", "|") == s by { ReplaceAbsent(s, ";"); }
    assert ReplaceAll(s, Bullet, "|") == s by { ReplaceAbsent(s, Bullet); }
    assert '|' !in s;
  }

  /** Replacing a pattern that starts with a non-space character leaves a
      blank text unchanged. */
  lemma {:induction false} ReplaceAbsent(s: string, pat: string)
    requires |pat| > 0 && !IsSpace(pat[0]) && IsBlank(s)
    ensures ReplaceAll(s, pat, "|") == s
    decreases |s|
  {
    if |s| >= |pat| {
      assert s[..|pat|][0] != pat[0];
      ReplaceAbsent(s[1..], pat);
    }
  }

  /** No piece of the split text contains a delimiter, and neither does its
      stripped form. */
  lemma NoDelimiterInPieces(s: string)
    ensures var ps := SplitSkillText(s);
      forall j :: 0 <= j < |ps| ==> NoDelimiter(Strip(ps[j]))
  {
    var a := ReplaceAll(s, ",", "|");
    var b := ReplaceAll(a, ";", "|");
    var c := ReplaceAll(b, Bullet, "|");
    var ps := Split(c, '|');
    ReplaceRemovesPattern(s, ",", '|');
    ContainsChar(a, ',');
    ReplaceKeepsAbsent(a, ";", "|", ',');
    ReplaceRemovesPattern(a, ";", '|');
    ContainsChar(b, ';');
    ReplaceKeepsAbsent(b, Bullet, "|", ',');
    ReplaceKeepsAbsent(b, Bullet, "|", ';');
    ReplaceRemovesPattern(b, Bullet, '|');
    forall j | 0 <= j < |ps|
      ensures NoDelimiter(Strip(ps[j]))
    {
      var p := ps[j];
      JoinContainsParts(ps, "|", j);
      StripContains(p);
      ContainsTransitive(c, p, Strip(p));
      ContainsChar(c, ',');
      ContainsChar(c, ';');
      ContainsChar(Strip(p), ',');
      ContainsChar(Strip(p), ';');
      ContainsChar(p, '|');
      ContainsChar(Strip(p), '|');
      if ',' in Strip(p) {
        ContainsTransitive(c, Strip(p), ",");
      }
      if ';' in Strip(p) {
        ContainsTransitive(c, Strip(p), ";");
      }
      if '|' in Strip(p) {
        ContainsTransitive(p, Strip(p), "|");
      }
      if Contains(Strip(p), Bullet) {
        ContainsTransitive(c, Strip(p), Bullet);
      }
    }
  }

  /** The skills of the model's `skills` value, before the placeholder: a
      list keeps its stringified, stripped, non-empty elements in order; a
      string is split on the delimiters; any other value gives none. */
  function RawSkills(v: RawValue): (r: seq<string>)
    ensures forall k :: 0 <= k < |r| ==> r[k] != "" && IsStripped(r[k])
    ensures v.List? ==> r == StripNonBlank(seq(|v.items|, i requires 0 <= i < |v.items| => PyStr(v.items[i])))
    ensures v.Str? ==> r == SkillsFromText(v.s)
    ensures v.Other? ==> r == []
  {
    match v
    case List(items, _) => StripNonBlank(seq(|items|, i requires 0 <= i < |items| => PyStr(items[i])))
    case Str(s) => SkillsFromText(s)
    case Other(_) => []
  }

  /** A required scalar: its stripped text, or the placeholder when that is
      empty. */
  function Required(raw: RawObject, key: string, placeholder: string): (r: string)
    requires placeholder != "" && IsStripped(placeholder)
    ensures r != "" && IsStripped(r)
    ensures Field(raw, key) != "" ==> r == Field(raw, key)
    ensures Field(raw, key) == "" ==> r == placeholder
  {
    var f := Field(raw, key);
    if f == "" then placeholder else f
  }

  /** The skills list: the parsed skills, or the placeholder when none. */
  function SkillsOrPlaceholder(raw: RawObject): (r: seq<string>)
    ensures |r| > 0 && forall k :: 0 <= k < |r| ==> r[k] != "" && IsStripped(r[k])
    ensures var s := RawSkills(Get(raw, "skills", List([], "[]")));
      (s != [] ==> r == s) && (s == [] ==> r == [SkillsPlaceholder])
  {
    var s := RawSkills(Get(raw, "skills", List([], "[]")));
    if s == [] then [SkillsPlaceholder] else s
  }

  /** Whether a cleaned record meets the normaliser's guarantee: role,
      company and description are non-empty; skills is a non-empty list of
      non-empty stripped strings; every scalar is stripped. */
  predicate WellFormed(j: CleanJob) {
    && j.role != "" && j.company != "" && j.description != ""
    && IsStripped(j.role) && IsStripped(j.company) && IsStripped(j.description)
    && IsStripped(j.experience) && IsStripped(j.location)
    && |j.skills| > 0
    && forall k :: 0 <= k < |j.skills| ==> j.skills[k] != "" && IsStripped(j.skills[k])
  }

  /** `_clean_job_data(raw_data)`: every scalar is the stripped text of its
      value (missing keys read as ""); role, company, description and skills
      get placeholders when empty, experience and location do not. */
  function CleanJobData(raw: RawObject): (j: CleanJob)
    ensures WellFormed(j)
    ensures Field(raw, "role") != "" ==> j.role == Field(raw, "role")
    ensures Field(raw, "role") == "" ==> j.role == RolePlaceholder
    ensures Field(raw, "company") != "" ==> j.company == Field(raw, "company")
    ensures Field(raw, "company") == "" ==> j.company == CompanyPlaceholder
    ensures Field(raw, "description") != "" ==> j.description == Field(raw, "description")
    ensures Field(raw, "description") == "" ==> j.description == DescriptionPlaceholder
    ensures j.experience == Field(raw, "experience") && j.location == Field(raw, "location")
    ensures var s := RawSkills(Get(raw, "skills", List([], "[]")));
      (s != [] ==> j.skills == s) && (s == [] ==> j.skills == [SkillsPlaceholder])
  {
    CleanJob(
      Required(raw, "role", RolePlaceholder),
      Required(raw, "company", CompanyPlaceholder),
      Required(raw, "description", DescriptionPlaceholder),
      SkillsOrPlaceholder(raw),
      Field(raw, "experience"),
      Field(raw, "location"))
  }

  /** A cleaned record written back out as the model's JSON would carry it. */
  function ToRaw(j: CleanJob): RawObject {
    map[
      "role" := Str(j.role),
      "company" := Str(j.company),
      "description" := Str(j.description),
      "skills" := List(seq(|j.skills|, i requires 0 <= i < |j.skills| => Str(j.skills[i])), ""),
      "experience" := Str(j.experience),
      "location" := Str(j.location)]
  }

  /** Cleaning is idempotent: a record that meets the guarantee comes back
      unchanged, so cleaning an already cleaned record changes nothing. */
  lemma CleanFixesWellFormed(j: CleanJob)
    requires WellFormed(j)
    ensures CleanJobData(ToRaw(j)) == j
  {
    var raw := ToRaw(j);
    KeptScalar(raw, "role", j.role);
    KeptScalar(raw, "company", j.company);
    KeptScalar(raw, "description", j.description);
    KeptScalar(raw, "experience", j.experience);
    KeptScalar(raw, "location", j.location);
    KeptSkills(j);
  }

  /** The skills of a well-formed record read back as themselves. */
  lemma KeptSkills(j: CleanJob)
    requires WellFormed(j)
    ensures SkillsOrPlaceholder(ToRaw(j)) == j.skills
  {
    var raw := ToRaw(j);
    var items := seq(|j.skills|, i requires 0 <= i < |j.skills| => Str(j.skills[i]));
    assert Get(raw, "skills", List([], "[]")) == List(items, "");
    var texts := seq(|items|, i requires 0 <= i < |items| => PyStr(items[i]));
    assert texts == j.skills;
    StripNonBlankKeepsClean(j.skills);
  }

  /** A stripped string value reads back as itself. */
  lemma KeptScalar(raw: RawObject, key: string, v: string)
    requires key in raw && raw[key] == Str(v) && IsStripped(v)
    ensures Field(raw, key) == v
  {
    StripStripped(v);
  }

  lemma CleanIdempotent(raw: RawObject)
    ensures CleanJobData(ToRaw(CleanJobData(raw))) == CleanJobData(raw)
  {
    CleanFixesWellFormed(CleanJobData(raw));
  }

  /** A `null` role is not missing: `str(None)` is "None", which is kept. */
  lemma NullRoleIsKeptAsText()
    ensures CleanJobData(map["role" := Other("None")]).role == "None"
  {
    var raw := map["role" := Other("None")];
    assert Field(raw, "role") == Strip("None");
    StripStripped("None");
  }

  // ---------------------------------------------------------------------------
  // Extraction around the loader and the model

  const MinContentLength: nat := 100
  const ExtractPrefix: string := "Failed to extract job data: "
  const NoPageMessage: string := "Unable to load webpage content with Playwright"
  const ThinPageMessage: string := "Insufficient content found on the webpage after cleaning."

  /** What the model's reply decodes to: a JSON object, something else (a
      list, say, on which `.get` fails), or a parser error. */
  datatype ModelReply = ObjectReply(raw: RawObject) | NonObjectReply(error: string) | ParseFailure(error: string)

  /** The result of `extract_job_data`, and whether the model was asked. */
  datatype Extraction = Extraction(result: Result<CleanJob, string>, askedModel: bool)

  /** `extract_job_data(url)` given the loaded page texts and the reply the
      model would give. A missing page, or one whose stripped text is under
      100 characters, fails before the model is asked. Every failure is
      re-raised with the "Failed to extract job data: " prefix. */
  function ExtractJobData(pages: seq<string>, reply: ModelReply): (x: Extraction)
    ensures x.result.Err? ==> |ExtractPrefix| <= |x.result.error| && x.result.error[..|ExtractPrefix|] == ExtractPrefix
    ensures (|pages| == 0 || |Strip(pages[0])| < MinContentLength) ==> x.result.Err? && !x.askedModel
    ensures x.result.Ok? <==> |pages| > 0 && |Strip(pages[0])| >= MinContentLength && reply.ObjectReply?
    ensures x.result.Ok? ==> x.result.value == CleanJobData(reply.raw) && WellFormed(x.result.value)
  {
    if |pages| == 0 then Extraction(Err(ExtractPrefix + NoPageMessage), false)
    else if |Strip(pages[0])| < MinContentLength then Extraction(Err(ExtractPrefix + ThinPageMessage), false)
    else
      match reply
      case ObjectReply(raw) => Extraction(Ok(CleanJobData(raw)), true)
      case NonObjectReply(e) => Extraction(Err(ExtractPrefix + e), true)
      case ParseFailure(e) => Extraction(Err(ExtractPrefix + e), true)
  }
}

=== FILE: local_storage.dfy ===
/** The persisted-state hooks (`useLocalStorage`, `useLocalStorageState`,
    `useLocalStorageArray`). The browser's storage and the in-memory
    fallback behave alike here, so both are one string-to-string map. JSON
    is a parameter: a codec whose `serialize` may fail (`JSON.stringify`
    throwing) and whose `parse` may fail (`JSON.parse` throwing). */
module LocalStorage {
  import opened Base
  import Seqs

  type Store = map<string, string>

  datatype Codec<!T> = Codec(serialize: T -> Option<string>, parse: string -> Option<T>)

  /** What JSON guarantees and the hooks rely on: a serialised value is
      never the empty string and parses back to the value. */
  ghost predicate RoundTrips<T(!new)>(c: Codec<T>) {
    forall v: T :: c.serialize(v).Some? ==>
      c.serialize(v).value != "" && c.parse(c.serialize(v).value) == Some(v)
  }

  /** `getStoredValue`: a missing or empty item, or one that does not
      parse, reads as the initial value. */
  function Read<T>(store: Store, key: string, initial: T, c: Codec<T>): (r: T)
    ensures key !in store || store[key] == "" ==> r == initial
    ensures key in store && store[key] != "" && c.parse(store[key]).None? ==> r == initial
    ensures key in store && store[key] != "" && c.parse(store[key]).Some? ==>
              r == c.parse(store[key]).value
  {
    if key !in store || store[key] == "" then initial
    else match c.parse(store[key])
      case Some(v) => v
      case None => initial
  }

  /** The hook's state: the value of the current render and the storage. */
  datatype Hook<T> = Hook(value: T, store: Store)

  /** The first render reads the stored value. */
  function Mount<T>(store: Store, key: string, initial: T, c: Codec<T>): (h: Hook<T>)
    ensures h.value == Read(store, key, initial, c) && h.store == store
  {
    Hook(Read(store, key, initial, c), store)
  }

  /** The argument of `setValue`: a value, or an updater applied to the
      value of the render that created the setter. */
  datatype Update<!T> = Value(v: T) | Updater(f: T -> T)

  function Apply<T>(u: Update<T>, current: T): T {
    match u
    case Value(v) => v
    case Updater(f) => f(current)
  }

  /** `setValue`: the state takes the new value first; the storage is
      written under the same key only when serialisation succeeds, and a
      failure is swallowed. No other key is touched. */
  function SetValue<T>(h: Hook<T>, key: string, u: Update<T>, c: Codec<T>): (r: Hook<T>)
    ensures r.value == Apply(u, h.value)
    ensures c.serialize(r.value).Some? ==> r.store == h.store[key := c.serialize(r.value).value]
    ensures c.serialize(r.value).None? ==> r.store == h.store
  {
    var next := Apply(u, h.value);
    match c.serialize(next)
    case Some(text) => Hook(next, h.store[key := text])
    case None => Hook(next, h.store)
  }

  /** A successful write reads back as the written value, under any
      initial value; other keys read as before. */
  lemma WriteThenRead<T(!new)>(h: Hook<T>, key: string, u: Update<T>, c: Codec<T>, initial: T, other: string)
    requires RoundTrips(c)
    requires c.serialize(Apply(u, h.value)).Some?
    ensures Read(SetValue(h, key, u, c).store, key, initial, c) == Apply(u, h.value)
    ensures other != key ==>
              Read(SetValue(h, key, u, c).store, other, initial, c) == Read(h.store, other, initial, c)
  {
  }

  /** Reloading after a successful write restores the written value. */
  lemma RemountRestores<T(!new)>(h: Hook<T>, key: string, u: Update<T>, c: Codec<T>, initial: T)
    requires RoundTrips(c)
    requires c.serialize(Apply(u, h.value)).Some?
    ensures Mount(SetValue(h, key, u, c).store, key, initial, c).value == SetValue(h, key, u, c).value
  {
    WriteThenRead(h, key, u, c, initial, key);
  }

  /** The `storage` listener: an event for this key with a new value that
      parses replaces the state; an event for another key, a cleared item
      (`newValue` null) or text that does not parse leaves it alone. */
  function OnStorage<T>(h: Hook<T>, key: string, eventKey: Option<string>, newValue: Option<string>, c: Codec<T>): (r: Hook<T>)
    ensures r.store == h.store
    ensures eventKey != Some(key) || newValue.None? ==> r == h
    ensures eventKey == Some(key) && newValue.Some? && c.parse(newValue.value).None? ==> r == h
    ensures eventKey == Some(key) && newValue.Some? && c.parse(newValue.value).Some? ==>
              r.value == c.parse(newValue.value).value
  {
    if eventKey == Some(key) && newValue.Some? then
      match c.parse(newValue.value)
      case Some(v) => h.(value := v)
      case None => h
    else h
  }

  /** Another tab's successful write arrives as the value it wrote. */
  lemma OtherTabWriteArrives<T(!new)>(h: Hook<T>, key: string, v: T, c: Codec<T>)
    requires RoundTrips(c) && c.serialize(v).Some?
    ensures OnStorage(h, key, Some(key), c.serialize(v), c).value == v
  {
  }

  // ---------------------------------------------------------------------------
  // useLocalStorageState: an object whose keys are merged

  /** `{ ...prev, ...updates }`: the keys of `updates` take their new
      values, every other key keeps its old one. */
  function Merge<V>(prev: map<string, V>, updates: map<string, V>): (r: map<string, V>)
    ensures r.Keys == prev.Keys + updates.Keys
    ensures forall k :: k in updates ==> r[k] == updates[k]
    ensures forall k :: k in prev && k !in updates ==> r[k] == prev[k]
  {
    prev + updates
  }

  /** Applying the same partial update twice is the same as once. */
  lemma MergeIdempotent<V>(prev: map<string, V>, updates: map<string, V>)
    ensures Merge(Merge(prev, updates), updates) == Merge(prev, updates)
  {
  }

  /** Two partial updates compose into one whose later keys win. */
  lemma MergeCompose<V>(prev: map<string, V>, u1: map<string, V>, u2: map<string, V>)
    ensures Merge(Merge(prev, u1), u2) == Merge(prev, Merge(u1, u2))
  {
  }

  /** `updateState`. */
  function UpdateState<V>(h: Hook<map<string, V>>, key: string, updates: map<string, V>, c: Codec<map<string, V>>): (r: Hook<map<string, V>>)
    ensures r.value == Merge(h.value, updates)
    ensures c.serialize(r.value).Some? ==> r.store == h.store[key := c.serialize(r.value).value]
    ensures c.serialize(r.value).None? ==> r.store == h.store
  {
    SetValue(h, key, Updater((prev: map<string, V>) => Merge(prev, updates)), c)
  }

  /** `resetState`: back to the initial object, whatever was merged in. */
  function ResetState<V>(h: Hook<map<string, V>>, key: string, initialState: map<string, V>, c: Codec<map<string, V>>): (r: Hook<map<string, V>>)
    ensures r.value == initialState
    ensures c.serialize(r.value).Some? ==> r.store == h.store[key := c.serialize(r.value).value]
    ensures c.serialize(r.value).None? ==> r.store == h.store
  {
    SetValue(h, key, Value(initialState), c)
  }

  // ---------------------------------------------------------------------------
  // useLocalStorageArray

  function Rejecting<T>(matches: T -> bool): T -> bool {
    (x: T) => !matches(x)
  }

  /** `addItem`: the item goes to the end. */
  function AddItem<T>(h: Hook<seq<T>>, key: string, item: T, c: Codec<seq<T>>): (r: Hook<seq<T>>)
    ensures r.value == h.value + [item]
    ensures c.serialize(r.value).Some? ==> r.store == h.store[key := c.serialize(r.value).value]
    ensures c.serialize(r.value).None? ==> r.store == h.store
  {
    SetValue(h, key, Updater((prev: seq<T>) => prev + [item]), c)
  }

  /** `removeItem`: the items the predicate accepts go, the others stay in
      order.
      The contract states which entries stay; their order is that of
      `Seqs.Filter`, which `Seqs.FilterAppend` shows works piecewise over a
      concatenation, so the survivors keep their relative order. */
  function RemoveItem<T>(h: Hook<seq<T>>, key: string, matches: T -> bool, c: Codec<seq<T>>): (r: Hook<seq<T>>)
    ensures forall k :: 0 <= k < |r.value| ==> !matches(r.value[k]) && r.value[k] in h.value
    ensures forall k :: 0 <= k < |h.value| && !matches(h.value[k]) ==> h.value[k] in r.value
    ensures c.serialize(r.value).Some? ==> r.store == h.store[key := c.serialize(r.value).value]
    ensures c.serialize(r.value).None? ==> r.store == h.store
  {
    SetValue(h, key, Updater((prev: seq<T>) => Seqs.Filter(prev, Rejecting(matches))), c)
  }

  /** `clearArray`. */
  function ClearArray<T>(h: Hook<seq<T>>, key: string, c: Codec<seq<T>>): (r: Hook<seq<T>>)
    ensures r.value == []
    ensures c.serialize(r.value).Some? ==> r.store == h.store[key := c.serialize(r.value).value]
    ensures c.serialize(r.value).None? ==> r.store == h.store
  {
    SetValue(h, key, Value([]), c)
  }

  /** Removal keeps the multiplicity of every item the predicate rejects
      and drops every item it accepts. */
  lemma RemoveItemCounts<T>(h: Hook<seq<T>>, key: string, matches: T -> bool, c: Codec<seq<T>>, x: T)
    ensures multiset(RemoveItem(h, key, matches, c).value)[x]
         == if matches(x) then 0 else multiset(h.value)[x]
  {
    Seqs.FilterCounts(h.value, Rejecting(matches), x);
  }

  /** Adding an item and then removing by a predicate that accepts only
      that item gives back the array, when no stored item matched. */
  lemma {:induction false} RemoveUndoesAdd<T>(h: Hook<seq<T>>, key: string, item: T, matches: T -> bool, c: Codec<seq<T>>)
    requires matches(item)
    requires forall k :: 0 <= k < |h.value| ==> !matches(h.value[k])
    ensures RemoveItem(AddItem(h, key, item, c), key, matches, c).value == h.value
  {
    Seqs.FilterAppend(h.value, [item], Rejecting(matches));
    Seqs.FilterKeepsAll(h.value, Rejecting(matches));
    assert Seqs.Filter([item], Rejecting(matches)) == [];
  }
}

=== FILE: seqs.dfy ===
/** `Array.prototype.filter`, shared by the three removal operations of the
    frontend (skills, toasts, stored arrays), with the facts they rely on. */
module Seqs {

  /** The elements of `s` that `keep` accepts, in their original order. */
  function Filter<T>(s: seq<T>, keep: T -> bool): (r: seq<T>)
    ensures |r| <= |s|
    ensures forall k :: 0 <= k < |r| ==> keep(r[k])
    ensures forall k :: 0 <= k < |r| ==> r[k] in s
    ensures forall k :: 0 <= k < |s| && keep(s[k]) ==> s[k] in r
  {
    if s == [] then []
    else if keep(s[0]) then [s[0]] + Filter(s[1..], keep)
    else Filter(s[1..], keep)
  }

  /** Filtering works piecewise: it keeps the relative order of the kept
      elements. */
  lemma {:induction false} FilterAppend<T>(a: seq<T>, b: seq<T>, keep: T -> bool)
    ensures Filter(a + b, keep) == Filter(a, keep) + Filter(b, keep)
  {
    if a == [] {
      assert a + b == b;
    } else {
      assert (a + b)[1..] == a[1..] + b;
      FilterAppend(a[1..], b, keep);
    }
  }

  /** A sequence whose every element is kept passes through unchanged. */
  lemma {:induction false} FilterKeepsAll<T>(s: seq<T>, keep: T -> bool)
    requires forall k :: 0 <= k < |s| ==> keep(s[k])
    ensures Filter(s, keep) == s
  {
    if s != [] {
      FilterKeepsAll(s[1..], keep);
    }
  }

  /** Filtering leaves the count of every kept value and drops every other
      value entirely. */
  lemma {:induction false} FilterCounts<T>(s: seq<T>, keep: T -> bool, x: T)
    ensures multiset(Filter(s, keep))[x] == if keep(x) then multiset(s)[x] else 0
  {
    if s != [] {
      FilterCounts(s[1..], keep, x);
      assert s == [s[0]] + s[1..];
    }
  }

  /** No value occurs twice. */
  predicate NoDuplicates<T(==)>(s: seq<T>) {
    forall i, j :: 0 <= i < j < |s| ==> s[i] != s[j]
  }

  /** Filtering never introduces a duplicate. */
  lemma {:induction false} FilterNoDuplicates<T>(s: seq<T>, keep: T -> bool)
    requires NoDuplicates(s)
    ensures NoDuplicates(Filter(s, keep))
  {
    if s != [] {
      assert NoDuplicates(s[1..]) by {
        forall i, j | 0 <= i < j < |s[1..]| ensures s[1..][i] != s[1..][j] {
          assert s[1..][i] == s[i + 1] && s[1..][j] == s[j + 1];
        }
      }
      FilterNoDuplicates(s[1..], keep);
      var rest := Filter(s[1..], keep);
      if keep(s[0]) {
        assert s[0] !in rest by {
          forall k | 0 <= k < |rest| ensures rest[k] != s[0] {
            var m :| 0 <= m < |s[1..]| && s[1..][m] == rest[k];
            assert s[m + 1] == rest[k];
          }
        }
        var r := [s[0]] + rest;
        forall i, j | 0 <= i < j < |r| ensures r[i] != r[j] {
          if i == 0 {
            assert r[j] == rest[j - 1];
          } else {
            assert r[i] == rest[i - 1] && r[j] == rest[j - 1];
          }
        }
      }
    }
  }
}

=== FILE: stepper.dfy ===
/** The progress indicator above the wizard (`Stepper`): four fixed steps,
    each drawn as a circle with a title, a connector between neighbours,
    and a progress bar with a "Step c of t" caption and a rounded
    percentage. Styling is reduced to the choice the source makes between
    its class lists; the icons' artwork and the animations are not
    modelled beyond whether they are shown. */
module Stepper {
  import opened Base
  import opened Text

  /** `totalSteps` when the caller passes none, as the wizard does. */
  const DefaultTotalSteps: int := 4

  datatype StepInfo = StepInfo(id: int, title: string, description: string)

  /** The four steps, numbered from 1 in screen order. */
  const Steps: seq<StepInfo> := [
    StepInfo(1, "URL", "Enter job posting URL"),
    StepInfo(2, "Job Details", "Review extracted details"),
    StepInfo(3, "Your Info", "Personal information"),
    StepInfo(4, "Generate Email", "AI-generated cold email")
  ]

  lemma StepsNumberedInOrder()
    ensures |Steps| == 4
    ensures forall k :: 0 <= k < |Steps| ==> Steps[k].id == k + 1
  {
  }

  // ---------------------------------------------------------------------------
  // One step

  /** The four circle styles the source distinguishes. */
  datatype Circle = Active | Completed | Accessible | Locked

  /** The circle's style, by the source's cascade: active, else completed,
      else accessible (current at or past the step), else locked. */
  function CircleFor(current: int, id: int): (c: Circle)
    ensures c == Active <==> current == id
    ensures c == Completed <==> current > id
    ensures c == Locked <==> current < id
  {
    if current == id then Active
    else if current > id then Completed
    else if current >= id then Accessible
    else Locked
  }

  /** The third style is never chosen: a step the current one has reached
      is either the current one or a completed one. */
  lemma AccessibleStyleUnreachable(current: int, id: int)
    ensures CircleFor(current, id) != Accessible
  {
  }

  /** Everything the source decides for one step: the circle, whether it
      shows the check mark instead of the step's icon, whether the icon is
      white, whether the pulse ring is drawn, and the colours of the title
      and description, which follow the circle. */
  datatype Marker = Marker(
    circle: Circle,
    checkMark: bool,
    whiteIcon: bool,
    pulse: bool,
    titleHighlighted: bool,
    descriptionHighlighted: bool)

  function MarkerFor(current: int, id: int): (m: Marker)
    ensures m.circle == CircleFor(current, id)
    ensures m.checkMark <==> m.circle == Completed
    ensures m.pulse <==> m.circle == Active
    ensures m.descriptionHighlighted <==> m.circle == Active
    ensures m.titleHighlighted <==> m.circle != Locked
    ensures !m.checkMark ==> (m.whiteIcon <==> m.circle == Active)
  {
    var isActive := current == id;
    var isCompleted := current > id;
    var isAccessible := current >= id;
    Marker(CircleFor(current, id), isCompleted, isActive || isAccessible, isActive,
           isActive || isCompleted, isActive)
  }

  /** The line after a step: green once the step is completed, with the
      moving gradient while the next step is the current one. */
  datatype Connector = Connector(green: bool, animated: bool)

  function ConnectorAfter(current: int, id: int): (c: Connector)
    ensures c.green <==> CircleFor(current, id) == Completed
    ensures c.animated <==> CircleFor(current, id + 1) == Active
    ensures c.animated ==> c.green
  {
    Connector(current > id, current == id + 1)
  }

  // ---------------------------------------------------------------------------
  // The whole indicator

  /** The steps' markers in order, and a connector after every step but
      the last. */
  datatype Track = Track(markers: seq<Marker>, connectors: seq<Connector>)

  function RenderTrack(current: int): (t: Track)
    ensures |t.markers| == |Steps| && |t.connectors| == |Steps| - 1
    ensures forall k :: 0 <= k < |Steps| ==> t.markers[k] == MarkerFor(current, Steps[k].id)
    ensures forall k :: 0 <= k < |Steps| - 1 ==> t.connectors[k] == ConnectorAfter(current, Steps[k].id)
  {
    Track(seq(|Steps|, k requires 0 <= k < |Steps| => MarkerFor(current, Steps[k].id)),
          seq(|Steps| - 1, k requires 0 <= k < |Steps| - 1 => ConnectorAfter(current, Steps[k].id)))
  }

  /** On any of the four steps, the markers read as a prefix of completed
      steps, the one active step, and locked steps after it; exactly the
      connectors before the active step are green, and only the one
      leading into it is animated. */
  lemma TrackShowsOneActiveStep(current: int)
    requires 1 <= current <= |Steps|
    ensures var t := RenderTrack(current);
            (forall k :: 0 <= k < |Steps| ==>
               (t.markers[k].circle == Completed <==> k < current - 1)
               && (t.markers[k].circle == Active <==> k == current - 1)
               && (t.markers[k].circle == Locked <==> k > current - 1))
            && (forall k :: 0 <= k < |Steps| - 1 ==>
               (t.connectors[k].green <==> k < current - 1)
               && (t.connectors[k].animated <==> k == current - 2))
  {
    StepsNumberedInOrder();
  }

  /** Outside the four steps the indicator has no active step: before the
      first everything is locked, past the last everything is completed. */
  lemma NoActiveStepOutsideRange(current: int, k: int)
    requires current < 1 || current > |Steps|
    requires 0 <= k < |Steps|
    ensures RenderTrack(current).markers[k].circle != Active
  {
    StepsNumberedInOrder();
  }

  // ---------------------------------------------------------------------------
  // Progress

  /** `Math.round(x)` for `x = num / den`: the integer `r` with
      `r <= x + 1/2 < r + 1` (halves round up, towards positive
      infinity), stated without division. */
  ghost predicate RoundsHalfUp(num: int, den: int, r: int)
    requires den != 0
  {
    if den > 0 then 2 * den * r <= 2 * num + den < 2 * den * (r + 1)
    else 2 * den * (r + 1) < 2 * num + den <= 2 * den * r
  }

  /** The rounded percentage of `current / total`; a zero total, which
      gives infinity or NaN in the source, has none. */
  function Percent(current: int, total: int): (r: Option<int>)
    ensures r.None? <==> total == 0
    ensures r.Some? ==> RoundsHalfUp(100 * current, total, r.value)
  {
    if total == 0 then None
    else if total > 0 then Some((200 * current + total) / (2 * total))
    else Some((-(200 * current + total)) / (-2 * total))
  }

  /** The rounding has exactly one answer, so `Percent` is the only
      function with its contract. */
  lemma RoundingIsUnique(num: int, den: int, r1: int, r2: int)
    requires den != 0
    requires RoundsHalfUp(num, den, r1) && RoundsHalfUp(num, den, r2)
    ensures r1 == r2
  {
    if den > 0 {
      assert 2 * den * r1 < 2 * den * (r2 + 1) && 2 * den * r2 < 2 * den * (r1 + 1);
      MulLess(2 * den, r1, r2 + 1);
      MulLess(2 * den, r2, r1 + 1);
    } else {
      assert 2 * (-den) * r2 < 2 * (-den) * (r1 + 1) && 2 * (-den) * r1 < 2 * (-den) * (r2 + 1);
      MulLess(2 * (-den), r2, r1 + 1);
      MulLess(2 * (-den), r1, r2 + 1);
    }
  }

  lemma MulLess(m: int, a: int, b: int)
    requires m > 0 && m * a < m * b
    ensures a < b
  {
    assert m * (b - a) == m * b - m * a;
  }

  /** With a positive total the percentage never falls as the step
      advances. */
  lemma PercentMonotone(c1: int, c2: int, total: int)
    requires total > 0 && c1 <= c2
    ensures Percent(c1, total).value <= Percent(c2, total).value
  {
    var r1 := Percent(c1, total).value;
    var r2 := Percent(c2, total).value;
    assert 2 * total * r1 < 2 * total * (r2 + 1);
    MulLess(2 * total, r1, r2 + 1);
  }

  /** The first step reads 25%, each further one 25 more, the last 100%. */
  lemma WizardPercentages(current: int)
    requires 1 <= current <= DefaultTotalSteps
    ensures Percent(current, DefaultTotalSteps) == Some(25 * current)
  {
    RoundingIsUnique(100 * current, DefaultTotalSteps, Percent(current, DefaultTotalSteps).value, 25 * current);
  }

  /** The caption and percentage under the bar. */
  datatype Footer = Footer(caption: string, percent: Option<int>)

  function RenderFooter(current: int, total: int): Footer {
    Footer("Step " + IntToString(current) + " of " + IntToString(total), Percent(current, total))
  }
}

=== FILE: text.dfy ===
/** String operations shared by the frontend (TypeScript) and the backend
    (Python): whitespace stripping, ASCII lower-casing, substring search,
    join, single-character split, left-to-right replace and decimal
    rendering. Strings are sequences of characters. */
module Text {

  /** The whitespace characters recognised by `strip()`, `trim()` and the
      regular-expression class `\s`: space, tab, line feed, carriage return,
      vertical tab and form feed. */
  predicate IsSpace(c: char) {
    c == ' ' || c == '\t' || c == '\n' || c == '\r' || c == '\U{B}' || c == '\U{C}'
  }

  /** Every character is whitespace (true of the empty string). */
  predicate IsBlank(s: string) {
    forall i :: 0 <= i < |s| ==> IsSpace(s[i])
  }

  /** `s` neither starts nor ends with whitespace. */
  predicate IsStripped(s: string) {
    |s| == 0 || (!IsSpace(s[0]) && !IsSpace(s[|s| - 1]))
  }

  // ---------------------------------------------------------------------------
  // Substrings

  predicate OccursAt(s: string, sub: string, i: int) {
    0 <= i && i + |sub| <= |s| && s[i..i + |sub|] == sub
  }

  /** Python's `sub in s` and JavaScript's `s.includes(sub)`. */
  predicate Contains(s: string, sub: string) {
    exists i :: 0 <= i <= |s| - |sub| && OccursAt(s, sub, i)
  }

  lemma ContainsEmpty(s: string)
    ensures Contains(s, "")
  {
    assert OccursAt(s, "", 0);
  }

  lemma ContainsSlice(s: string, i: int, j: int)
    requires 0 <= i <= j <= |s|
    ensures Contains(s, s[i..j])
  {
    assert OccursAt(s, s[i..j], i);
  }

  /** A substring of a substring is a substring. */
  lemma ContainsTransitive(a: string, b: string, c: string)
    requires Contains(a, b) && Contains(b, c)
    ensures Contains(a, c)
  {
    var i :| 0 <= i <= |a| - |b| && OccursAt(a, b, i);
    var j :| 0 <= j <= |b| - |c| && OccursAt(b, c, j);
    assert b == a[i..i + |b|];
    forall k | 0 <= k < |c|
      ensures a[i + j + k] == c[k]
    {
      assert c[k] == b[j + k] == a[i + j + k];
    }
    assert a[i + j..i + j + |c|] == c;
    assert OccursAt(a, c, i + j);
  }

  /** A single character occurs as a substring exactly when it is an element. */
  lemma ContainsChar(s: string, c: char)
    ensures Contains(s, [c]) <==> c in s
  {
    if c in s {
      var i :| 0 <= i < |s| && s[i] == c;
      assert OccursAt(s, [c], i);
    }
    if Contains(s, [c]) {
      var i :| 0 <= i <= |s| - 1 && OccursAt(s, [c], i);
      assert s[i] == s[i..i + 1][0];
    }
  }

  // ---------------------------------------------------------------------------
  // Stripping

  /** The first index at or after `i` whose character is not whitespace, or
      `|s|` when there is none. */
  function SkipSpaces(s: string, i: nat): (j: nat)
    requires i <= |s|
    ensures i <= j <= |s|
    ensures j < |s| ==> !IsSpace(s[j])
    decreases |s| - i
  {
    if i < |s| && IsSpace(s[i]) then SkipSpaces(s, i + 1) else i
  }

  /** The end of `s[lo..j]` once its trailing whitespace is removed. */
  function SkipSpacesBack(s: string, lo: nat, j: nat): (k: nat)
    requires lo <= j <= |s|
    ensures lo <= k <= j
    ensures k > lo ==> !IsSpace(s[k - 1])
    decreases j
  {
    if j > lo && IsSpace(s[j - 1]) then SkipSpacesBack(s, lo, j - 1) else j
  }

  /** Everything `SkipSpaces` passes over is whitespace. */
  lemma {:induction false} SkipSpacesSkipsBlank(s: string, i: nat)
    requires i <= |s|
    ensures forall k :: i <= k < SkipSpaces(s, i) ==> IsSpace(s[k])
    decreases |s| - i
  {
    if i < |s| && IsSpace(s[i]) {
      SkipSpacesSkipsBlank(s, i + 1);
    }
  }

  /** Everything `SkipSpacesBack` passes over is whitespace. */
  lemma {:induction false} SkipSpacesBackSkipsBlank(s: string, lo: nat, j: nat)
    requires lo <= j <= |s|
    ensures forall k :: SkipSpacesBack(s, lo, j) <= k < j ==> IsSpace(s[k])
    decreases j
  {
    if j > lo && IsSpace(s[j - 1]) {
      SkipSpacesBackSkipsBlank(s, lo, j - 1);
    }
  }

  /** Python's `str.strip()` and JavaScript's `trim()`: the slice of `s` left
      after removing whitespace at both ends. */
  function Strip(s: string): (r: string)
    ensures |r| <= |s|
    ensures IsStripped(r)
    ensures r == "" <==> IsBlank(s)
  {
    var a := SkipSpaces(s, 0);
    var b := SkipSpacesBack(s, a, |s|);
    SkipSpacesSkipsBlank(s, 0);
    SkipSpacesBackSkipsBlank(s, a, |s|);
    assert a < b ==> s[a..b][0] == s[a] && !IsBlank(s);
    s[a..b]
  }

  lemma StripContains(s: string)
    ensures Contains(s, Strip(s))
  {
    var a := SkipSpaces(s, 0);
    var b := SkipSpacesBack(s, a, |s|);
    assert OccursAt(s, s[a..b], a);
  }

  /** Stripping leaves an already stripped string alone. */
  lemma StripStripped(s: string)
    requires IsStripped(s)
    ensures Strip(s) == s
  {
    assert SkipSpaces(s, 0) == 0;
    assert SkipSpacesBack(s, 0, |s|) == |s|;
    assert s[0..|s|] == s;
  }

  lemma StripIdempotent(s: string)
    ensures Strip(Strip(s)) == Strip(s)
  {
    StripStripped(Strip(s));
  }

  // ---------------------------------------------------------------------------
  // Lower-casing (ASCII letters only)

  function LowerChar(c: char): char {
    if 'A' <= c <= 'Z' then (c as int - 'A' as int + 'a' as int) as char else c
  }

  /** Python's `str.lower()` and JavaScript's `toLowerCase()`. */
  function Lower(s: string): (r: string)
    ensures |r| == |s|
    ensures forall i :: 0 <= i < |s| ==> r[i] == LowerChar(s[i])
  {
    seq(|s|, i requires 0 <= i < |s| => LowerChar(s[i]))
  }

  lemma LowerIdempotent(s: string)
    ensures Lower(Lower(s)) == Lower(s)
  {
  }

  /** Lower-casing both sides keeps a substring a substring. */
  lemma LowerContains(s: string, t: string)
    requires Contains(s, t)
    ensures Contains(Lower(s), Lower(t))
  {
    var i :| 0 <= i <= |s| - |t| && OccursAt(s, t, i);
    assert Lower(s)[i..i + |t|] == Lower(t) by {
      forall k | 0 <= k < |t|
        ensures Lower(s)[i + k] == Lower(t)[k]
      {
        assert s[i + k] == s[i..i + |t|][k] == t[k];
      }
    }
    assert OccursAt(Lower(s), Lower(t), i);
  }

  /** A string occurs in any string that starts or ends with it, or that has
      it between two other strings. */
  lemma PrefixOfAppend(a: string, b: string, k: nat)
    requires k <= |a|
    ensures (a + b)[..k] == a[..k]
  {
  }

  lemma ContainsMiddle(a: string, t: string, b: string)
    ensures Contains(a + t + b, t)
  {
    assert (a + t + b)[|a|..|a| + |t|] == t;
    assert OccursAt(a + t + b, t, |a|);
  }

  // ---------------------------------------------------------------------------
  // Join and split

  /** Python's `sep.join(parts)` and JavaScript's `parts.join(sep)`. */
  function Join(parts: seq<string>, sep: string): string
    decreases |parts|
  {
    if |parts| == 0 then ""
    else if |parts| == 1 then parts[0]
    else parts[0] + sep + Join(parts[1..], sep)
  }

  /** Every part occurs in the joined string. */
  lemma {:induction false} JoinContainsParts(parts: seq<string>, sep: string, k: int)
    requires 0 <= k < |parts|
    ensures Contains(Join(parts, sep), parts[k])
    decreases |parts|
  {
    if |parts| == 1 {
      ContainsSlice(parts[0], 0, |parts[0]|);
      assert parts[0][0..|parts[0]|] == parts[0];
    } else if k == 0 {
      var j := Join(parts, sep);
      ContainsSlice(j, 0, |parts[0]|);
      assert j[0..|parts[0]|] == parts[0];
    } else {
      JoinContainsParts(parts[1..], sep, k - 1);
      var j := Join(parts, sep);
      var tail := Join(parts[1..], sep);
      var off := |parts[0]| + |sep|;
      assert j[off..|j|] == tail;
      ContainsSlice(j, off, |j|);
      assert parts[1..][k - 1] == parts[k];
      ContainsTransitive(j, tail, parts[k]);
    }
  }

  function IndexOf(s: string, c: char): (i: nat)
    requires c in s
    ensures i < |s| && s[i] == c && c !in s[..i]
  {
    if s[0] == c then 0 else 1 + IndexOf(s[1..], c)
  }

  /** The first position holding `c` is the one `IndexOf` finds. */
  lemma IndexOfIsFirst(s: string, c: char, j: nat)
    requires j < |s| && s[j] == c
    requires forall k :: 0 <= k < j ==> s[k] != c
    ensures c in s && IndexOf(s, c) == j
  {
    assert s[j] in s;
    var i := IndexOf(s, c);
    assert forall k :: 0 <= k < i ==> s[k] != c by {
      forall k | 0 <= k < i ensures s[k] != c {
        assert s[..i][k] == s[k];
      }
    }
  }

  /** Python's `s.split(d)` for a one-character separator: the pieces between
      the separators, so there is always at least one piece. */
  function Split(s: string, d: char): (r: seq<string>)
    ensures |r| >= 1
    ensures forall k :: 0 <= k < |r| ==> d !in r[k]
    ensures Join(r, [d]) == s
    decreases |s|
  {
    if d !in s then [s]
    else
      var i := IndexOf(s, d);
      var rest := Split(s[i + 1..], d);
      assert s == s[..i] + [d] + s[i + 1..];
      [s[..i]] + rest
  }

  /** A character in no part and not in the separator is not in the
      joined string. */
  lemma {:induction false} JoinAvoidsChar(parts: seq<string>, sep: string, c: char)
    requires forall k :: 0 <= k < |parts| ==> c !in parts[k]
    requires c !in sep
    ensures c !in Join(parts, sep)
    decreases |parts|
  {
    if |parts| > 1 {
      JoinAvoidsChar(parts[1..], sep, c);
      assert parts[1..][0] == parts[1];
    }
  }

  /** A pattern holding a character the text lacks does not occur in it. */
  lemma MissingCharNotContained(s: string, pat: string, j: int)
    requires 0 <= j < |pat| && pat[j] !in s
    ensures !Contains(s, pat)
  {
    forall i | 0 <= i <= |s| - |pat|
      ensures !OccursAt(s, pat, i)
    {
      assert s[i + j] in s;
      assert s[i..i + |pat|][j] == s[i + j] != pat[j];
    }
  }

  /** A pattern without the separator character occurs in `a + [d] + b`
      only if it occurs in `a` or in `b`. */
  lemma NotContainsAcross(a: string, d: char, b: string, pat: string)
    requires |pat| > 0 && d !in pat
    requires !Contains(a, pat) && !Contains(b, pat)
    ensures !Contains(a + [d] + b, pat)
  {
    var s := a + [d] + b;
    forall i | 0 <= i <= |s| - |pat|
      ensures !OccursAt(s, pat, i)
    {
      if i + |pat| <= |a| {
        assert s[i..i + |pat|] == a[i..i + |pat|];
        assert !OccursAt(a, pat, i);
      } else if i <= |a| {
        var w := s[i..i + |pat|];
        assert w[|a| - i] == s[|a|] == d;
        assert d in w;
      } else {
        assert s[i..i + |pat|] == b[i - |a| - 1..i - |a| - 1 + |pat|];
        assert !OccursAt(b, pat, i - |a| - 1);
      }
    }
  }

  /** A pattern without the separator character that occurs in no part
      does not occur in the joined string. */
  lemma {:induction false} JoinAvoidsPattern(parts: seq<string>, d: char, pat: string)
    requires |pat| > 0 && d !in pat
    requires forall k :: 0 <= k < |parts| ==> !Contains(parts[k], pat)
    ensures !Contains(Join(parts, [d]), pat)
    decreases |parts|
  {
    if |parts| == 0 {
      assert |Join(parts, [d])| == 0;
    } else if |parts| > 1 {
      JoinAvoidsPattern(parts[1..], d, pat);
      assert parts[1..][0] == parts[1];
      NotContainsAcross(parts[0], d, Join(parts[1..], [d]), pat);
    }
  }

  /** Splitting a join on a separator that occurs in no part gives back the
      parts. */
  lemma {:induction false} SplitJoin(parts: seq<string>, d: char)
    requires |parts| >= 1
    requires forall k :: 0 <= k < |parts| ==> d !in parts[k]
    ensures Split(Join(parts, [d]), d) == parts
    decreases |parts|
  {
    if |parts| > 1 {
      var rest := Join(parts[1..], [d]);
      SplitAtFirst(parts[0], d, rest);
      SplitJoin(parts[1..], d);
      assert parts == [parts[0]] + parts[1..];
    }
  }

  /** Splitting cuts at the first separator. */
  lemma SplitAtFirst(a: string, d: char, b: string)
    requires d !in a
    ensures Split(a + [d] + b, d) == [a] + Split(b, d)
  {
    var s := a + [d] + b;
    assert s[|a|] == d;
    forall k | 0 <= k < |a|
      ensures s[k] != d
    {
      assert s[k] == a[k];
    }
    IndexOfIsFirst(s, d, |a|);
    assert s[..|a|] == a;
    assert s[|a| + 1..] == b;
  }

  // ---------------------------------------------------------------------------
  // Replace

  /** Python's `s.replace(pat, rep)`: occurrences of `pat` are replaced from
      left to right without overlapping. */
  function ReplaceAll(s: string, pat: string, rep: string): string
    requires |pat| > 0
    decreases |s|
  {
    if |s| < |pat| then s
    else if s[..|pat|] == pat then rep + ReplaceAll(s[|pat|..], pat, rep)
    else [s[0]] + ReplaceAll(s[1..], pat, rep)
  }

  /** A prefix of the replaced text that contains no separator character and
      is shorter than `pat` was copied unchanged from the input. */
  lemma {:induction false} ReplacePrefixCopied(t: string, pat: string, sep: char, w: string)
    requires |pat| > 0 && sep !in pat
    requires |w| < |pat| && sep !in w
    ensures var r := ReplaceAll(t, pat, [sep]);
      (|w| <= |r| && r[..|w|] == w) ==> (|w| <= |t| && t[..|w|] == w)
    decreases |t|
  {
    var r := ReplaceAll(t, pat, [sep]);
    if |t| < |pat| {
    } else if t[..|pat|] == pat {
      if |w| > 0 {
        assert r[0] == sep;
        assert w[0] != sep;
      }
    } else if |w| > 0 {
      var r' := ReplaceAll(t[1..], pat, [sep]);
      assert r == [t[0]] + r';
      ReplacePrefixCopied(t[1..], pat, sep, w[1..]);
      if |w| <= |r| && r[..|w|] == w {
        assert r'[..|w| - 1] == w[1..];
        assert t[..|w|] == [t[0]] + t[1..][..|w| - 1];
      }
    }
  }

  /** After replacing every `pat` by a one-character separator that does not
      occur in `pat`, no occurrence of `pat` is left. */
  lemma {:induction false} ReplaceRemovesPattern(s: string, pat: string, sep: char)
    requires |pat| > 0 && sep !in pat
    ensures !Contains(ReplaceAll(s, pat, [sep]), pat)
    decreases |s|
  {
    var r := ReplaceAll(s, pat, [sep]);
    if |s| < |pat| {
    } else if s[..|pat|] == pat {
      var r' := ReplaceAll(s[|pat|..], pat, [sep]);
      ReplaceRemovesPattern(s[|pat|..], pat, sep);
      assert r == [sep] + r';
      forall i | 0 <= i <= |r| - |pat|
        ensures !OccursAt(r, pat, i)
      {
        if i == 0 {
          assert r[0] == sep && pat[0] != sep;
        } else {
          assert r[i..i + |pat|] == r'[i - 1..i - 1 + |pat|];
          assert !OccursAt(r', pat, i - 1);
        }
      }
    } else {
      var r' := ReplaceAll(s[1..], pat, [sep]);
      ReplaceRemovesPattern(s[1..], pat, sep);
      assert r == [s[0]] + r';
      forall i | 0 <= i <= |r| - |pat|
        ensures !OccursAt(r, pat, i)
      {
        if i == 0 {
          if s[0] == pat[0] {
            var w := pat[1..];
            assert s[..|pat|] == [s[0]] + s[1..][..|w|];
            assert s[1..][..|w|] != w;
            ReplacePrefixCopied(s[1..], pat, sep, w);
            assert r'[..|w|] != w;
            assert r[..|pat|] == [s[0]] + r'[..|w|];
            assert pat == [pat[0]] + w;
          }
        } else {
          assert r[i..i + |pat|] == r'[i - 1..i - 1 + |pat|];
          assert !OccursAt(r', pat, i - 1);
        }
      }
    }
  }

  /** A text without the pattern is left unchanged. */
  lemma {:induction false} ReplaceAllAbsent(s: string, pat: string, rep: string)
    requires |pat| > 0 && !Contains(s, pat)
    ensures ReplaceAll(s, pat, rep) == s
    decreases |s|
  {
    if |s| >= |pat| {
      assert !OccursAt(s, pat, 0);
      assert !Contains(s[1..], pat) by {
        forall i | 0 <= i <= |s[1..]| - |pat|
          ensures !OccursAt(s[1..], pat, i)
        {
          assert s[1..][i..i + |pat|] == s[i + 1..i + 1 + |pat|];
          assert !OccursAt(s, pat, i + 1);
        }
      }
      ReplaceAllAbsent(s[1..], pat, rep);
      assert s == [s[0]] + s[1..];
    }
  }

  /** Replacing a one-character pattern copies a prefix without that
      character unchanged. */
  lemma {:induction false} ReplaceSkipsPrefix(a: string, b: string, c: char, rep: string)
    requires c !in a
    ensures ReplaceAll(a + b, [c], rep) == a + ReplaceAll(b, [c], rep)
    decreases |a|
  {
    if |a| > 0 {
      var s := a + b;
      assert s[..1] == [a[0]] != [c];
      assert s[1..] == a[1..] + b;
      ReplaceSkipsPrefix(a[1..], b, c, rep);
      assert a == [a[0]] + a[1..];
    } else {
      assert a + b == b;
    }
  }

  /** Replacing a one-character separator that occurs in no part turns the
      join into the join with the replacement. */
  lemma {:induction false} ReplaceJoin(parts: seq<string>, c: char, rep: string)
    requires |parts| >= 1
    requires forall k :: 0 <= k < |parts| ==> c !in parts[k]
    ensures ReplaceAll(Join(parts, [c]), [c], rep) == Join(parts, rep)
    decreases |parts|
  {
    if |parts| == 1 {
      ContainsChar(parts[0], c);
      ReplaceAllAbsent(parts[0], [c], rep);
    } else {
      var rest := Join(parts[1..], [c]);
      assert Join(parts, [c]) == parts[0] + ([c] + rest);
      ReplaceSkipsPrefix(parts[0], [c] + rest, c, rep);
      var t := [c] + rest;
      assert t[..1] == [c] && t[1..] == rest;
      ReplaceJoin(parts[1..], c, rep);
    }
  }

  /** Replacing by `rep` introduces no character that is in neither the input
      nor `rep`. */
  lemma {:induction false} ReplaceKeepsAbsent(s: string, pat: string, rep: string, c: char)
    requires |pat| > 0 && c !in s && c !in rep
    ensures c !in ReplaceAll(s, pat, rep)
    decreases |s|
  {
    if |s| < |pat| {
    } else if s[..|pat|] == pat {
      ReplaceKeepsAbsent(s[|pat|..], pat, rep, c);
    } else {
      ReplaceKeepsAbsent(s[1..], pat, rep, c);
    }
  }

  // ---------------------------------------------------------------------------
  // Decimal rendering

  function DigitChar(d: nat): char
    requires d < 10
  {
    "0123456789"[d]
  }

  /** The decimal text of a natural number, as JavaScript template literals
      and Python f-strings render integers. */
  function NatToString(n: nat): (r: string)
    ensures |r| > 0
    ensures forall i :: 0 <= i < |r| ==> '0' <= r[i] <= '9'
    decreases n
  {
    if n < 10 then [DigitChar(n)] else NatToString(n / 10) + [DigitChar(n % 10)]
  }

  function IntToString(n: int): (r: string)
    ensures |r| > 0
  {
    if n < 0 then "-" + NatToString(-n) else NatToString(n)
  }
}

=== FILE: types.dfy ===
/** The records exchanged between the wizard's screens and the backend:
    the frontend interfaces of `types/index.ts` and the pydantic request and
    response models of the backend. All of them are plain values. */
module Types {
  import opened Base

  /** The four employment types the frontend allows for `jobType`. */
  datatype JobType = FullTime | PartTime | Contract | Freelance

  /** Frontend `JobData`: `skills` is an ordered list, `experience` and
      `location` are required strings. */
  datatype JobData = JobData(
    role: string,
    company: string,
    description: string,
    skills: seq<string>,
    experience: string,
    location: string,
    salary: Option<string>,
    remote: Option<bool>,
    jobType: Option<JobType>)

  /** Frontend `PersonalInfo`: `skills` is one free-text string. */
  datatype PersonalInfo = PersonalInfo(
    name: string,
    email: string,
    skills: string,
    portfolio: Option<string>,
    phone: Option<string>,
    linkedin: Option<string>,
    github: Option<string>,
    experience: Option<string>,
    location: Option<string>)

  datatype PersonalizationLevel = Low | Medium | High

  /** Frontend `GeneratedEmail`. The confidence score is kept in tenths
      (0 ..= 10 stands for 0.0 ..= 1.0), the granularity the backend uses. */
  datatype GeneratedEmail = GeneratedEmail(
    subject: string,
    content: string,
    confidenceTenths: Option<int>,
    suggestions: Option<seq<string>>,
    personalizationLevel: Option<PersonalizationLevel>)

  datatype Role = Ai | User

  datatype MessageKind = TextMessage | SystemMessage | ErrorMessage

  /** A chat message; `timestamp` is the creation time in milliseconds. */
  datatype Message = Message(
    id: int,
    role: Role,
    content: string,
    timestamp: int,
    suggestions: Option<seq<string>>,
    kind: Option<MessageKind>)

  datatype ToastKind = Success | ErrorToast | Warning | Info

  /** `ToastMessage`: `id` is the `Date.now()` reading taken when it was shown. */
  datatype ToastMessage = ToastMessage(id: int, message: string, kind: ToastKind, duration: Option<int>)

  /** Backend `JobData` model: `experience` and `location` are optional and
      `jobType` is any string. */
  datatype BackendJobData = BackendJobData(
    role: string,
    company: string,
    description: string,
    skills: seq<string>,
    experience: Option<string>,
    location: Option<string>,
    salary: Option<string>,
    remote: Option<bool>,
    jobType: Option<string>)

  /** The JSON text the frontend uses for each employment type. */
  function JobTypeName(t: JobType): string {
    match t
    case FullTime => "full-time"
    case PartTime => "part-time"
    case Contract => "contract"
    case Freelance => "freelance"
  }

  /** Reads a `jobType` string back into the frontend's union type; any
      other string (which the backend accepts) has no frontend counterpart. */
  function ParseJobType(s: string): (r: Option<JobType>)
    ensures r.Some? <==> s in {"full-time", "part-time", "contract", "freelance"}
  {
    if s == "full-time" then Some(FullTime)
    else if s == "part-time" then Some(PartTime)
    else if s == "contract" then Some(Contract)
    else if s == "freelance" then Some(Freelance)
    else None
  }

  lemma JobTypeRoundTrip(t: JobType)
    ensures ParseJobType(JobTypeName(t)) == Some(t)
  {
  }

  /** A frontend `JobData` as the backend model receives it: every field
      carries over, the two required strings become present optionals and
      the job type becomes its text. */
  function ToBackend(j: JobData): (b: BackendJobData)
    ensures b.skills == j.skills
    ensures b.experience == Some(j.experience) && b.location == Some(j.location)
    ensures j.jobType.Some? <==> b.jobType.Some?
    ensures b.jobType.Some? ==> ParseJobType(b.jobType.value) == j.jobType
  {
    BackendJobData(j.role, j.company, j.description, j.skills,
      Some(j.experience), Some(j.location), j.salary, j.remote,
      match j.jobType
      case Some(t) => Some(JobTypeName(t))
      case None => None)
  }

  /** The all-empty job record the wizard starts from and returns to. */
  function EmptyJobData(): (j: JobData)
    ensures j.skills == [] && j.role == "" && j.company == ""
  {
    JobData("", "", "", [], "", "", None, None, None)
  }
}

=== FILE: url_input.dfy ===
/** The first wizard screen (`URLInput`): the job-board check on a URL's
    hostname, the submit handler, the typing and suggestion handlers, and
    the rule that enables the submit button. URL parsing is a parameter:
    `hostOf(u)` is the hostname of `new URL(u)`, or `None` when the
    constructor throws. */
module UrlInput {
  import opened Base
  import opened Text

  /** The job boards `validateURL` accepts, in source order. */
  const SupportedDomains: seq<string> := [
    "linkedin.com", "indeed.com", "glassdoor.com", "lever.co", "greenhouse.io",
    "workday.com", "bamboohr.com", "careers.google.com", "jobs.apple.com", "amazon.jobs"]

  const EmptyUrlMessage: string := "Please enter a job URL"
  const InvalidUrlMessage: string := "Please enter a valid URL starting with https://"
  const UnsupportedMessage: string :=
    "This job board is not yet supported. Try LinkedIn, Indeed, or company career pages."

  /** A hostname is supported when it contains one of the domains anywhere:
      this is a substring test, not a suffix test. */
  predicate Supported(host: string) {
    exists k :: 0 <= k < |SupportedDomains| && Contains(host, SupportedDomains[k])
  }

  /** `supportedDomains.some(domain => host.includes(domain))` over a
      suffix of the list. */
  function SomeDomain(host: string, domains: seq<string>): (b: bool)
    ensures b <==> exists k :: 0 <= k < |domains| && Contains(host, domains[k])
  {
    if domains == [] then false
    else if Contains(host, domains[0]) then true
    else
      var b := SomeDomain(host, domains[1..]);
      assert b ==> exists k :: 0 <= k < |domains| && Contains(host, domains[k]) by {
        if b {
          var k :| 0 <= k < |domains[1..]| && Contains(host, domains[1..][k]);
          assert domains[1..][k] == domains[k + 1];
        }
      }
      assert (exists k :: 0 <= k < |domains| && Contains(host, domains[k])) ==> b by {
        forall k | 0 < k < |domains| && Contains(host, domains[k])
          ensures b
        {
          assert domains[1..][k - 1] == domains[k];
        }
      }
      b
  }

  /** `validateURL`: the error it leaves behind, `None` when the URL is
      accepted. */
  function ValidateUrl(input: string, hostOf: string -> Option<string>): (e: Option<string>)
    ensures e.None? <==> hostOf(input).Some? && Supported(hostOf(input).value)
    ensures hostOf(input).None? ==> e == Some(InvalidUrlMessage)
    ensures hostOf(input).Some? && !Supported(hostOf(input).value) ==> e == Some(UnsupportedMessage)
  {
    match hostOf(input)
    case None => Some(InvalidUrlMessage)
    case Some(host) => if SomeDomain(host, SupportedDomains) then None else Some(UnsupportedMessage)
  }

  /** Only the hostname decides: two URLs with the same hostname (any
      scheme, path or query) get the same verdict. */
  lemma OnlyHostnameMatters(a: string, b: string, hostOf: string -> Option<string>)
    requires hostOf(a) == hostOf(b)
    ensures ValidateUrl(a, hostOf) == ValidateUrl(b, hostOf)
  {
  }

  /** A host that merely contains a listed domain is accepted, even when it
      belongs to another site. */
  lemma LookalikeHostAccepted()
    ensures Supported("linkedin.com.example.org")
  {
    assert OccursAt("linkedin.com.example.org", "linkedin.com", 0);
    assert Contains("linkedin.com.example.org", SupportedDomains[0]);
  }

  /** The screen's state: the text in the input and the error shown. */
  datatype UrlState = UrlState(url: string, error: Option<string>)

  const Initial: UrlState := UrlState("", None)

  /** `handleSubmit`: the input is trimmed; a blank one is refused without
      validation; otherwise the trimmed URL is passed to `onSubmit` exactly
      when it validates. The input itself is left as typed. */
  function Submit(s: UrlState, hostOf: string -> Option<string>): (r: (UrlState, Option<string>))
    ensures r.0.url == s.url
    ensures IsBlank(s.url) ==> r == (UrlState(s.url, Some(EmptyUrlMessage)), None)
    ensures !IsBlank(s.url) ==> r.0.error == ValidateUrl(Strip(s.url), hostOf)
    ensures r.1.Some? <==> !IsBlank(s.url) && ValidateUrl(Strip(s.url), hostOf).None?
    ensures r.1.Some? ==> r.1.value == Strip(s.url) && r.0.error.None?
  {
    var trimmed := Strip(s.url);
    if trimmed == "" then (UrlState(s.url, Some(EmptyUrlMessage)), None)
    else
      var e := ValidateUrl(trimmed, hostOf);
      (UrlState(s.url, e), if e.None? then Some(trimmed) else None)
  }

  /** `handleURLChange`: the new text is stored; an error is cleared only
      when the new text is not blank. */
  function Type(s: UrlState, newUrl: string): (r: UrlState)
    ensures r.url == newUrl
    ensures r.error.Some? <==> s.error.Some? && IsBlank(newUrl)
    ensures r.error.Some? ==> r.error == s.error
  {
    if s.error.Some? && !IsBlank(newUrl) then UrlState(newUrl, None) else UrlState(newUrl, s.error)
  }

  /** `handleSuggestionClick`: the suggestion replaces the text and the
      error is always cleared. */
  function ChooseSuggestion(s: UrlState, suggested: string): (r: UrlState)
    ensures r.url == suggested && r.error.None?
  {
    UrlState(suggested, None)
  }

  /** The submit button's enable rule: not while loading, not with a blank
      input, not while an error is shown. */
  predicate SubmitEnabled(s: UrlState, isLoading: bool): (b: bool)
    ensures b <==> !isLoading && Strip(s.url) != "" && s.error.None?
  {
    !isLoading && !IsBlank(s.url) && s.error.None?
  }

  /** Through the button, the blank-input message is never produced, and
      a submission happens exactly when the trimmed URL validates. */
  lemma EnabledSubmitIsNeverBlank(s: UrlState, isLoading: bool, hostOf: string -> Option<string>)
    requires SubmitEnabled(s, isLoading)
    ensures Submit(s, hostOf).0.error != Some(EmptyUrlMessage)
    ensures Submit(s, hostOf).1.Some? <==> ValidateUrl(Strip(s.url), hostOf).None?
  {
    assert |InvalidUrlMessage| != |EmptyUrlMessage|;
    assert |UnsupportedMessage| != |EmptyUrlMessage|;
  }

  /** After a refusal the button stays disabled until the text changes to
      something non-blank or a suggestion is chosen. */
  lemma RefusalDisablesUntilEdited(s: UrlState, hostOf: string -> Option<string>, newUrl: string)
    requires Submit(s, hostOf).1.None?
    ensures !SubmitEnabled(Submit(s, hostOf).0, false)
    ensures SubmitEnabled(Type(Submit(s, hostOf).0, newUrl), false) <==> !IsBlank(newUrl)
  {
  }
}
